=== FILE: README.md ===
# Timed mock-interview app: a Dafny model

This project models the decision logic of a browser app that runs a timed mock
technical interview. A candidate uploads a résumé (PDF or DOCX), confirms name,
email and phone, and answers six questions: two easy, two medium and two hard,
with 20, 60 and 120 seconds each. Each answer is scored heuristically, and at
the end the candidate gets a final score and a one-sentence summary. An
interviewer dashboard lists all candidates, with search and a best-score-first
order.

In the original, this logic is spread over a Redux slice and React components.
Here it is a set of pure functions over one immutable `AppState`:

| file | module | what it models |
|---|---|---|
| `optional.dfy` | `Optional` | `T \| undefined` as `Option`, a thrown error as `Result`, JavaScript truthiness of strings, `a \|\| b` |
| `js_math.dfy` | `JsMath` | `Math.round` as `Floor(x + 0.5)`, `Math.min`/`Math.max` |
| `text.dfy` | `Text` | the JavaScript string operations the app relies on: `trim`, `split(/\s+/)`, `join`, `toLowerCase` on ASCII, `includes`, whitespace-run replacement, decimal printing and parsing |
| `store.dfy` | `Store` | the state tree, `Partial<T>` patches and their shallow merge, the six reducers, the invariant linking the record map to the insertion-order list |
| `questions.dfy` | `Questions` | the question and keyword pools, question ids, the random draw of six questions, keyword lookup by id |
| `scoring.dfy` | `Scoring` | `evaluateAnswer` / `scoreAnswer`: keyword hits, structure cues, length bands, difficulty weight, overtime penalty, the clamp and the hit bonus |
| `summary.dfy` | `Summary` | `average` and `summarizeCandidate` |
| `interview.dfy` | `Interview` | the question screen: timer start, remaining time, submit (record, then advance or finalise), auto-submit on timeout, logging each question to the transcript |
| `resume.dfy` | `Resume` | file-type dispatch, `capitalize`, `toTitleCase`, `deriveNameFromFilename`, the four ordered name heuristics of `extractProfileFromText` |
| `profile_form.dfy` | `ProfileForm` | the confirmation form: the phone rule's anchored pattern, the field rules, and `onFinish` |
| `upload.dfy` | `Upload` | `beforeUpload`: record construction and the move to the profile step |
| `interviewee.dfy` | `Interviewee` | the pause applied on mount, and the panel shown for each stage |
| `welcome_back.dfy` | `WelcomeBack` | when the welcome-back modal shows and is open, and its resume action |
| `app.dfy` | `AppShell` | "Start New Interview" |
| `dashboard.dfy` | `Dashboard` | dashboard rows, search, default order, column comparators, score and status tags |

Everything that is not a pure function of the state becomes a parameter of the transition:

- `now`: the clock at the handler.
- `tick`: the question screen's last 250 ms clock reading.
- The answer text.
- The fresh candidate id.
- The text the PDF or DOCX extractor returns, or the error it throws.
- The first email and phone matches in that text.
- Whether the form library judged the email well-formed.
- The list of questions the random draw returned. The confirmation form takes any list of the draw's shape: six questions, two easy, two medium and two hard in that order. The method `GenerateInterviewQuestions` shows that every outcome of the draw has that shape and is the question set of some `Picks` value, two distinct pool indices per difficulty.

Scores and time arithmetic use exact `real`s.

## Model

| member | source | states |
|---|---|---|
| JsMath.Round | src/components/InterviewChat.tsx:41 | `Math.round` lands within half a unit of its argument, rounding halves up |
| Store.MergeRecord | src/store/index.ts:85 | every field a record patch carries wins, every other field is kept |
| Store.MergeSession | src/store/index.ts:89 | the same for the session; an explicit `undefined` in the patch clears the field |
| Store.MergeLaws | src/store/index.ts:85-89 | the empty patch changes nothing and applying a patch twice is applying it once |
| Store.InitialStateValid | src/store/index.ts:54-63 | the initial state satisfies the map/order invariant |
| Store.SetActiveTab | src/store/index.ts:70-72 | only `ui.activeTab` changes |
| Store.SetDarkMode | src/store/index.ts:73-75 | only `ui.darkMode` changes |
| Store.UpsertCandidate | src/store/index.ts:76-80 | the record is stored under its id, other records kept, the id appended only when absent, so the order list stays duplicate-free |
| Store.UpsertFreshCandidate | src/store/index.ts:76-80 | a record under a new id appends exactly that id to the order list and keeps both invariants |
| Store.UpdateCandidate | src/store/index.ts:81-87 | an unknown id is a no-op; otherwise the stored record is shallow-merged and the order list is untouched |
| Store.SetSession | src/store/index.ts:88-90 | the session is shallow-merged and nothing outside it changes |
| Store.ResetSession | src/store/index.ts:91-93 | from any state: stage idle, index 0, not paused, no candidate, no deadline; nothing outside the session changes |
| Store.ReducePreservesValid | src/store/index.ts:66-95 | every reducer keeps the order list duplicate-free and equal as a set to the record map's keys |
| Store.ReducePreservesKeyedById | src/store/index.ts:76-87 | every reducer keeps each record under its own id, unless a patch rewrites the id |
| Store.ReduceAllPreservesValid | src/store/index.ts:66-95 | any sequence of dispatched actions keeps the invariant |
| Store.CurrentCandidate | src/components/InterviewChat.tsx:11 | the selected record exists exactly when the session's id is a non-empty string with a record |
| Questions.QuestionTime | src/ai/engine.ts:3-7 | every difficulty has a positive time limit |
| Questions.Pool | src/ai/engine.ts:9-31 | each difficulty has five questions |
| Questions.KeywordPool | src/ai/engine.ts:61-83 | each difficulty has five keyword rows |
| Questions.MakeQuestion | src/ai/engine.ts:46-47 | a drawn question carries id `<difficulty>-<idx>`, the pool text and no answer, time or score |
| Questions.KeywordsFor | src/ai/engine.ts:85-90 | any row found is a row of the question's own pool; an id without '-' gets row 0 |
| Questions.KeywordsForId | src/ai/engine.ts:85-90 | an id of the form `<difficulty>-<idx>` leads back to keyword row `idx` of the question's pool |
| Questions.KeywordsForGenerated | src/ai/engine.ts:85-90 | the id of pool entry `idx` leads back to keyword row `idx` |
| Questions.QuestionIdInjective | src/ai/engine.ts:45-48 | distinct pool indices give distinct ids |
| Questions.QuestionSet | src/ai/engine.ts:39-58 | six questions: slots 0-1 easy, 2-3 medium, 4-5 hard, each from its pool, with two distinct ids per difficulty |
| Questions.QuestionSetKeywords | src/ai/engine.ts:85-90 | every generated question's keyword row is its own pool index's |
| Questions.PickRandom | src/ai/engine.ts:33-37 | the pick is an index of the array outside the excluded set, with its value |
| Questions.DrawTwo | src/ai/engine.ts:45-48 | one draw loop yields two questions of its difficulty, from the pool, with distinct ids, drawn from two distinct pool indices |
| Questions.GenerateInterviewQuestions | src/ai/engine.ts:39-58 | the result is the question set of some valid draw, with difficulties easy, easy, medium, medium, hard, hard |
| Scoring.DiffWeight | src/ai/engine.ts:138 | the weight lies in 1.0..1.4 |
| Scoring.KeywordHits | src/ai/engine.ts:113-116 | hits never exceed the number of keywords |
| Scoring.UppercaseKeywordNeverHits | src/ai/engine.ts:109-115 | a keyword with an uppercase letter never occurs in a lowercased answer |
| Scoring.HitsIgnoreUppercaseKeywords | src/ai/engine.ts:109-116 | hits are bounded by the number of keywords without uppercase letters |
| Scoring.ContentScore | src/ai/engine.ts:117 | the content score lies in 0..10 and is 0 without hits |
| Scoring.ContentScoreMonotone | src/ai/engine.ts:117 | more hits never lower the content score |
| Scoring.StructureScore | src/ai/engine.ts:119-127 | the score is in {0,2,3,5,6,8}: 2 exactly for a connector, plus 3 each for a list and a code cue, so the cap of 10 never binds |
| Scoring.HasList | src/ai/engine.ts:120 | a list cue: a line break followed by optional whitespace and '-', '*' or a digit, or a digit directly followed by ')' |
| Scoring.HasCode | src/ai/engine.ts:121 | a code cue: a back-quoted non-empty span, the whole words `const` or `function`, or `=>` |
| Scoring.HasConnector | src/ai/engine.ts:122 | a connector cue: one of the seven connector phrases occurs in the lower-cased answer |
| Scoring.ConnectorIgnoresCase | src/ai/engine.ts:122 | the connector test gives the same answer on the text and on its lower-casing, as the `i` flag promises |
| Scoring.LengthScore | src/ai/engine.ts:130-135 | the length score is one of 1, 4, 7, 8, 9 |
| Scoring.LengthScoreShape | src/ai/engine.ts:130-135 | the length score grows with the word count up to 149 words and then drops by one |
| Scoring.LengthScoreBands | src/ai/engine.ts:130-135 | the score on both sides of every band edge: 1 at 0 and 9 words, 4 at 10 and 29, 7 at 30 and 79, 9 at 80 and 149, 8 at 150; with the monotone shape this fixes every band |
| Scoring.TimePenalty | src/ai/engine.ts:141-145 | no penalty within the limit; over it the penalty lies in (0, 3] |
| Scoring.TimePenaltyMonotone | src/ai/engine.ts:142-145 | a slower answer is never penalised less |
| Scoring.ReportedPenalty | src/ai/engine.ts:154 | the two-decimal penalty reported stays in 0..3 and is 0 for no penalty |
| Scoring.CombineScore | src/ai/engine.ts:147-153 | the score is in 0..100 and between the hit bonus and 90 plus the hit bonus |
| Scoring.CombineScoreNear | src/ai/engine.ts:145-153 | less the hit bonus, the score is the nearest integer (halves up) to nine times the raw score minus the penalty, held to 0..10 |
| Scoring.CombineScoreMonotone | src/ai/engine.ts:145-153 | a higher raw score or a smaller penalty never lowers the score |
| Scoring.CombineScoreSaturates | src/ai/engine.ts:147-153 | without a penalty, a raw score of 10 or more gives 90 plus the bonus, and one of 0 or less gives the bonus alone |
| Scoring.PenaltyComesOffRaw | src/ai/engine.ts:145 | a penalty acts exactly as a raw score lowered by it |
| Scoring.Evaluate | src/ai/engine.ts:92-155 | a blank answer scores 0 in every part, with the difficulty's weight; otherwise every part is in its range and the score is at least the hit bonus; absent only when a non-blank answer has no keyword row |
| Scoring.EvaluateReadsAnswer | src/ai/engine.ts:106-154 | on a non-blank answer with a keyword row, the length band comes from the trimmed answer's word count, the hits from its lower-cased text, the structure cues from the text, the content score from the hits, the reported penalty from the time taken, and the score from the weighted raw score of the three parts, the unrounded penalty and the hits |
| Scoring.ScoreAnswer | src/ai/engine.ts:157-163 | a blank answer scores 0; every score is in 0..100 |
| Scoring.BlankAnswerScoresZero | src/ai/engine.ts:102-104 | a blank answer's evaluation is 0 and does not depend on the time taken |
| Scoring.PoolQuestionsScorable | src/ai/engine.ts:85-90 | every pool question can be evaluated |
| Scoring.ScoringExamples | src/ai/engine.ts:117-145 | concrete values: 3 hits out of 6 give content 6; 30 s on an easy question costs 1 point |
| Summary.SumBounds | src/ai/engine.ts:185 | the sum of numbers in lo..hi lies in lo*n..hi*n |
| Summary.MeanBounds | src/ai/engine.ts:185 | the mean of numbers in 0..100 is in 0..100 |
| Summary.Average | src/ai/engine.ts:183-186 | 0 for no numbers; otherwise the mean rounded to the nearest tenth, halves up (within 0.05 of the mean, above its lower half-step); always a multiple of 0.1; in 0..100 for scores in 0..100 |
| Summary.Strengths | src/ai/engine.ts:173-175 | one to three tags, each present exactly when its average is a maximum |
| Summary.Areas | src/ai/engine.ts:177-178 | each improvement area is present exactly when its average is below 50 |
| Summary.ImprovementText | src/ai/engine.ts:180 | the text is 'n/a' exactly when both the hard and the medium averages are at least 50 |
| Summary.SummarizeCandidate | src/ai/engine.ts:165-181 | the text starts with "<name> scored <n>. " followed by "Strengths: <tags joined with ', '>. ", so it always names at least one strength; it ends in "Improvement areas: n/a." exactly when the hard and medium averages are at least 50 |
| Summary.SuffixOfSummary | src/ai/engine.ts:180 | the closing words read 'n/a' exactly in that case, whatever came before |
| Summary.SummaryExample | src/ai/engine.ts:169-180 | averages 90/40/30 give one strength and both improvement areas |
| Interview.CurrentQuestion | src/components/InterviewChat.tsx:23-25 | a question exists exactly when the index is inside the list |
| Interview.TimeLeftMs | src/components/InterviewChat.tsx:39 | the time left is never negative, and is 0 exactly when the deadline (0 when unset) is not after the tick |
| Interview.TotalMs | src/components/InterviewChat.tsx:40 | the question's full time is positive |
| Interview.Percent | src/components/InterviewChat.tsx:41 | the progress percentage is in 0..100 while the time left is within the limit, and 0 when time is up |
| Interview.PercentBounds | src/components/InterviewChat.tsx:41 | the rounding behind the percentage stays in range |
| Interview.SpentSec | src/components/InterviewChat.tsx:44 | the seconds spent are within the limit while the time left is, and equal the limit once time is up |
| Interview.SpentBounds | src/components/InterviewChat.tsx:44 | the rounding behind the seconds spent stays in range |
| Interview.NoPenaltyWithinDeadline | src/components/InterviewChat.tsx:39-45 | a deadline at most one limit ahead gives a spent time the engine never penalises |
| Interview.InitTimer | src/components/InterviewChat.tsx:21-32 | without a question on screen, or with a deadline set, nothing changes; otherwise only the deadline is set, to now plus the question's limit |
| Interview.InitTimerIdempotent | src/components/InterviewChat.tsx:27-29 | once the timer is set (at a positive time) the effect does nothing more |
| Interview.TranscriptText | src/components/InterviewChat.tsx:51 | the transcript shows the untrimmed answer, '[No answer]' for an empty automatic one, '' for an empty manual one |
| Interview.FinalScore | src/components/InterviewChat.tsx:60 | the mean of the question scores, an unscored question counting 0, rounded to the nearest integer with halves up; in 0..100 when the scores are |
| Interview.FinalScoreExample | src/components/InterviewChat.tsx:60 | scores 80, 60, 70, 50, 40, 30 give 55 |
| Interview.PrepareSubmission | src/components/InterviewChat.tsx:43-51 | a submission exists only while a question shows; in it the current question alone gets the trimmed answer, the seconds spent and the score, and the transcript gets exactly one user entry |
| Interview.PrepareFailsOnlyWhenUnscorable | src/components/InterviewChat.tsx:44-45 | with a question on screen, a submission fails exactly when the scorer throws: the question has no keyword row and the answer is not blank |
| Interview.ApplySubmission | src/components/InterviewChat.tsx:51-65 | the dispatches of one submission rewrite only the record they name, keep its id, and store its questions and transcript; other records, the order list and the UI are untouched |
| Interview.ApplyAdvances | src/components/InterviewChat.tsx:54-57 | before the sixth question the index moves on by one, with a deadline set by the next question's own time limit; no outcome is written |
| Interview.ApplyFinishes | src/components/InterviewChat.tsx:58-63 | at the sixth question the record gets the rounded mean score, the summary and the completion time; the session completes and its deadline is cleared |
| Interview.Submit | src/components/InterviewChat.tsx:43-66 | a submit never adds or removes a record and leaves the order list and the interface settings alone |
| Interview.SubmitNoOp | src/components/InterviewChat.tsx:34-37 | without a question on screen (or when the scorer throws) a submit changes nothing |
| Interview.SubmitWritesOneQuestion | src/components/InterviewChat.tsx:43-51 | with a question on screen that the scorer accepts, a submission exists; it changes only the current question and appends one transcript entry, leaving other records, the order and the UI untouched |
| Interview.SubmitAdvances | src/components/InterviewChat.tsx:54-57 | for an answer the scorer accepts, before question 6 the index advances by one with a fresh deadline for the next question; stage and results are kept |
| Interview.SubmitFinalizes | src/components/InterviewChat.tsx:58-63 | at question 6 the record gets the final score, the summary and the completion time; the session completes and its deadline is cleared |
| Interview.AutoSubmitDue | src/components/InterviewChat.tsx:68-73 | the auto-submit effect's guards: unpaused, a truthy deadline, no time left, and the interview in progress |
| Interview.AutoSubmit | src/components/InterviewChat.tsx:68-75 | the clock submits (as automatic) exactly when the session is unpaused, in progress, with a set deadline and no time left |
| Interview.PausedNeverAutoSubmits | src/components/InterviewChat.tsx:69 | a paused session never auto-submits |
| Interview.DueMeansExpired | src/components/InterviewChat.tsx:68-73 | auto-submit is due exactly when a non-zero deadline is at or before the tick in an unpaused running session |
| Interview.LogQuestion | src/components/InterviewChat.tsx:78-87 | the current question is appended as an assistant entry unless the transcript already ends with it |
| Interview.LogQuestionIdempotent | src/components/InterviewChat.tsx:82-85 | logging twice logs once |
| Interview.InitTimerKeepsValid | src/components/InterviewChat.tsx:29 | the timer effect keeps the store invariant |
| Interview.SubmitKeepsValid | src/components/InterviewChat.tsx:43-66 | a submit keeps the store invariant |
| Interview.LogQuestionKeepsValid | src/components/InterviewChat.tsx:84 | question logging keeps the store invariant |
| Resume.ResumeKindOf | src/utils/resume.ts:35-47 | PDF by MIME type or lowercased '.pdf' name first, then DOCX likewise, otherwise the 'Unsupported file type' error |
| Resume.KindIgnoresNameCase | src/utils/resume.ts:36-42 | the dispatch does not depend on the name's letter case |
| Resume.KindExamples | src/utils/resume.ts:35-47 | a PDF MIME type wins over a '.docx' name; 'CV.DOCX' is DOCX; 'cv.txt' is refused |
| Resume.GetResumeText | src/utils/resume.ts:35-47 | an unsupported file gives the error; otherwise the extractor's outcome |
| Resume.Capitalize | src/utils/resume.ts:144-146 | the length is kept, the first character uppercased, the rest unchanged |
| Resume.CapitalizeIdempotent | src/utils/resume.ts:144-146 | capitalising twice is capitalising once |
| Resume.UpperFixpoint | src/utils/resume.ts:138 | a word equals its uppercase exactly when it has no lowercase letter |
| Resume.TitleWord | src/utils/resume.ts:138 | an all-caps word becomes first-upper rest-lower; any other word only gets its first letter uppercased |
| Resume.TitleWordsAreWords | src/utils/resume.ts:138 | title-casing keeps words free of whitespace and non-empty |
| Resume.TitleCase | src/utils/resume.ts:135-142 | the result is trimmed with single spaces between words |
| Resume.TitleCaseOfWords | src/utils/resume.ts:135-142 | on space-joined words, title-casing works word by word and splits back into the title-cased words |
| Resume.TitleCaseWordwise | src/utils/resume.ts:135-142 | on any trimmed string, the words of the title-cased result are the input's words, each title-cased |
| Resume.LastDot | src/utils/resume.ts:150 | the last '.' of the name, if any |
| Resume.StripExtension | src/utils/resume.ts:150 | the result is a prefix; what was removed is a '.' and a non-empty dot-free tail; nothing is removed only when no such tail exists |
| Resume.LowerEqMeansToLower | src/utils/resume.ts:153 | comparing letter by letter while ignoring case is the same as comparing the lowercased text with the lowercase word, which is what the `i` flag does |
| Resume.FirstMatch | src/utils/resume.ts:153 | the alternative found matches case-insensitively at the start of the text; when none is found, no alternative matches there |
| Resume.RemovedPrefix | src/utils/resume.ts:153 | a removal writes a space where a matched word was: the result up to its first space is the input's own prefix |
| Resume.NoWordAtStart | src/utils/resume.ts:153 | when no word matches at the start of the text, none starts the result either |
| Resume.RemoveWords | src/utils/resume.ts:153 | the global case-insensitive replace: at each position the first listed word that matches becomes one space, any other character is copied |
| Resume.NoWordLeft | src/utils/resume.ts:153 | after the global replacement no word of the list matches anywhere in the result |
| Resume.NoResumeWordLeft | src/utils/resume.ts:153 | after removal no résumé word occurs anywhere |
| Resume.FileNameTokens | src/utils/resume.ts:150-158 | the remaining tokens are words that start with a letter and hold only letters, apostrophes and hyphens |
| Resume.DeriveNameFromFilename | src/utils/resume.ts:149-163 | defined exactly when two to four tokens remain, and then it is those tokens title-cased, one space apart |
| Resume.Lines | src/utils/resume.ts:53-56 | the lines are non-empty and trimmed |
| Resume.LinesOfJoin | src/utils/resume.ts:53-56 | non-empty, trimmed lines without a line break, joined with '\n', are read back as exactly those lines |
| Resume.SkipSpacesIsMaximal | src/utils/resume.ts:80 | the skipped whitespace run is the longest one |
| Resume.LabelValue | src/utils/resume.ts:80 | the captured value exists exactly when the 'name' label pattern matches, and it is the greedy capture |
| Resume.LabelSeparator | src/utils/resume.ts:80 | every match uses the first ':' or '-' after the label |
| Resume.LabelGroupStart | src/utils/resume.ts:80 | the capture starts after the whitespace that follows the separator |
| Resume.CleanName | src/utils/resume.ts:84 | the cleaned value holds only letters, apostrophes, hyphens and single spaces, and its words are the words of the kept characters, each title-cased |
| Resume.LabelName | src/utils/resume.ts:80-87 | a label line yields a name exactly when its trimmed value has at most six words, and the name is that value cleaned |
| Resume.LabelLine | src/utils/resume.ts:79-87 | headings never yield a name |
| Resume.LabelStep | src/utils/resume.ts:77-88 | the first of the first 15 lines that yields a labelled name decides, and no earlier one yields any |
| Resume.AlphaParts | src/utils/resume.ts:96-97 | the tokens kept are words containing a letter |
| Resume.HeaderName | src/utils/resume.ts:93-106 | a header line is not a heading, holds neither the email nor the phone match, and has 2-4 lettered tokens, all Title-case or all capitals; the name is those tokens title-cased; and every line meeting all of these conditions does give a name |
| Resume.HeaderStep | src/utils/resume.ts:90-108 | the first of the first 10 lines that qualifies decides |
| Resume.EmailParts | src/utils/resume.ts:112-114 | the local part's pieces are words of at least two characters |
| Resume.EmailName | src/utils/resume.ts:111-118 | defined exactly when two to four pieces remain; then they are title-cased |
| Resume.FallbackName | src/utils/resume.ts:120-126 | a name exactly when there is a first line and it has at most five words once cleaned; the name is that cleaned line |
| Resume.Settle | src/utils/resume.ts:91-126 | a later step runs only while no non-empty name has been found |
| Resume.EmailStep | src/utils/resume.ts:110-118 | no email gives no name; a name from the email is single-spaced |
| Resume.NameSteps | src/utils/resume.ts:74-126 | there are four name steps and each gives no name or a single-spaced one |
| Resume.ChooseName | src/utils/resume.ts:74-126 | the first step that yields a non-empty name wins; otherwise '' if some step produced '', else no name |
| Resume.TidyPhone | src/utils/resume.ts:131 | the phone is single-spaced |
| Resume.TidyPhoneKeepsTidy | src/utils/resume.ts:131 | an already tidy phone is unchanged |
| Resume.ExtractProfile | src/utils/resume.ts:49-133 | the email is the match verbatim and the phone the tidied match; the name is the label step's when that is non-empty, else the header step's when that is, else the email step's, else the first line's, and is single-spaced |
| ProfileForm.PhonePattern | src/components/MissingFieldsForm.tsx:61 | the anchored phone pattern: some split of the value into a country code, an area code and a local number |
| ProfileForm.PhonePatternShape | src/components/MissingFieldsForm.tsx:61 | an accepted phone has 7 to 19 characters, all digits, separators, '+' or parentheses, and ends in a digit |
| ProfileForm.PlaceholderAccepted | src/components/MissingFieldsForm.tsx:61-62 | '+1 555 555 5555' is accepted |
| ProfileForm.NonPhonesRefused | src/components/MissingFieldsForm.tsx:61 | anything shorter than 7 characters or containing a letter is refused |
| ProfileForm.Prefill | src/components/MissingFieldsForm.tsx:14-22 | the form opens with the stored name, email and phone |
| ProfileForm.ConfirmedProfile | src/components/MissingFieldsForm.tsx:33 | the three submitted fields override, the résumé metadata is kept |
| ProfileForm.RulesPass | src/components/MissingFieldsForm.tsx:50-63 | the form's field rules: all three fields present, the email well-formed, the phone matching its pattern |
| ProfileForm.OnFinish | src/components/MissingFieldsForm.tsx:26-42 | a missing field changes nothing; otherwise the profile takes the three values, the record takes the drawn questions, and the session starts question 0 with a deadline of the first question's time limit; no record is added or removed |
| ProfileForm.ConfirmProfile | src/components/MissingFieldsForm.tsx:24-42 | nothing happens without a candidate or when a field rule fails; otherwise the profile is merged, the six drawn questions are stored and question 0 starts with a deadline 20 s away |
| ProfileForm.OnFinishEffect | src/components/MissingFieldsForm.tsx:26-42 | the two record updates and the session patch combine into one profile-and-questions write plus the start of question 0 |
| ProfileForm.ConfirmPrefilledKeepsProfile | src/components/MissingFieldsForm.tsx:14-36 | confirming the prefilled values keeps the profile and only adds the questions |
| ProfileForm.ConfirmStartsFirstQuestion | src/components/MissingFieldsForm.tsx:37-40 | afterwards the first, easy question shows, the timer effect leaves it alone and nothing auto-submits before the deadline |
| ProfileForm.ConfirmKeepsInvariants | src/components/MissingFieldsForm.tsx:33-40 | confirmation keeps the store invariant and the id keying |
| Upload.ResolvedName | src/components/ResumeUpload.tsx:20-30 | the name from the text when non-empty, else the name from the file name, else '' |
| Upload.FileType | src/components/ResumeUpload.tsx:33 | the MIME type when present; otherwise 'docx' exactly for a name ending in '.docx' (case-sensitive), else 'pdf' |
| Upload.BeforeUpload | src/components/ResumeUpload.tsx:16-50 | a failed read changes nothing; otherwise a fresh record with the resolved profile, empty questions and one system transcript entry is stored, and the session points at it on the profile step, unpaused, deadline untouched |
| Upload.UploadedNameSingleSpaced | src/components/ResumeUpload.tsx:20-30 | the stored name is single-spaced whichever source it came from |
| Upload.UploadAppendsFreshId | src/components/ResumeUpload.tsx:26-41 | a fresh id ends up exactly once, at the end of the order list |
| Upload.UploadKeepsValid | src/components/ResumeUpload.tsx:41-42 | every upload keeps the store invariant |
| Upload.UploadSelectsNewCandidate | src/components/ResumeUpload.tsx:42 | the new record becomes the current candidate on the profile step |
| Upload.UnsupportedFileIgnored | src/components/ResumeUpload.tsx:19 | a file that is neither PDF nor DOCX changes nothing |
| Interviewee.MountPause | src/pages/Interviewee.tsx:16-20 | the session ends up paused exactly when it was paused or is on the profile step or in the questions; only the flag changes; idle and completed sessions are untouched |
| Interviewee.MountPauseIdempotent | src/pages/Interviewee.tsx:17-18 | mounting twice pauses once |
| Interviewee.DisplayName | src/pages/Interviewee.tsx:45 | a heading names the candidate, or 'Candidate' for an empty or missing name |
| Interviewee.Panels | src/pages/Interviewee.tsx:26-57 | at most one panel shows, and exactly the one for the stage; the result panel needs the candidate and shows its score and summary; the interview and result headings end with the candidate's display name (the latter followed by '!') |
| WelcomeBack.Show | src/components/WelcomeBackModal.tsx:9-14 | the modal shows for a current candidate on the profile step or in the questions |
| WelcomeBack.ModalOpen | src/components/WelcomeBackModal.tsx:18 | the modal is open while it shows and the session is paused |
| WelcomeBack.Resume | src/components/WelcomeBackModal.tsx:20-21 | the resume action unpauses, closes the modal and changes nothing else |
| WelcomeBack.PauseResumeRoundTrip | src/components/WelcomeBackModal.tsx:20 | pausing on mount and then resuming restores an unpaused state exactly |
| WelcomeBack.MountOpensModal | src/components/WelcomeBackModal.tsx:11-18 | after mounting, the modal is open exactly when it shows |
| WelcomeBack.OpenModalBlocksAutoSubmit | src/components/WelcomeBackModal.tsx:18 | while the modal is open the clock cannot submit |
| AppShell.NewInterview | src/App.tsx:16-21 | the session becomes the initial session from any state; records, order and theme are kept; the candidate tab is active |
| AppShell.NewInterviewKeepsValid | src/App.tsx:16-21 | the action is its three dispatches and keeps the store invariant |
| AppShell.IdlePatchRedundant | src/App.tsx:18-19 | the explicit idle patch repeats what the reset did |
| AppShell.NewInterviewStartsAtUpload | src/App.tsx:16-21 | afterwards the upload panel shows and no modal does; doing it twice is doing it once |
| Dashboard.RowOf | src/pages/Interviewer.tsx:26-31 | a missing name shows 'Unknown', a missing email or phone '—'; score and completion are copied |
| Dashboard.Rows | src/pages/Interviewer.tsx:22-32 | every row belongs to an id of the order list that has a record |
| Dashboard.RowsFollowOrder | src/pages/Interviewer.tsx:22-24 | with a record for each listed id there is one row per id, in order |
| Dashboard.DashboardListsEveryCandidate | src/pages/Interviewer.tsx:22-32 | in a consistent store the row keys spell out the order list |
| Dashboard.FilterRows | src/pages/Interviewer.tsx:34-36 | a row is kept exactly when the lowercased query occurs in its lowercased name or email |
| Dashboard.EmptyQueryKeepsAll | src/pages/Interviewer.tsx:34-36 | the empty query keeps every row in place |
| Dashboard.Insert | src/pages/Interviewer.tsx:38 | inserting into a best-first list keeps it best-first and adds exactly the row |
| Dashboard.SortRows | src/pages/Interviewer.tsx:38 | the default order is a permutation, best score first, with unscored rows after every row scored 0 or more |
| Dashboard.Listing | src/pages/Interviewer.tsx:34-38 | the table is a best-first permutation of the matching rows |
| Dashboard.ListingContents | src/pages/Interviewer.tsx:34-38 | a row is listed exactly when it belongs to a stored candidate and matches the search |
| Dashboard.ScoreCompare | src/pages/Interviewer.tsx:48 | the score column compares scores with a missing score as 0 |
| Dashboard.CompletedCompare | src/pages/Interviewer.tsx:55 | the status column compares completion times with a missing one as 0 |
| Dashboard.ComparatorsAntisymmetric | src/pages/Interviewer.tsx:48-55 | swapping the rows negates either comparator |
| Dashboard.UnscoredConventionsDiffer | src/pages/Interviewer.tsx:38-48 | the comparator ties an unscored row with a 0, while the default order puts the 0 first |
| Dashboard.ScoreTag | src/pages/Interviewer.tsx:49 | green from 70, orange from 40, red below, 'NA' when unscored |
| Dashboard.ScoreTagMonotone | src/pages/Interviewer.tsx:49 | a higher score never gets a worse colour |
| Dashboard.StatusTag | src/pages/Interviewer.tsx:56 | 'Completed' exactly for a non-zero completion time, otherwise 'In Progress' |

## Left out

- PDF and DOCX text extraction (`src/utils/resume.ts:1-33`). These are calls into foreign libraries. The extractor's outcome is a `Result<string>` parameter.
- The email and phone searches in the résumé text (`src/utils/resume.ts:50-51`). Their first matches are `Option<string>` parameters. The confirmation form's own phone rule is modelled in full.
- Resume.ExtractProfile: the email and phone are only as good as the matches passed in.
- ProfileForm.RulesPass: the form library's email-format check is a boolean input, not a regular expression.
- Persistence: the persisted store, `purge` and the page reload behind "Logout". These are storage and page I/O.
- Timers, clocks, randomness and ids: `setInterval`, `Date.now()`, `Math.random` and `uuidv4` become parameters.
  - `now` is one reading per handler. The app reads the clock separately for `startedAt` and the first transcript entry, and for the transcript entry and the next deadline, and those readings can differ by a millisecond.
  - The answer text held in component state is a parameter.
- React effect scheduling, stale closures and re-renders. Each effect is a transition applied when it runs. Nothing is claimed about two submits racing.
- Toast messages and console output.
- The JSX layout beyond which panel and which tag shows.
- Interviewee.Panels: the contract states that each heading ends with the display name, not the words before it, and not the panels' body text, since the JSX markup is not modelled.
- Interview.Submit: when the next question is missing, the app throws after its first dispatch. The model keeps the recorded answer and changes nothing else.
- The name column's `localeCompare` sorter (`src/pages/Interviewer.tsx:41`). It is locale-dependent.
- Dashboard.SortRows: the order among rows with equal scores is not stated. The insertion places each row ahead of the later rows it ties with, which is what a stable sort does, but no contract says so.
- IEEE-754 arithmetic. Scores and times are exact rationals, so a value at an exact .5 rounding boundary may round differently than in JavaScript.
- Scoring.Evaluate: `Number()` on a question id's index segment is modelled for decimal digits and the empty string only. Any other segment is taken to throw.
- Unicode case mapping: `toLowerCase`/`toUpperCase` are modelled on ASCII letters only. Other characters pass through unchanged.
- String lengths are counted in characters, not UTF-16 code units.
- Rendering-only components: the candidate detail drawer, the transcript view, the error boundary and the entry point.

=== FILE: app.dfy ===
/**
 * The application shell's "Start New Interview" action.
 */
module AppShell {
  import opened Optional
  import opened Store
  import opened Interviewee
  import opened WelcomeBack

  /** The session patch the action sends after the reset, naming every field. */
  const IdlePatch: SessionPatch := SessionPatch(Some(None), Some(Idle), Some(0), Some(None), Some(false))

  /**
   * `handleNewInterview`: reset the session, patch it to idle once more, and
   * switch to the candidate's tab. Records, their order and the theme stay.
   */
  function NewInterview(st: AppState): (r: AppState)
    ensures r.session == InitialSession
    ensures r.candidates == st.candidates && r.candidateOrder == st.candidateOrder
    ensures r.ui.activeTab == IntervieweeTab && r.ui.darkMode == st.ui.darkMode
  {
    SetActiveTab(SetSession(ResetSession(st), IdlePatch), IntervieweeTab)
  }

  /** The three dispatches the action makes, for stating facts through the reducers. */
  const NewInterviewActions: seq<Action> :=
    [ResetSessionAction, SetSessionAction(IdlePatch), SetActiveTabAction(IntervieweeTab)]

  /** The action is exactly its three dispatches, and keeps the store invariant. */
  lemma NewInterviewKeepsValid(st: AppState)
    requires Valid(st)
    ensures NewInterview(st) == ReduceAll(st, NewInterviewActions)
    ensures Valid(NewInterview(st))
  {
    var s1 := Reduce(st, NewInterviewActions[0]);
    var s2 := Reduce(s1, NewInterviewActions[1]);
    var s3 := Reduce(s2, NewInterviewActions[2]);
    assert NewInterviewActions[1..][1..][1..] == [];
    assert ReduceAll(s3, []) == s3;
    assert ReduceAll(s2, NewInterviewActions[2..]) == s3;
    assert ReduceAll(s1, NewInterviewActions[1..]) == s3;
    ReduceAllPreservesValid(st, NewInterviewActions);
  }

  /** The second patch repeats what the reset already did. */
  lemma IdlePatchRedundant(st: AppState)
    ensures SetSession(ResetSession(st), IdlePatch) == ResetSession(st)
  {
  }

  /** A new interview is idle: the upload panel shows, no modal, and the action is idempotent. */
  lemma NewInterviewStartsAtUpload(st: AppState)
    ensures Panels(NewInterview(st)) == [UploadPanel]
    ensures !ModalOpen(NewInterview(st))
    ensures NewInterview(NewInterview(st)) == NewInterview(st)
  {
  }
}

=== FILE: dashboard.dfy ===
/**
 * The interviewer's dashboard: one row per stored candidate in insertion
 * order, the search filter, the default best-score-first order, the column
 * comparators and the tags drawn in the score and status columns.
 */
module Dashboard {
  import opened Optional
  import opened Text
  import opened Store

  // ---------------------------------------------------------------------------
  // Rows
  // ---------------------------------------------------------------------------

  datatype Row = Row(
    key: string,
    name: string,
    email: string,
    phone: string,
    score: Option<int>,
    completedAt: Option<int>)

  /** A record as a row; an empty name shows as 'Unknown', an empty email or phone as '—'. */
  function RowOf(c: CandidateRecord): (r: Row)
    ensures r.key == c.id && r.score == c.finalScore && r.completedAt == c.completedAt
    ensures r.name != "" && r.email != "" && r.phone != ""
    ensures c.profile.name != "" ==> r.name == c.profile.name
    ensures c.profile.name == "" ==> r.name == "Unknown"
    ensures c.profile.email != "" ==> r.email == c.profile.email
    ensures c.profile.email == "" ==> r.email == "—"
    ensures c.profile.phone != "" ==> r.phone == c.profile.phone
    ensures c.profile.phone == "" ==> r.phone == "—"
  {
    Row(c.id, OrElse(c.profile.name, "Unknown"), OrElse(c.profile.email, "—"),
        OrElse(c.profile.phone, "—"), c.finalScore, c.completedAt)
  }

  /** The rows for the ids of `order`, in that order, skipping ids without a record. */
  function Rows(order: seq<string>, candidates: map<string, CandidateRecord>): (rows: seq<Row>)
    ensures |rows| <= |order|
    ensures forall r :: r in rows ==> exists id :: id in order && id in candidates && r == RowOf(candidates[id])
  {
    if order == [] then []
    else
      var rest := Rows(order[1..], candidates);
      assert forall r :: r in rest ==> exists id :: id in order && id in candidates && r == RowOf(candidates[id]) by {
        forall r | r in rest
          ensures exists id :: id in order && id in candidates && r == RowOf(candidates[id])
        {
          var id :| id in order[1..] && id in candidates && r == RowOf(candidates[id]);
          assert id in order;
        }
      }
      if order[0] in candidates then [RowOf(candidates[order[0]])] + rest else rest
  }

  function RowKey(r: Row): string { r.key }

  /**
   * When every listed id has a record, there is exactly one row per id, in
   * the same order, and with every record under its own id the keys spell
   * out the order list.
   */
  lemma {:induction false} RowsFollowOrder(order: seq<string>, candidates: map<string, CandidateRecord>)
    requires forall id :: id in order ==> id in candidates
    ensures |Rows(order, candidates)| == |order|
    ensures forall i :: 0 <= i < |order| ==> Rows(order, candidates)[i] == RowOf(candidates[order[i]])
    ensures (forall k :: k in candidates ==> candidates[k].id == k) ==>
      Map(Rows(order, candidates), RowKey) == order
  {
    if order != [] {
      RowsFollowOrder(order[1..], candidates);
      var rows := Rows(order, candidates);
      assert rows == [RowOf(candidates[order[0]])] + Rows(order[1..], candidates);
      forall i | 0 <= i < |order|
        ensures rows[i] == RowOf(candidates[order[i]])
      {
        if i > 0 {
          assert rows[i] == Rows(order[1..], candidates)[i - 1];
          assert order[1..][i - 1] == order[i];
        }
      }
    }
  }

  /** In a consistent store the dashboard lists every candidate once, in insertion order. */
  lemma DashboardListsEveryCandidate(st: AppState)
    requires Valid(st) && KeyedById(st)
    ensures Map(Rows(st.candidateOrder, st.candidates), RowKey) == st.candidateOrder
  {
    RowsFollowOrder(st.candidateOrder, st.candidates);
  }

  // ---------------------------------------------------------------------------
  // Search
  // ---------------------------------------------------------------------------

  /** The lowercased query occurs in the lowercased name or email. */
  predicate RowMatches(query: string, r: Row) {
    Contains(ToLower(r.name), ToLower(query)) || Contains(ToLower(r.email), ToLower(query))
  }

  function FilterRows(rows: seq<Row>, query: string): (kept: seq<Row>)
    ensures |kept| <= |rows|
    ensures forall r :: r in kept <==> r in rows && RowMatches(query, r)
  {
    Filter(rows, (r: Row) => RowMatches(query, r))
  }

  /** The empty search, the initial one, keeps every row in place. */
  lemma EmptyQueryKeepsAll(rows: seq<Row>)
    ensures FilterRows(rows, "") == rows
  {
    forall r | r in rows
      ensures RowMatches("", r)
    {
      ContainsEmpty(ToLower(r.name));
    }
    FilterAll(rows, (r: Row) => RowMatches("", r));
  }

  // ---------------------------------------------------------------------------
  // Default order
  // ---------------------------------------------------------------------------

  /** `score ?? -1`: the default order's key, an unscored row ranking below a score of 0. */
  function SortKey(r: Row): int { r.score.GetOr(-1) }

  predicate SortedDesc(s: seq<Row>) {
    forall i, j :: 0 <= i < j < |s| ==> SortKey(s[i]) >= SortKey(s[j])
  }

  /** Insert `x` into a best-first list ahead of the first row it ties or beats. */
  function Insert(x: Row, s: seq<Row>): (r: seq<Row>)
    requires SortedDesc(s)
    ensures SortedDesc(r)
    ensures multiset(r) == multiset(s) + multiset{x}
    ensures forall y :: y in r ==> y == x || y in s
  {
    if s == [] then [x]
    else if SortKey(x) >= SortKey(s[0]) then [x] + s
    else
      var rest := Insert(x, s[1..]);
      assert s == [s[0]] + s[1..];
      HeadLeads(s);
      PrependSorted(s[0], rest);
      [s[0]] + rest
  }

  /** The head of a best-first list is at least as good as every row after it. */
  lemma HeadLeads(s: seq<Row>)
    requires SortedDesc(s) && s != []
    ensures forall y :: y in s[1..] ==> SortKey(s[0]) >= SortKey(y)
  {
    forall y | y in s[1..]
      ensures SortKey(s[0]) >= SortKey(y)
    {
      var k :| 0 <= k < |s[1..]| && s[1..][k] == y;
      assert y == s[k + 1];
    }
  }

  /** A row at least as good as every row of a best-first list can lead it. */
  lemma PrependSorted(a: Row, rest: seq<Row>)
    requires SortedDesc(rest)
    requires forall y :: y in rest ==> SortKey(a) >= SortKey(y)
    ensures SortedDesc([a] + rest)
  {
    var r := [a] + rest;
    forall i, j | 0 <= i < j < |r|
      ensures SortKey(r[i]) >= SortKey(r[j])
    {
      assert r[j] == rest[j - 1];
      if i > 0 {
        assert r[i] == rest[i - 1];
      } else {
        assert rest[j - 1] in rest;
      }
    }
  }

  /**
   * `slice().sort((a, b) => (b.score ?? -1) - (a.score ?? -1))`: the same
   * rows, highest score first, unscored rows after every row with a score of
   * 0 or more. Each row is inserted ahead of the rows it ties with that came
   * after it, so ties keep their order.
   */
  function SortRows(s: seq<Row>): (r: seq<Row>)
    ensures SortedDesc(r)
    ensures multiset(r) == multiset(s)
    ensures forall i, j :: 0 <= i < j < |r| && r[j].score.Some? && r[j].score.value >= 0 ==> r[i].score.Some?
  {
    if s == [] then []
    else
      assert s == [s[0]] + s[1..];
      Insert(s[0], SortRows(s[1..]))
  }

  /** The rows the table shows: the store's rows, searched, best score first. */
  function Listing(st: AppState, query: string): (rows: seq<Row>)
    ensures SortedDesc(rows)
    ensures multiset(rows) == multiset(FilterRows(Rows(st.candidateOrder, st.candidates), query))
  {
    SortRows(FilterRows(Rows(st.candidateOrder, st.candidates), query))
  }

  /** A row is listed exactly when it belongs to a stored candidate and matches the search. */
  lemma ListingContents(st: AppState, query: string, r: Row)
    ensures r in Listing(st, query) <==>
      r in Rows(st.candidateOrder, st.candidates) && RowMatches(query, r)
  {
    var kept := FilterRows(Rows(st.candidateOrder, st.candidates), query);
    assert r in Listing(st, query) <==> r in multiset(Listing(st, query));
    assert r in kept <==> r in multiset(kept);
  }

  // ---------------------------------------------------------------------------
  // Column comparators and tags
  // ---------------------------------------------------------------------------

  /** The score column's comparator, `(a.score || 0) - (b.score || 0)`. */
  function ScoreCompare(a: Row, b: Row): (d: int)
    ensures d < 0 <==> a.score.GetOr(0) < b.score.GetOr(0)
    ensures d == 0 <==> a.score.GetOr(0) == b.score.GetOr(0)
  {
    a.score.GetOr(0) - b.score.GetOr(0)
  }

  /** The status column's comparator, `(a.completedAt || 0) - (b.completedAt || 0)`. */
  function CompletedCompare(a: Row, b: Row): (d: int)
    ensures d < 0 <==> a.completedAt.GetOr(0) < b.completedAt.GetOr(0)
    ensures d == 0 <==> a.completedAt.GetOr(0) == b.completedAt.GetOr(0)
  {
    a.completedAt.GetOr(0) - b.completedAt.GetOr(0)
  }

  /** Swapping the rows negates either comparator, so each orders the rows consistently. */
  lemma ComparatorsAntisymmetric(a: Row, b: Row)
    ensures ScoreCompare(a, b) == -ScoreCompare(b, a)
    ensures CompletedCompare(a, b) == -CompletedCompare(b, a)
  {
  }

  /**
   * The column comparator and the default order disagree on unscored rows:
   * the comparator ties an unscored row with a score of 0, the default order
   * puts the scored row first.
   */
  lemma UnscoredConventionsDiffer(a: Row, b: Row)
    requires a.score.None? && b.score == Some(0)
    ensures ScoreCompare(a, b) == 0
    ensures SortRows([a, b]) == [b, a]
  {
    assert [a, b][1..] == [b];
    assert SortRows([b]) == [b];
  }

  datatype TagColor = Green | Orange | Red | Plain | Processing

  datatype Tag = Tag(caption: string, color: TagColor)

  /** The score cell: the score in green from 70, orange from 40, red below; 'NA' without colour when unscored. */
  function ScoreTag(v: Option<int>): (t: Tag)
    ensures v.None? ==> t == Tag("NA", Plain)
    ensures v.Some? ==> t.caption == IntToString(v.value)
    ensures v.Some? ==> (t.color == Green <==> v.value >= 70)
    ensures v.Some? ==> (t.color == Orange <==> 40 <= v.value < 70)
    ensures v.Some? ==> (t.color == Red <==> v.value < 40)
  {
    match v
    case None => Tag("NA", Plain)
    case Some(n) => Tag(IntToString(n), if n >= 70 then Green else if n >= 40 then Orange else Red)
  }

  function ColorRank(c: TagColor): int {
    match c
    case Green => 2
    case Orange => 1
    case _ => 0
  }

  /** A higher score never gets a worse colour. */
  lemma ScoreTagMonotone(a: int, b: int)
    requires a <= b
    ensures ColorRank(ScoreTag(Some(a)).color) <= ColorRank(ScoreTag(Some(b)).color)
  {
  }

  /** The status cell: 'Completed' for a non-zero completion time, 'In Progress' otherwise. */
  function StatusTag(completedAt: Option<int>): (t: Tag)
    ensures t.caption == "Completed" <==> completedAt.Some? && completedAt.value != 0
    ensures t.caption == "Completed" ==> t.color == Green
    ensures t.caption != "Completed" ==> t == Tag("In Progress", Processing)
  {
    if completedAt.Some? && completedAt.value != 0 then Tag("Completed", Green) else Tag("In Progress", Processing)
  }
}

=== FILE: interview.dfy ===
/**
 * The timed question-and-answer screen: the question timer, the submit
 * handler that records an answer and then advances or finalises, the
 * auto-submit on timeout, and the logging of each question into the
 * transcript. Each React effect or handler is a pure transition of the
 * application state; `now` is the clock reading at the handler and `tick` the
 * last reading of the screen's 250 ms ticker, from which the remaining time
 * is computed.
 */
module Interview {
  import opened Optional
  import opened Text
  import opened JsMath
  import opened Store
  import opened Questions
  import opened Scoring
  import opened Summary

  /** `candidate.qas[idx]`: absent for an index outside the list. */
  function CurrentQuestion(c: CandidateRecord, idx: int): (q: Option<QAItem>)
    ensures q.Some? <==> 0 <= idx < |c.qas|
    ensures q.Some? ==> q.value == c.qas[idx]
  {
    if 0 <= idx < |c.qas| then Some(c.qas[idx]) else None
  }

  /** The screen is showing a question: a current candidate with a question at the current index. */
  predicate OnQuestion(st: AppState) {
    CurrentCandidate(st).Some? && CurrentQuestion(CurrentCandidate(st).value, st.session.currentQuestionIndex).Some?
  }

  // ---------------------------------------------------------------------------
  // Time
  // ---------------------------------------------------------------------------

  /** `Math.max(0, (expiresAt || 0) - now)`. */
  function TimeLeftMs(expiresAt: Option<int>, tick: int): (ms: int)
    ensures ms >= 0
    ensures ms == 0 <==> expiresAt.GetOr(0) <= tick
    ensures ms > 0 ==> ms == expiresAt.GetOr(0) - tick
  {
    Max(0, expiresAt.GetOr(0) - tick)
  }

  function TotalMs(d: Difficulty): (ms: int)
    ensures ms > 0
  {
    QuestionTime(d) * 1000
  }

  /** `Math.round(timeLeftMs / totalMs * 100)`: the share of the time still left. */
  function Percent(timeLeftMs: int, d: Difficulty): (p: int)
    requires timeLeftMs >= 0
    ensures p >= 0
    ensures timeLeftMs <= TotalMs(d) ==> p <= 100
    ensures timeLeftMs == 0 ==> p == 0
  {
    PercentBounds(timeLeftMs, d);
    Round(timeLeftMs as real / TotalMs(d) as real * 100.0)
  }

  lemma PercentBounds(timeLeftMs: int, d: Difficulty)
    requires timeLeftMs >= 0
    ensures var p := Round(timeLeftMs as real / TotalMs(d) as real * 100.0);
      && p >= 0
      && (timeLeftMs <= TotalMs(d) ==> p <= 100)
      && (timeLeftMs == 0 ==> p == 0)
  {
    var x := timeLeftMs as real / TotalMs(d) as real * 100.0;
    assert x >= 0.0;
    if timeLeftMs <= TotalMs(d) {
      assert timeLeftMs as real / TotalMs(d) as real <= 1.0;
      RoundWithin(x, 0, 100);
    }
  }

  /** `Math.round((totalMs - timeLeftMs) / 1000)`: the whole seconds spent on the question. */
  function SpentSec(timeLeftMs: int, d: Difficulty): (s: int)
    ensures 0 <= timeLeftMs <= TotalMs(d) ==> 0 <= s <= QuestionTime(d)
    ensures timeLeftMs == 0 ==> s == QuestionTime(d)
  {
    SpentBounds(timeLeftMs, d);
    Round((TotalMs(d) - timeLeftMs) as real / 1000.0)
  }

  lemma SpentBounds(timeLeftMs: int, d: Difficulty)
    ensures var s := Round((TotalMs(d) - timeLeftMs) as real / 1000.0);
      && (0 <= timeLeftMs <= TotalMs(d) ==> 0 <= s <= QuestionTime(d))
      && (timeLeftMs == 0 ==> s == QuestionTime(d))
  {
    var x := (TotalMs(d) - timeLeftMs) as real / 1000.0;
    if 0 <= timeLeftMs <= TotalMs(d) {
      RoundWithin(x, 0, QuestionTime(d));
    }
    if timeLeftMs == 0 {
      assert x == QuestionTime(d) as real;
      RoundOfInt(QuestionTime(d));
    }
  }

  /**
   * A deadline set at most one time limit ahead of the tick leaves a spent
   * time inside the limit, so the engine charges no overtime penalty for an
   * answer submitted in the app.
   */
  lemma NoPenaltyWithinDeadline(expiresAt: int, tick: int, d: Difficulty)
    requires expiresAt <= tick + TotalMs(d)
    ensures 0 <= SpentSec(TimeLeftMs(Some(expiresAt), tick), d) <= QuestionTime(d)
    ensures TimePenalty(d, SpentSec(TimeLeftMs(Some(expiresAt), tick), d) as real) == 0.0
  {
  }

  // ---------------------------------------------------------------------------
  // Timer initialisation
  // ---------------------------------------------------------------------------

  function ExpiryPatch(expiresAt: Option<int>): SessionPatch {
    EmptySessionPatch.(currentQuestionExpiresAt := Some(expiresAt))
  }

  /**
   * The timer effect: when a question is showing and no deadline is set (or
   * the deadline is 0), the deadline becomes one time limit from now.
   */
  function InitTimer(st: AppState, now: int): (r: AppState)
    ensures !OnQuestion(st) || DeadlineSet(st.session.currentQuestionExpiresAt) ==> r == st
    ensures OnQuestion(st) && !DeadlineSet(st.session.currentQuestionExpiresAt) ==>
      var q := CurrentCandidate(st).value.qas[st.session.currentQuestionIndex];
      r == st.(session := st.session.(currentQuestionExpiresAt := Some(now + TotalMs(q.difficulty))))
  {
    match CurrentCandidate(st)
    case None => st
    case Some(c) =>
      match CurrentQuestion(c, st.session.currentQuestionIndex)
      case None => st
      case Some(q) =>
        if DeadlineSet(st.session.currentQuestionExpiresAt) then st
        else SetSession(st, ExpiryPatch(Some(now + TotalMs(q.difficulty))))
  }

  /** JavaScript truthiness of the deadline: absent and 0 are both falsy. */
  predicate DeadlineSet(n: Option<int>) {
    n.Some? && n.value != 0
  }

  /** Once the timer is set, running the effect again changes nothing. */
  lemma InitTimerIdempotent(st: AppState, t1: int, t2: int)
    requires t1 > 0
    ensures InitTimer(InitTimer(st, t1), t2) == InitTimer(st, t1)
  {
  }

  // ---------------------------------------------------------------------------
  // Submitting an answer
  // ---------------------------------------------------------------------------

  /** `answer || (auto ? '[No answer]' : '')`: what the transcript shows for the answer. */
  function TranscriptText(answer: string, auto: bool): (t: string)
    ensures answer != "" ==> t == answer
    ensures answer == "" && auto ==> t == "[No answer]"
    ensures answer == "" && !auto ==> t == ""
  {
    OrElse(answer, if auto then "[No answer]" else "")
  }

  /** The overall score: the mean of all question scores, an unscored question counting 0, rounded. */
  function FinalScore(qas: seq<QAItem>): (s: int)
    requires |qas| > 0
    ensures var m := Sum(Map(qas, ScoreOrZero)) as real / |qas| as real;
      m - 0.5 < s as real <= m + 0.5
    ensures AllWithin(Map(qas, ScoreOrZero), 0, 100) ==> 0 <= s <= 100
  {
    var scores := Map(qas, ScoreOrZero);
    var mean := Sum(scores) as real / |scores| as real;
    MeanBounds(scores);
    if AllWithin(scores, 0, 100) then
      RoundWithin(mean, 0, 100);
      Round(mean)
    else Round(mean)
  }

  /** What one submission writes, computed from the state the screen rendered. */
  datatype Submission = Submission(
    candidateId: string,
    index: int,
    answered: QAItem,
    qas: seq<QAItem>,
    chatHistory: seq<ChatEntry>,
    summaryName: string)

  /**
   * The record update a submit dispatches first: the question at the current
   * index gets the trimmed answer, the seconds spent and the score, and the
   * transcript gets one user entry. `None` when the screen shows no question,
   * or when the scorer throws.
   */
  function PrepareSubmission(st: AppState, tick: int, now: int, answer: string, auto: bool): (s: Option<Submission>)
    ensures s.Some? ==> OnQuestion(st)
    ensures s.Some? ==>
      var c := CurrentCandidate(st).value;
      var idx := st.session.currentQuestionIndex;
      var q := c.qas[idx];
      var spent := SpentSec(TimeLeftMs(st.session.currentQuestionExpiresAt, tick), q.difficulty);
      && s.value.candidateId == c.id && s.value.index == idx
      && ScoreAnswer(q, Some(answer), spent as real).Some?
      && s.value.answered == q.(answer := Some(Trim(answer)), timeTakenSec := Some(spent),
                                 score := ScoreAnswer(q, Some(answer), spent as real))
      && |s.value.qas| == |c.qas|
      && s.value.qas[idx] == s.value.answered
      && (forall j :: 0 <= j < |c.qas| && j != idx ==> s.value.qas[j] == c.qas[j])
      && s.value.chatHistory == c.chatHistory + [ChatEntry(User, TranscriptText(answer, auto), now)]
      && s.value.summaryName == OrElse(c.profile.name, "Candidate")
  {
    if !OnQuestion(st) then None
    else
      var c := CurrentCandidate(st).value;
      var idx := st.session.currentQuestionIndex;
      var q := c.qas[idx];
      var spent := SpentSec(TimeLeftMs(st.session.currentQuestionExpiresAt, tick), q.difficulty);
      var score := ScoreAnswer(q, Some(answer), spent as real);
      if score.None? then None
      else
        var answered := q.(answer := Some(Trim(answer)), timeTakenSec := Some(spent), score := score);
        Some(Submission(c.id, idx, answered, c.qas[idx := answered],
                        c.chatHistory + [ChatEntry(User, TranscriptText(answer, auto), now)],
                        OrElse(c.profile.name, "Candidate")))
  }

  /**
   * With a question on screen, a submission fails exactly when the scorer
   * throws: the question has no keyword list and the answer is not blank.
   */
  lemma PrepareFailsOnlyWhenUnscorable(st: AppState, tick: int, now: int, answer: string, auto: bool)
    requires OnQuestion(st)
    ensures var q := CurrentCandidate(st).value.qas[st.session.currentQuestionIndex];
      PrepareSubmission(st, tick, now, answer, auto).None? <==> KeywordsFor(q).None? && !IsBlank(Some(answer))
  {
  }

  /** The scorer accepts `answer` for the question on screen: the question has a keyword row, or the answer is blank. */
  predicate Scorable(st: AppState, answer: string)
    requires OnQuestion(st)
  {
    KeywordsFor(CurrentCandidate(st).value.qas[st.session.currentQuestionIndex]).Some? || IsBlank(Some(answer))
  }

  function RecordPatchOf(s: Submission): RecordPatch {
    EmptyRecordPatch.(qas := Some(s.qas), chatHistory := Some(s.chatHistory))
  }

  function AdvancePatch(index: int, expiresAt: int): SessionPatch {
    EmptySessionPatch.(currentQuestionIndex := Some(index), currentQuestionExpiresAt := Some(Some(expiresAt)))
  }

  function FinishPatch(now: int, finalScore: int, summary: string): RecordPatch {
    EmptyRecordPatch.(completedAt := Some(Some(now)), finalScore := Some(Some(finalScore)), summary := Some(Some(summary)))
  }

  const CompletePatch: SessionPatch :=
    EmptySessionPatch.(interviewStage := Some(Completed), currentQuestionExpiresAt := Some(None))

  /**
   * `submit`: record the answer; then, before the sixth question, move to the
   * next question with a fresh deadline; at the sixth, store the final score,
   * summary and completion time and complete the session. When the next
   * question is missing the app throws after the first dispatch, so only
   * the answer is recorded.
   */
  function Submit(st: AppState, tick: int, now: int, answer: string, auto: bool): (r: AppState)
    ensures r.candidates.Keys == st.candidates.Keys
    ensures r.candidateOrder == st.candidateOrder && r.ui == st.ui
  {
    match PrepareSubmission(st, tick, now, answer, auto)
    case None => st
    case Some(s) => ApplySubmission(st, s, now)
  }

  /**
   * The dispatches of one prepared submission: record the answer, then
   * advance or finish. They rewrite the one record the submission names,
   * keeping its id, and touch no other record, the order list or the
   * interface settings.
   */
  function ApplySubmission(st: AppState, s: Submission, now: int): (r: AppState)
    requires 0 <= s.index < |s.qas|
    ensures r.candidates.Keys == st.candidates.Keys
    ensures r.candidateOrder == st.candidateOrder && r.ui == st.ui
    ensures forall k :: k in st.candidates && k != s.candidateId ==> r.candidates[k] == st.candidates[k]
    ensures s.candidateId in st.candidates ==>
      && r.candidates[s.candidateId].id == st.candidates[s.candidateId].id
      && r.candidates[s.candidateId].qas == s.qas
      && r.candidates[s.candidateId].chatHistory == s.chatHistory
  {
    var st1 := UpdateCandidate(st, s.candidateId, RecordPatchOf(s));
    if s.index < 5 then
      if s.index + 1 < |s.qas| then
        SetSession(st1, AdvancePatch(s.index + 1, now + TotalMs(s.qas[s.index + 1].difficulty)))
      else st1
    else
      var score := FinalScore(s.qas);
      SetSession(UpdateCandidate(st1, s.candidateId,
                                 FinishPatch(now, score, SummarizeCandidate(s.summaryName, s.qas, score))),
                 CompletePatch)
  }

  /** Before the sixth question: move on to the next question with its own deadline, no outcome written. */
  lemma ApplyAdvances(st: AppState, s: Submission, now: int)
    requires 0 <= s.index < 5 && s.index + 1 < |s.qas| && s.candidateId in st.candidates
    ensures var r := ApplySubmission(st, s, now);
      var before := st.candidates[s.candidateId];
      && r.session == st.session.(currentQuestionIndex := s.index + 1,
                                  currentQuestionExpiresAt := Some(now + TotalMs(s.qas[s.index + 1].difficulty)))
      && r.candidates[s.candidateId].completedAt == before.completedAt
      && r.candidates[s.candidateId].finalScore == before.finalScore
      && r.candidates[s.candidateId].summary == before.summary
  {
  }

  /** At the sixth question: the outcome written, the session completed and its deadline cleared. */
  lemma ApplyFinishes(st: AppState, s: Submission, now: int)
    requires 5 <= s.index < |s.qas| && s.candidateId in st.candidates
    ensures var r := ApplySubmission(st, s, now);
      && r.session == st.session.(interviewStage := Completed, currentQuestionExpiresAt := None)
      && r.candidates[s.candidateId].qas == s.qas
      && r.candidates[s.candidateId].finalScore == Some(FinalScore(s.qas))
      && r.candidates[s.candidateId].completedAt == Some(now)
      && r.candidates[s.candidateId].summary == Some(SummarizeCandidate(s.summaryName, s.qas, FinalScore(s.qas)))
  {
  }

  /** Without a question on screen, or when the scorer throws, a submit changes nothing. */
  lemma SubmitNoOp(st: AppState, tick: int, now: int, answer: string, auto: bool)
    requires PrepareSubmission(st, tick, now, answer, auto).None?
    ensures Submit(st, tick, now, answer, auto) == st
  {
  }

  /**
   * Submitting writes the current question only: every other question, every
   * other record, the order list and the interface settings stay as they were.
   */
  lemma SubmitWritesOneQuestion(st: AppState, tick: int, now: int, answer: string, auto: bool)
    requires KeyedById(st) && OnQuestion(st) && Scorable(st, answer)
    ensures var r := Submit(st, tick, now, answer, auto);
      var id := st.session.currentCandidateId.value;
      var idx := st.session.currentQuestionIndex;
      && PrepareSubmission(st, tick, now, answer, auto).Some?
      && r.candidates.Keys == st.candidates.Keys
      && r.candidateOrder == st.candidateOrder && r.ui == st.ui
      && (forall k :: k in st.candidates && k != id ==> r.candidates[k] == st.candidates[k])
      && |r.candidates[id].qas| == |st.candidates[id].qas|
      && (forall j :: 0 <= j < |st.candidates[id].qas| && j != idx ==>
            r.candidates[id].qas[j] == st.candidates[id].qas[j])
      && r.candidates[id].qas[idx] == PrepareSubmission(st, tick, now, answer, auto).value.answered
      && r.candidates[id].chatHistory == st.candidates[id].chatHistory
           + [ChatEntry(User, TranscriptText(answer, auto), now)]
  {
    PrepareFailsOnlyWhenUnscorable(st, tick, now, answer, auto);
  }

  /** Before the sixth question, a submit moves to the next question and restarts the clock for it. */
  lemma SubmitAdvances(st: AppState, tick: int, now: int, answer: string, auto: bool)
    requires KeyedById(st) && OnQuestion(st) && Scorable(st, answer)
    requires st.session.currentQuestionIndex < 5
    requires st.session.currentQuestionIndex + 1 < |CurrentCandidate(st).value.qas|
    ensures var r := Submit(st, tick, now, answer, auto);
      var c := CurrentCandidate(st).value;
      var next := st.session.currentQuestionIndex + 1;
      && r.session == st.session.(currentQuestionIndex := next,
                                  currentQuestionExpiresAt := Some(now + TotalMs(c.qas[next].difficulty)))
      && r.candidates[c.id].completedAt == c.completedAt
      && r.candidates[c.id].finalScore == c.finalScore
      && r.candidates[c.id].summary == c.summary
  {
    PrepareFailsOnlyWhenUnscorable(st, tick, now, answer, auto);
    var s := PrepareSubmission(st, tick, now, answer, auto).value;
    var c := CurrentCandidate(st).value;
    var next := st.session.currentQuestionIndex + 1;
    assert s.candidateId == c.id == st.session.currentCandidateId.value;
    assert s.index == st.session.currentQuestionIndex && s.qas[next] == c.qas[next];
    assert Submit(st, tick, now, answer, auto) == ApplySubmission(st, s, now);
    ApplyAdvances(st, s, now);
  }

  /**
   * At the sixth question (or later), a submit completes the interview: the
   * record gets the rounded mean score, the summary and the completion time,
   * the session is completed and its deadline cleared.
   */
  lemma SubmitFinalizes(st: AppState, tick: int, now: int, answer: string, auto: bool)
    requires KeyedById(st)
    requires PrepareSubmission(st, tick, now, answer, auto).Some?
    requires st.session.currentQuestionIndex >= 5
    ensures var r := Submit(st, tick, now, answer, auto);
      var c := CurrentCandidate(st).value;
      var qas := PrepareSubmission(st, tick, now, answer, auto).value.qas;
      && r.session == st.session.(interviewStage := Completed, currentQuestionExpiresAt := None)
      && r.candidates[c.id].qas == qas
      && r.candidates[c.id].finalScore == Some(FinalScore(qas))
      && r.candidates[c.id].completedAt == Some(now)
      && r.candidates[c.id].summary == Some(SummarizeCandidate(OrElse(c.profile.name, "Candidate"), qas, FinalScore(qas)))
  {
    var s := PrepareSubmission(st, tick, now, answer, auto).value;
    var c := CurrentCandidate(st).value;
    assert s.candidateId == c.id == st.session.currentCandidateId.value;
    assert Submit(st, tick, now, answer, auto) == ApplySubmission(st, s, now);
    ApplyFinishes(st, s, now);
  }

  /** Scores 80, 60, 70, 50, 40 and 30 give a final score of 55. */
  lemma FinalScoreExample(qs: seq<QAItem>)
    requires |qs| == 6
    requires qs[0].score == Some(80) && qs[1].score == Some(60) && qs[2].score == Some(70)
    requires qs[3].score == Some(50) && qs[4].score == Some(40) && qs[5].score == Some(30)
    ensures FinalScore(qs) == 55
  {
    var scores := Map(qs, ScoreOrZero);
    assert scores == [80, 60, 70, 50, 40, 30];
    assert Sum(scores[5..]) == 30;
    assert Sum(scores[4..]) == 70;
    assert Sum(scores[3..]) == 120;
    assert Sum(scores[2..]) == 190;
    assert Sum(scores[1..]) == 250;
    assert Sum(scores) == 330;
  }

  // ---------------------------------------------------------------------------
  // Auto-submit and the transcript
  // ---------------------------------------------------------------------------

  /** The auto-submit effect fires only on a running, unpaused interview whose deadline has passed. */
  predicate AutoSubmitDue(st: AppState, tick: int) {
    && !st.session.paused
    && DeadlineSet(st.session.currentQuestionExpiresAt)
    && TimeLeftMs(st.session.currentQuestionExpiresAt, tick) == 0
    && st.session.interviewStage == InProgress
  }

  function AutoSubmit(st: AppState, tick: int, now: int, answer: string): (r: AppState)
    ensures !AutoSubmitDue(st, tick) ==> r == st
    ensures AutoSubmitDue(st, tick) ==> r == Submit(st, tick, now, answer, true)
  {
    if AutoSubmitDue(st, tick) then Submit(st, tick, now, answer, true) else st
  }

  /** A paused session never auto-submits, whatever the clock says. */
  lemma PausedNeverAutoSubmits(st: AppState, tick: int, now: int, answer: string)
    requires st.session.paused
    ensures AutoSubmit(st, tick, now, answer) == st
  {
  }

  /** An expired deadline is exactly a deadline at or before the tick. */
  lemma DueMeansExpired(st: AppState, tick: int)
    ensures AutoSubmitDue(st, tick) <==>
      && !st.session.paused && st.session.interviewStage == InProgress
      && st.session.currentQuestionExpiresAt.Some?
      && st.session.currentQuestionExpiresAt.value != 0
      && st.session.currentQuestionExpiresAt.value <= tick
  {
  }

  /** The last transcript entry already asks `question`. */
  predicate AlreadyAsked(history: seq<ChatEntry>, question: string) {
    history != [] && history[|history| - 1].content == question && history[|history| - 1].role == Assistant
  }

  /**
   * The question-logging effect: the current question is appended as an
   * assistant entry unless the transcript already ends with it.
   */
  function LogQuestion(st: AppState, now: int): (r: AppState)
    ensures !OnQuestion(st) ==> r == st
    ensures OnQuestion(st) ==>
      var c := CurrentCandidate(st).value;
      var q := c.qas[st.session.currentQuestionIndex];
      && (AlreadyAsked(c.chatHistory, q.question) ==> r == st)
      && (!AlreadyAsked(c.chatHistory, q.question) ==>
            r == UpdateCandidate(st, c.id, EmptyRecordPatch.(chatHistory :=
                   Some(c.chatHistory + [ChatEntry(Assistant, q.question, now)]))))
  {
    match CurrentCandidate(st)
    case None => st
    case Some(c) =>
      match CurrentQuestion(c, st.session.currentQuestionIndex)
      case None => st
      case Some(q) =>
        if AlreadyAsked(c.chatHistory, q.question) then st
        else UpdateCandidate(st, c.id, EmptyRecordPatch.(chatHistory :=
               Some(c.chatHistory + [ChatEntry(Assistant, q.question, now)])))
  }

  /** Logging twice logs once: after the first run the transcript ends with the question. */
  lemma LogQuestionIdempotent(st: AppState, t1: int, t2: int)
    requires KeyedById(st)
    ensures LogQuestion(LogQuestion(st, t1), t2) == LogQuestion(st, t1)
  {
    var r := LogQuestion(st, t1);
    if OnQuestion(st) {
      var c := CurrentCandidate(st).value;
      var q := c.qas[st.session.currentQuestionIndex];
      if !AlreadyAsked(c.chatHistory, q.question) {
        var h := c.chatHistory + [ChatEntry(Assistant, q.question, t1)];
        assert r.candidates[c.id].chatHistory == h;
        assert CurrentCandidate(r) == Some(r.candidates[c.id]);
        assert AlreadyAsked(h, q.question);
      }
    }
  }

  // ---------------------------------------------------------------------------
  // The store invariant
  // ---------------------------------------------------------------------------

  /** The screen's transitions keep the record map and the order list in step. */
  lemma InitTimerKeepsValid(st: AppState, now: int)
    requires Valid(st)
    ensures Valid(InitTimer(st, now))
  {
  }

  lemma SubmitKeepsValid(st: AppState, tick: int, now: int, answer: string, auto: bool)
    requires Valid(st)
    ensures Valid(Submit(st, tick, now, answer, auto))
  {
  }

  lemma LogQuestionKeepsValid(st: AppState, now: int)
    requires Valid(st)
    ensures Valid(LogQuestion(st, now))
  {
  }
}

=== FILE: interviewee.dfy ===
/**
 * The candidate's page: the pause applied when the page mounts over an
 * unfinished session, and the choice of the one panel shown for the stage.
 */
module Interviewee {
  import opened Optional
  import opened Store
  import opened Text

  /** The stages of an unfinished interview: the profile step and the questions. */
  predicate ActiveStage(s: Stage) {
    s == CollectingProfile || s == InProgress
  }

  /**
   * The mount effect: an unpaused session on the profile step or in the
   * questions is paused; any other session is left alone.
   */
  function MountPause(st: AppState): (r: AppState)
    ensures r.session.paused == (st.session.paused || ActiveStage(st.session.interviewStage))
    ensures r == st.(session := st.session.(paused := r.session.paused))
    ensures !ActiveStage(st.session.interviewStage) ==> r == st
  {
    if !st.session.paused && ActiveStage(st.session.interviewStage) then
      SetSession(st, EmptySessionPatch.(paused := Some(true)))
    else st
  }

  /** Mounting twice pauses once. */
  lemma MountPauseIdempotent(st: AppState)
    ensures MountPause(MountPause(st)) == MountPause(st)
  {
  }

  /** The name a panel heading uses: the candidate's name, or 'Candidate' when it is empty or absent. */
  function DisplayName(c: Option<CandidateRecord>): (name: string)
    ensures name != ""
    ensures c.Some? && c.value.profile.name != "" ==> name == c.value.profile.name
  {
    OrElse(if c.Some? then c.value.profile.name else "", "Candidate")
  }

  datatype Panel =
    | UploadPanel
    | ConfirmPanel
    | InterviewPanel(heading: string)
    | ResultPanel(heading: string, finalScore: Option<int>, summary: Option<string>)

  /**
   * The panels rendered below the modal: one conditional block per stage,
   * the result block also needing the current candidate. So the page shows
   * at most one panel, and none only for a completed session whose record
   * is gone.
   */
  function Panels(st: AppState): (ps: seq<Panel>)
    ensures |ps| <= 1
    ensures |ps| == 0 <==> st.session.interviewStage == Completed && CurrentCandidate(st).None?
    ensures (|ps| == 1 && ps[0] == UploadPanel) <==> st.session.interviewStage == Idle
    ensures (|ps| == 1 && ps[0] == ConfirmPanel) <==> st.session.interviewStage == CollectingProfile
    ensures (|ps| == 1 && ps[0].InterviewPanel?) <==> st.session.interviewStage == InProgress
    ensures (|ps| == 1 && ps[0].ResultPanel?) <==>
      st.session.interviewStage == Completed && CurrentCandidate(st).Some?
    ensures |ps| == 1 && ps[0].ResultPanel? ==>
      var c := CurrentCandidate(st).value;
      ps[0].finalScore == c.finalScore && ps[0].summary == c.summary
    ensures |ps| == 1 && ps[0].InterviewPanel? ==> EndsWith(ps[0].heading, DisplayName(CurrentCandidate(st)))
    ensures |ps| == 1 && ps[0].ResultPanel? ==> EndsWith(ps[0].heading, DisplayName(CurrentCandidate(st)) + "!")
  {
    var stage := st.session.interviewStage;
    var candidate := CurrentCandidate(st);
    (if stage == Idle then [UploadPanel] else [])
    + (if stage == CollectingProfile then [ConfirmPanel] else [])
    + (if stage == InProgress then [InterviewPanel("Interview — " + DisplayName(candidate))] else [])
    + (if stage == Completed && candidate.Some? then
         [ResultPanel("Great job, " + DisplayName(candidate) + "!", candidate.value.finalScore, candidate.value.summary)]
       else [])
  }
}

=== FILE: js_math.dfy ===
/** The parts of JavaScript's `Math` the model needs, over exact reals and unbounded integers. */
module JsMath {

  /** `Math.round`: the nearest integer, halves rounded up. */
  function Round(x: real): (r: int)
    ensures x - 0.5 < r as real <= x + 0.5
  {
    (x + 0.5).Floor
  }

  function Min(a: int, b: int): (r: int)
    ensures r <= a && r <= b && (r == a || r == b)
  {
    if a <= b then a else b
  }

  function Max(a: int, b: int): (r: int)
    ensures r >= a && r >= b && (r == a || r == b)
  {
    if a >= b then a else b
  }

  /**
   * `Math.min` and `Math.max` again for the `real` operands of the time
   * penalty: Dafny has no numeric type that covers both `int` and `real`.
   */
  function MinReal(a: real, b: real): (r: real)
    ensures r <= a && r <= b && (r == a || r == b)
  {
    if a <= b then a else b
  }

  function MaxReal(a: real, b: real): (r: real)
    ensures r >= a && r >= b && (r == a || r == b)
  {
    if a >= b then a else b
  }

  /** Rounding an integer gives it back. */
  lemma RoundOfInt(n: int)
    ensures Round(n as real) == n
  {
  }

  /** Rounding stays inside integer bounds that enclose its argument. */
  lemma RoundWithin(x: real, lo: int, hi: int)
    requires lo as real <= x <= hi as real
    ensures lo <= Round(x) <= hi
  {
  }

  /** A larger argument never rounds to a smaller integer. */
  lemma RoundMonotone(x: real, y: real)
    requires x <= y
    ensures Round(x) <= Round(y)
  {
  }
}

=== FILE: optional.dfy ===
/**
 * Optional values, the model's stand-in for TypeScript's `T | undefined`, and
 * results, its stand-in for a call that may throw an `Error`.
 */
module Optional {

  datatype Option<+T> = None | Some(value: T) {

    /** The value, or `default` when absent (TypeScript's `x ?? default`). */
    function GetOr(default: T): T {
      match this
      case Some(v) => v
      case None => default
    }
  }

  /** JavaScript truthiness of an optional string: absent and '' are both falsy. */
  predicate Truthy(s: Option<string>) {
    s.Some? && s.value != ""
  }

  /** TypeScript's string `a || b`: `a` unless it is the empty string. */
  function OrElse(a: string, b: string): string {
    if a != "" then a else b
  }

  /** The outcome of a call that either returns a value or throws an error with a message. */
  datatype Result<+T> = Ok(value: T) | Err(message: string)
}

=== FILE: profile_form.dfy ===
/**
 * The profile confirmation form shown while the session collects the
 * candidate's details: the three field rules, and the submit handler that
 * saves the profile, draws the questions and starts the first question's
 * clock.
 */
module ProfileForm {
  import opened Optional
  import opened Text
  import opened Store
  import opened Questions
  import opened Interview

  // ---------------------------------------------------------------------------
  // The phone rule
  // ---------------------------------------------------------------------------

  /** `[\s-]`: a whitespace character or a hyphen. */
  predicate Sep(c: char) { IsSpace(c) || c == '-' }

  /** `t` without its first character when that character is `c`. */
  function DropFirst(t: string, c: char): (r: string)
    ensures r == t || (t != [] && t[0] == c && r == t[1..])
  {
    if t != [] && t[0] == c then t[1..] else t
  }

  /** `t` without its last character when that character is `c`. */
  function DropLast(t: string, c: char): (r: string)
    ensures r == t || (t != [] && t[|t| - 1] == c && r == t[..|t| - 1])
  {
    if t != [] && t[|t| - 1] == c then t[..|t| - 1] else t
  }

  /** `t` without a trailing `[\s-]`. */
  function DropSep(t: string): (r: string)
    ensures r == t || (t != [] && Sep(t[|t| - 1]) && r == t[..|t| - 1])
  {
    if t != [] && Sep(t[|t| - 1]) then t[..|t| - 1] else t
  }

  /** `(?:\+?\d{1,3}[\s-]?)?`: empty, or an optional plus, one to three digits and an optional separator. */
  predicate CountryCode(t: string) {
    t == [] || (var v := DropSep(DropFirst(t, '+')); 1 <= |v| <= 3 && AllDigits(v))
  }

  /** `(?:\(?\d{3}\)?[\s-]?)?`: empty, or three digits with optional parentheses and an optional separator. */
  predicate AreaCode(t: string) {
    t == [] || (var w := DropLast(DropSep(DropFirst(t, '(')), ')'); |w| == 3 && AllDigits(w))
  }

  /** `\d{3}[\s-]?\d{4}`: seven digits, optionally split after the third. */
  predicate LocalNumber(t: string) {
    || (|t| == 7 && AllDigits(t))
    || (|t| == 8 && AllDigits(t[..3]) && Sep(t[3]) && AllDigits(t[4..]))
  }

  /**
   * The phone rule's anchored pattern: the whole value is a country code, an
   * area code and a local number, each of the first two possibly empty. A
   * backtracking matcher accepts a string exactly when such a split exists.
   */
  predicate PhonePattern(s: string) {
    exists i: nat, j: nat :: i <= j <= |s| && PhoneSplit(s, i, j)
  }

  /** `s` splits at `i` and `j` into a country code, an area code and a local number. */
  predicate PhoneSplit(s: string, i: nat, j: nat) {
    i <= j <= |s| && CountryCode(s[..i]) && AreaCode(s[i..j]) && LocalNumber(s[j..])
  }

  /** The characters a phone value may contain. */
  predicate PhoneChar(c: char) { IsDigit(c) || Sep(c) || c == '+' || c == '(' || c == ')' }

  predicate PhoneChars(t: string) {
    forall k :: 0 <= k < |t| ==> PhoneChar(t[k])
  }

  lemma PhoneCharsConcat(a: string, b: string)
    requires PhoneChars(a) && PhoneChars(b)
    ensures PhoneChars(a + b)
  {
    forall k | 0 <= k < |a + b|
      ensures PhoneChar((a + b)[k])
    {
      if k >= |a| {
        assert (a + b)[k] == b[k - |a|];
      }
    }
  }

  /** Digits and one optional trailing separator are phone characters. */
  lemma DigitsThenSep(t: string)
    requires AllDigits(DropSep(t))
    ensures PhoneChars(t)
  {
    var v := DropSep(t);
    forall k | 0 <= k < |t|
      ensures PhoneChar(t[k])
    {
      if k < |v| {
        assert t[k] == v[k];
      }
    }
  }

  lemma CountryCodeShape(t: string)
    requires CountryCode(t)
    ensures |t| <= 5 && PhoneChars(t)
  {
    if t != [] {
      var u := DropFirst(t, '+');
      DigitsThenSep(u);
      if u != t {
        assert t == ['+'] + u;
        PhoneCharsConcat(['+'], u);
      }
    }
  }

  lemma AreaCodeShape(t: string)
    requires AreaCode(t)
    ensures |t| <= 6 && PhoneChars(t)
  {
    if t != [] {
      var u := DropFirst(t, '(');
      var v := DropSep(u);
      var w := DropLast(v, ')');
      assert PhoneChars(v) by {
        if w != v {
          assert v == w + [')'];
          PhoneCharsConcat(w, [')']);
        }
      }
      assert PhoneChars(u) by {
        if v != u {
          assert u == v + [u[|u| - 1]];
          PhoneCharsConcat(v, [u[|u| - 1]]);
        }
      }
      if u != t {
        assert t == ['('] + u;
        PhoneCharsConcat(['('], u);
      }
    }
  }

  lemma LocalNumberShape(t: string)
    requires LocalNumber(t)
    ensures 7 <= |t| <= 8 && PhoneChars(t) && IsDigit(t[|t| - 1])
  {
    if |t| == 8 {
      assert t == t[..3] + [t[3]] + t[4..];
      PhoneCharsConcat(t[..3], [t[3]]);
      PhoneCharsConcat(t[..3] + [t[3]], t[4..]);
      assert t[7] == t[4..][3];
    }
  }

  /**
   * Every accepted value has between 7 and 19 characters, all of them
   * digits, separators, a plus or parentheses, and ends in a digit.
   */
  lemma PhonePatternShape(s: string)
    requires PhonePattern(s)
    ensures 7 <= |s| <= 19 && PhoneChars(s) && IsDigit(s[|s| - 1])
  {
    var i: nat, j: nat :| PhoneSplit(s, i, j);
    PhoneSplitShape(s, i, j);
  }

  lemma PhoneSplitShape(s: string, i: nat, j: nat)
    requires PhoneSplit(s, i, j)
    ensures 7 <= |s| <= 19 && PhoneChars(s) && IsDigit(s[|s| - 1])
  {
    var a, b, c := s[..i], s[i..j], s[j..];
    SplitShape(a, b, c);
    assert a + b == s[..j];
    assert s == a + b + c;
  }

  lemma SplitShape(a: string, b: string, c: string)
    requires CountryCode(a) && AreaCode(b) && LocalNumber(c)
    ensures var s := a + b + c; 7 <= |s| <= 19 && PhoneChars(s) && IsDigit(s[|s| - 1])
  {
    CountryCodeShape(a);
    AreaCodeShape(b);
    LocalNumberShape(c);
    PhoneCharsConcat(a, b);
    PhoneCharsConcat(a + b, c);
    var s := a + b + c;
    assert s[|s| - 1] == c[|c| - 1];
  }

  /** The placeholder's example is accepted, split as "+1 ", "555 " and "555 5555". */
  lemma PlaceholderAccepted()
    ensures PhonePattern("+1 555 555 5555")
  {
    var s := "+1 555 555 5555";
    assert s[..3] == "+1 ";
    assert DropSep(DropFirst("+1 ", '+')) == "1";
    assert s[3..7] == "555 ";
    assert DropLast(DropSep(DropFirst("555 ", '(')), ')') == "555";
    assert s[7..] == "555 5555";
    assert "555 5555"[..3] == "555" && "555 5555"[4..] == "5555";
    assert PhoneSplit(s, 3, 7);
  }

  /** A value with a letter in it, or shorter than a local number, is refused. */
  lemma NonPhonesRefused(s: string)
    requires |s| < 7 || exists k :: 0 <= k < |s| && IsLetter(s[k])
    ensures !PhonePattern(s)
  {
    if PhonePattern(s) {
      PhonePatternShape(s);
    }
  }

  // ---------------------------------------------------------------------------
  // Submitting the form
  // ---------------------------------------------------------------------------

  /** `form.getFieldsValue()`: a field the user cleared may be absent. */
  datatype FormValues = FormValues(name: Option<string>, email: Option<string>, phone: Option<string>)

  /** The values the form is filled with from the stored profile. */
  function Prefill(p: CandidateProfile): (v: FormValues)
    ensures v.name == Some(p.name) && v.email == Some(p.email) && v.phone == Some(p.phone)
  {
    FormValues(Some(p.name), Some(p.email), Some(p.phone))
  }

  /**
   * The field rules, which must all pass before the submit handler runs:
   * every field required, the email well-formed (the form library's check,
   * an input here), the phone matching the pattern.
   */
  predicate RulesPass(v: FormValues, emailWellFormed: bool) {
    && Truthy(v.name)
    && Truthy(v.email) && emailWellFormed
    && Truthy(v.phone) && PhonePattern(v.phone.value)
  }

  /** `{ ...candidate.profile, ...values }` for three present fields. */
  function ConfirmedProfile(p: CandidateProfile, name: string, email: string, phone: string): (r: CandidateProfile)
    ensures r.name == name && r.email == email && r.phone == phone
    ensures r.resumeMeta == p.resumeMeta
  {
    p.(name := name, email := email, phone := phone)
  }

  /** The session patch that starts the first question with its deadline. */
  function StartPatch(expiresAt: int): SessionPatch {
    EmptySessionPatch.(interviewStage := Some(InProgress), currentQuestionIndex := Some(0),
                       currentQuestionExpiresAt := Some(Some(expiresAt)))
  }

  /**
   * `onFinish`: with every field filled, save the profile, store the drawn
   * questions and start question 0 with its deadline; otherwise do nothing.
   * `qas` is what `generateInterviewQuestions` returned; any list of its
   * shape will do.
   */
  function OnFinish(st: AppState, c: CandidateRecord, now: int, v: FormValues, qas: seq<QAItem>): (r: AppState)
    requires DrawShape(qas)
    ensures !Truthy(v.name) || !Truthy(v.email) || !Truthy(v.phone) ==> r == st
    ensures r.candidates.Keys == st.candidates.Keys && r.candidateOrder == st.candidateOrder && r.ui == st.ui
    ensures Truthy(v.name) && Truthy(v.email) && Truthy(v.phone) ==>
      && r.session == st.session.(interviewStage := InProgress, currentQuestionIndex := 0,
                                  currentQuestionExpiresAt := Some(now + QuestionTime(qas[0].difficulty) * 1000))
      && (c.id in st.candidates ==>
            && r.candidates[c.id].profile == ConfirmedProfile(c.profile, v.name.value, v.email.value, v.phone.value)
            && r.candidates[c.id].qas == qas)
  {
    if !Truthy(v.name) || !Truthy(v.email) || !Truthy(v.phone) then st
    else
      var st1 := UpdateCandidate(st, c.id, EmptyRecordPatch.(profile :=
                   Some(ConfirmedProfile(c.profile, v.name.value, v.email.value, v.phone.value))));
      var st2 := UpdateCandidate(st1, c.id, EmptyRecordPatch.(qas := Some(qas)));
      SetSession(st2, StartPatch(now + QuestionTime(qas[0].difficulty) * 1000))
  }

  /**
   * Pressing "Start Interview": nothing happens without a current candidate
   * (the form is not shown) or when a field rule fails; otherwise the
   * profile takes the three values, the record gets the six drawn
   * questions, and the session starts question 0 with a 20-second deadline.
   */
  function ConfirmProfile(st: AppState, now: int, v: FormValues, emailWellFormed: bool, qas: seq<QAItem>): (r: AppState)
    requires DrawShape(qas)
    ensures CurrentCandidate(st).None? || !RulesPass(v, emailWellFormed) ==> r == st
    ensures CurrentCandidate(st).Some? && RulesPass(v, emailWellFormed) && KeyedById(st) ==>
      var id := st.session.currentCandidateId.value;
      var c := st.candidates[id];
      r == st.(candidates := st.candidates[id := c.(
                  profile := ConfirmedProfile(c.profile, v.name.value, v.email.value, v.phone.value),
                  qas := qas)],
               session := st.session.(interviewStage := InProgress, currentQuestionIndex := 0,
                                      currentQuestionExpiresAt := Some(now + 20000)))
  {
    match CurrentCandidate(st)
    case None => st
    case Some(c) =>
      if RulesPass(v, emailWellFormed) then
        OnFinishEffect(st, c, now, v, qas);
        OnFinish(st, c, now, v, qas)
      else st
  }

  /** What the submit handler writes, with the two record merges folded into one. */
  lemma OnFinishEffect(st: AppState, c: CandidateRecord, now: int, v: FormValues, qas: seq<QAItem>)
    requires DrawShape(qas)
    requires CurrentCandidate(st) == Some(c)
    requires Truthy(v.name) && Truthy(v.email) && Truthy(v.phone)
    ensures KeyedById(st) ==>
      var id := st.session.currentCandidateId.value;
      OnFinish(st, c, now, v, qas) == st.(
        candidates := st.candidates[id := c.(
          profile := ConfirmedProfile(c.profile, v.name.value, v.email.value, v.phone.value),
          qas := qas)],
        session := st.session.(interviewStage := InProgress, currentQuestionIndex := 0,
                               currentQuestionExpiresAt := Some(now + 20000)))
  {
    if KeyedById(st) {
      var id := st.session.currentCandidateId.value;
      assert c.id == id;
      TwoUpdates(st, id, ConfirmedProfile(c.profile, v.name.value, v.email.value, v.phone.value), qas);
    }
  }

  /** A profile update followed by a questions update is one write of both fields. */
  lemma TwoUpdates(st: AppState, id: string, profile: CandidateProfile, qas: seq<QAItem>)
    requires id in st.candidates
    ensures UpdateCandidate(UpdateCandidate(st, id, EmptyRecordPatch.(profile := Some(profile))),
                            id, EmptyRecordPatch.(qas := Some(qas)))
         == st.(candidates := st.candidates[id := st.candidates[id].(profile := profile, qas := qas)])
  {
    var c := st.candidates[id];
    var st1 := UpdateCandidate(st, id, EmptyRecordPatch.(profile := Some(profile)));
    assert st1 == st.(candidates := st.candidates[id := c.(profile := profile)]);
  }

  /** Confirming the prefilled values keeps the profile as it was and only adds the questions. */
  lemma ConfirmPrefilledKeepsProfile(st: AppState, now: int, emailWellFormed: bool, qas: seq<QAItem>)
    requires DrawShape(qas) && KeyedById(st)
    requires CurrentCandidate(st).Some?
    requires RulesPass(Prefill(CurrentCandidate(st).value.profile), emailWellFormed)
    ensures var c := CurrentCandidate(st).value;
      var r := ConfirmProfile(st, now, Prefill(c.profile), emailWellFormed, qas);
      && r.candidates[c.id].profile == c.profile
      && r.candidates[c.id].qas == qas
  {
  }

  /**
   * After a confirmation the screen shows the first, easy, question with its
   * deadline already set: the timer effect leaves it alone and no
   * auto-submit is due before the deadline.
   */
  lemma ConfirmStartsFirstQuestion(st: AppState, now: int, v: FormValues, emailWellFormed: bool, qas: seq<QAItem>, t: int, tick: int)
    requires DrawShape(qas) && KeyedById(st)
    requires CurrentCandidate(st).Some? && RulesPass(v, emailWellFormed)
    requires now + 20000 != 0
    ensures var r := ConfirmProfile(st, now, v, emailWellFormed, qas);
      && OnQuestion(r)
      && CurrentCandidate(r).value.qas == qas
      && InitTimer(r, t) == r
      && (tick < now + 20000 ==> !AutoSubmitDue(r, tick))
  {
    var r := ConfirmProfile(st, now, v, emailWellFormed, qas);
    var id := st.session.currentCandidateId.value;
    assert r.candidates[id].qas == qas;
    assert CurrentCandidate(r) == Some(r.candidates[id]);
  }

  /** A confirmation keeps the order list and the record map in step, and every record under its own id. */
  lemma ConfirmKeepsInvariants(st: AppState, now: int, v: FormValues, emailWellFormed: bool, qas: seq<QAItem>)
    requires DrawShape(qas)
    requires Valid(st) && KeyedById(st)
    ensures Valid(ConfirmProfile(st, now, v, emailWellFormed, qas))
    ensures KeyedById(ConfirmProfile(st, now, v, emailWellFormed, qas))
  {
  }
}

=== FILE: questions.dfy ===
/**
 * The question generator of the scoring engine: fixed pools of five
 * questions per difficulty, the per-question keyword lists, the time limits,
 * and the draw of two distinct questions per difficulty.
 */
module Questions {
  import opened Optional
  import opened Text
  import opened Store

  /** Seconds allowed per question. */
  function QuestionTime(d: Difficulty): (secs: nat)
    ensures secs > 0
  {
    match d
    case Easy => 20
    case Medium => 60
    case Hard => 120
  }

  function DifficultyName(d: Difficulty): (s: string)
    ensures s != [] && '-' !in s
  {
    match d
    case Easy => "easy"
    case Medium => "medium"
    case Hard => "hard"
  }

  const EasyQuestions: seq<string> := [
    "Explain the difference between var, let, and const in JavaScript.",
    "What is JSX in React and why is it useful?",
    "What is the purpose of useState in React?",
    "What does HTTP status 200 vs 404 indicate?",
    "What is npm and what is package.json used for?"
  ]

  const MediumQuestions: seq<string> := [
    "Describe how React Reconciliation works and what keys are used for.",
    "Explain how closures work in JavaScript and provide a use case.",
    "How would you structure a REST API in Node.js for a blog with posts and comments?",
    "What are React Context and Redux, and when would you choose one over the other?",
    "How does async/await compare to Promises and callbacks? Provide examples."
  ]

  const HardQuestions: seq<string> := [
    "Design a scalable architecture for a full-stack app with React frontend and Node.js backend handling 100k concurrent users. Discuss caching, DB, and deployment.",
    "Explain event loop and task/microtask queues in Node.js, and how they affect performance in real apps.",
    "How would you implement server-side rendering (SSR) with hydration in a React app and what trade-offs exist?",
    "Discuss strategies to prevent and mitigate XSS/CSRF in a full-stack application.",
    "Given a slow React page, how would you diagnose and optimize performance end-to-end?"
  ]

  function Pool(d: Difficulty): (qs: seq<string>)
    ensures |qs| == 5
  {
    match d
    case Easy => EasyQuestions
    case Medium => MediumQuestions
    case Hard => HardQuestions
  }

  const EasyKeywords: seq<seq<string>> := [
    ["var", "let", "const", "scope", "hoisting", "reassignment", "temporal dead zone"],
    ["jsx", "react", "babel", "html", "components", "syntax"],
    ["useState", "state", "hook", "functional component"],
    ["http", "status", "200", "404", "success", "not found"],
    ["npm", "package.json", "dependencies", "scripts", "registry"]
  ]

  const MediumKeywords: seq<seq<string>> := [
    ["reconciliation", "diffing", "virtual dom", "keys", "list", "identity"],
    ["closure", "lexical", "scope", "encapsulation", "factory", "module"],
    ["rest", "node", "express", "routes", "crud", "posts", "comments"],
    ["context", "redux", "state management", "provider", "store", "useReducer"],
    ["async", "await", "promises", "callbacks", "try", "catch"]
  ]

  const HardKeywords: seq<seq<string>> := [
    ["scalable", "caching", "redis", "load balancer", "horizontal", "cdn", "database", "sharding", "replication", "kubernetes"],
    ["event loop", "microtask", "task queue", "promise", "io", "non-blocking", "throughput"],
    ["ssr", "hydration", "next.js", "render", "seo", "trade-offs", "bundle"],
    ["xss", "csrf", "sanitize", "token", "sameSite", "csp", "oauth"],
    ["profiling", "memo", "useMemo", "useCallback", "virtualize", "lazy", "code splitting"]
  ]

  function KeywordPool(d: Difficulty): (rows: seq<seq<string>>)
    ensures |rows| == 5
  {
    match d
    case Easy => EasyKeywords
    case Medium => MediumKeywords
    case Hard => HardKeywords
  }

  // ---------------------------------------------------------------------------
  // Question ids and keyword recovery
  // ---------------------------------------------------------------------------

  /** The id `"<difficulty>-<idx>"` of pool entry `idx`. */
  function QuestionId(d: Difficulty, idx: nat): string
  {
    DifficultyName(d) + "-" + NatToString(idx)
  }

  function MakeQuestion(d: Difficulty, idx: nat): (q: QAItem)
    requires idx < 5
    ensures q.difficulty == d && q.id == QuestionId(d, idx) && q.question == Pool(d)[idx]
    ensures q.answer.None? && q.timeTakenSec.None? && q.score.None?
  {
    QAItem(QuestionId(d, idx), d, Pool(d)[idx], None, None, None)
  }

  /** `id.split('-')[1]`, absent when the id has no '-'. */
  function IndexSegment(id: string): Option<string>
  {
    var parts := SplitOn(id, '-');
    if |parts| >= 2 then Some(parts[1]) else None
  }

  /**
   * The keyword row of a question: the pool is chosen by the question's
   * difficulty and the row by `Number(id.split('-')[1] || 0) % 5`. A segment
   * that is not a decimal numeral makes `Number` give NaN and the row
   * `undefined`, modelled as `None`.
   */
  function KeywordsFor(q: QAItem): (r: Option<seq<string>>)
    ensures r.Some? ==> r.value in KeywordPool(q.difficulty)
    ensures IndexSegment(q.id).None? ==> r == Some(KeywordPool(q.difficulty)[0])
  {
    var seg := IndexSegment(q.id);
    if seg.None? || seg.value == "" then Some(KeywordPool(q.difficulty)[0])
    else if AllDigits(seg.value) then Some(KeywordPool(q.difficulty)[ParseDigits(seg.value) % 5])
    else None
  }

  /** An id of the form `<difficulty>-<idx>` leads back to keyword row `idx`. */
  lemma KeywordsForId(q: QAItem, idx: nat)
    requires idx < 5 && q.id == QuestionId(q.difficulty, idx)
    ensures KeywordsFor(q) == Some(KeywordPool(q.difficulty)[idx])
  {
    var d, digits := q.difficulty, NatToString(idx);
    assert '-' !in digits;
    assert QuestionId(d, idx) == DifficultyName(d) + ['-'] + digits;
    SplitOnAfterPiece(DifficultyName(d), '-', digits);
    SplitOnWithout(digits, '-');
    assert IndexSegment(q.id) == Some(digits);
    ParsePrinted(idx);
  }

  /** The id of a generated question leads back to the keyword row of its pool index. */
  lemma KeywordsForGenerated(d: Difficulty, idx: nat)
    requires idx < 5
    ensures KeywordsFor(MakeQuestion(d, idx)) == Some(KeywordPool(d)[idx])
  {
    KeywordsForId(MakeQuestion(d, idx), idx);
  }

  // ---------------------------------------------------------------------------
  // Drawing the question set
  // ---------------------------------------------------------------------------

  /** Different pool indices give different ids. */
  lemma QuestionIdInjective(d: Difficulty, a: nat, b: nat)
    requires a < 5 && b < 5 && a != b
    ensures QuestionId(d, a) != QuestionId(d, b)
  {
    var x, y := QuestionId(d, a), QuestionId(d, b);
    assert x[|x| - 1] == DigitChar(a);
    assert y[|y| - 1] == DigitChar(b);
  }

  /** The outcome of the six random draws: two pool indices per difficulty. */
  datatype Picks = Picks(easy0: nat, easy1: nat, medium0: nat, medium1: nat, hard0: nat, hard1: nat)

  /** Every index is inside its pool of five, and the two draws of a pool differ. */
  predicate ValidPicks(p: Picks) {
    && p.easy0 < 5 && p.easy1 < 5 && p.easy0 != p.easy1
    && p.medium0 < 5 && p.medium1 < 5 && p.medium0 != p.medium1
    && p.hard0 < 5 && p.hard1 < 5 && p.hard0 != p.hard1
  }

  /** Slots 0-1 are easy, 2-3 medium, 4-5 hard. */
  function SlotDifficulty(i: nat): Difficulty
  {
    if i < 2 then Easy else if i < 4 then Medium else Hard
  }

  function PickAt(p: Picks, i: nat): nat
  {
    match i
    case 0 => p.easy0
    case 1 => p.easy1
    case 2 => p.medium0
    case 3 => p.medium1
    case 4 => p.hard0
    case _ => p.hard1
  }

  /** The shape of every draw: six questions, slots 0-1 easy, 2-3 medium, 4-5 hard. */
  predicate DrawShape(qas: seq<QAItem>) {
    |qas| == 6 && forall i :: 0 <= i < 6 ==> qas[i].difficulty == SlotDifficulty(i)
  }

  /** The six questions a given draw produces. */
  function QuestionSet(p: Picks): (qas: seq<QAItem>)
    requires ValidPicks(p)
    ensures |qas| == 6
    ensures forall i :: 0 <= i < 6 ==>
      PickAt(p, i) < 5 && qas[i] == MakeQuestion(SlotDifficulty(i), PickAt(p, i))
    ensures qas[0].id != qas[1].id && qas[2].id != qas[3].id && qas[4].id != qas[5].id
    ensures DrawShape(qas)
  {
    QuestionIdInjective(Easy, p.easy0, p.easy1);
    QuestionIdInjective(Medium, p.medium0, p.medium1);
    QuestionIdInjective(Hard, p.hard0, p.hard1);
    [MakeQuestion(Easy, p.easy0), MakeQuestion(Easy, p.easy1),
     MakeQuestion(Medium, p.medium0), MakeQuestion(Medium, p.medium1),
     MakeQuestion(Hard, p.hard0), MakeQuestion(Hard, p.hard1)]
  }

  /** Every generated question carries a recoverable keyword row: its own pool index's. */
  lemma QuestionSetKeywords(p: Picks, i: nat)
    requires ValidPicks(p) && i < 6
    ensures KeywordsFor(QuestionSet(p)[i]) == Some(KeywordPool(SlotDifficulty(i))[PickAt(p, i)])
  {
    KeywordsForGenerated(SlotDifficulty(i), PickAt(p, i));
  }

  /**
   * `pickRandom`: some index of `arr` outside `exclude`. The app draws
   * uniformly and retries until it lands outside the set; the model keeps
   * only the outcome, as a nondeterministic choice.
   */
  method PickRandom(arr: seq<string>, exclude: set<nat>) returns (idx: nat, value: string)
    requires exists i: nat :: i < |arr| && i !in exclude
    ensures idx < |arr| && idx !in exclude && value == arr[idx]
  {
    idx :| idx < |arr| && idx !in exclude;
    value := arr[idx];
  }

  /** One of the three loops of `generateInterviewQuestions`: two draws from one pool. */
  method DrawTwo(d: Difficulty) returns (items: seq<QAItem>, ghost first: nat, ghost second: nat)
    ensures |items| == 2 && items[0].difficulty == d && items[1].difficulty == d
    ensures items[0].id != items[1].id && items[0].question in Pool(d) && items[1].question in Pool(d)
    ensures first < 5 && second < 5 && first != second
    ensures items == [MakeQuestion(d, first), MakeQuestion(d, second)]
  {
    var used: set<nat> := {};
    items := [];
    ghost var picked: seq<nat> := [];
    for i := 0 to 2
      invariant |picked| == i && |items| == i
      invariant forall k :: 0 <= k < i ==> picked[k] < 5 && items[k] == MakeQuestion(d, picked[k])
      invariant forall x :: x in used <==> x in picked
      invariant i == 2 ==> picked[0] != picked[1]
    {
      assert exists j: nat :: j < 5 && j !in used by {
        if i == 0 {
          assert 0 !in used;
        } else if picked[0] == 0 {
          assert 1 !in used;
        } else {
          assert 0 !in used;
        }
      }
      var idx, value := PickRandom(Pool(d), used);
      used := used + {idx};
      items := items + [QAItem(DifficultyName(d) + "-" + NatToString(idx), d, value, None, None, None)];
      picked := picked + [idx];
    }
    first := picked[0];
    second := picked[1];
    QuestionIdInjective(d, first, second);
  }

  /**
   * `generateInterviewQuestions`: two easy, two medium and two hard
   * questions, never the same pool entry twice within a difficulty.
   */
  method GenerateInterviewQuestions() returns (qas: seq<QAItem>)
    ensures exists p :: ValidPicks(p) && qas == QuestionSet(p)
    ensures DrawShape(qas)
  {
    var easy, e0, e1 := DrawTwo(Easy);
    var medium, m0, m1 := DrawTwo(Medium);
    var hard, h0, h1 := DrawTwo(Hard);
    qas := easy + medium + hard;
    ghost var p := Picks(e0, e1, m0, m1, h0, h1);
    ThreePairs(easy, medium, hard);
    QuestionSetSlots(p);
    assert qas == QuestionSet(p);
  }

  /** The draw's six questions, slot by slot. */
  lemma QuestionSetSlots(p: Picks)
    requires ValidPicks(p)
    ensures QuestionSet(p) == [MakeQuestion(Easy, p.easy0), MakeQuestion(Easy, p.easy1),
                               MakeQuestion(Medium, p.medium0), MakeQuestion(Medium, p.medium1),
                               MakeQuestion(Hard, p.hard0), MakeQuestion(Hard, p.hard1)]
  {
  }

  /** Three pairs concatenated are the six elements in order. */
  lemma ThreePairs<T>(a: seq<T>, b: seq<T>, c: seq<T>)
    requires |a| == 2 && |b| == 2 && |c| == 2
    ensures a + b + c == [a[0], a[1], b[0], b[1], c[0], c[1]]
  {
  }
}

=== FILE: resume.dfy ===
/**
 * The résumé text heuristics: which extractor a file goes to, title-casing of
 * names, the name guessed from a file name, and the ordered name-extraction
 * steps over the résumé text. The PDF and DOCX text extractors themselves are
 * foreign libraries; their outcome is an input here.
 */
module Resume {
  import opened Optional
  import opened Text

  // ---------------------------------------------------------------------------
  // File-type dispatch
  // ---------------------------------------------------------------------------

  const PdfMime: string := "application/pdf"
  const DocxMime: string := "application/vnd.openxmlformats-officedocument.wordprocessingml.document"
  const UnsupportedMessage: string := "Unsupported file type. Please upload a PDF or DOCX."

  /** The two fields of a browser `File` the application reads. */
  datatype FileInfo = FileInfo(name: string, mimeType: string)

  datatype ResumeKind = Pdf | Docx

  predicate NamedPdf(f: FileInfo) { f.mimeType == PdfMime || EndsWith(ToLower(f.name), ".pdf") }

  predicate NamedDocx(f: FileInfo) { f.mimeType == DocxMime || EndsWith(ToLower(f.name), ".docx") }

  /** PDF is tried first, then DOCX; anything else is refused with a fixed message. */
  function ResumeKindOf(f: FileInfo): (r: Result<ResumeKind>)
    ensures r == Ok(Pdf) <==> NamedPdf(f)
    ensures r == Ok(Docx) <==> !NamedPdf(f) && NamedDocx(f)
    ensures r.Err? <==> !NamedPdf(f) && !NamedDocx(f)
    ensures r.Err? ==> r.message == UnsupportedMessage
  {
    if NamedPdf(f) then Ok(Pdf)
    else if NamedDocx(f) then Ok(Docx)
    else Err(UnsupportedMessage)
  }

  /** The extension test ignores letter case: 'CV.PDF' goes to the PDF extractor. */
  lemma KindIgnoresNameCase(f: FileInfo)
    ensures ResumeKindOf(f.(name := ToLower(f.name))) == ResumeKindOf(f)
  {
    var low := ToLower(f.name);
    assert ToLower(low) == low;
  }

  /** A PDF MIME type wins over a '.docx' name, and a '.docx' name needs no MIME type. */
  lemma KindExamples()
    ensures ResumeKindOf(FileInfo("cv.docx", PdfMime)) == Ok(Pdf)
    ensures ResumeKindOf(FileInfo("CV.DOCX", "")) == Ok(Docx)
    ensures ResumeKindOf(FileInfo("cv.txt", "text/plain")) == Err(UnsupportedMessage)
  {
    var a, b := ToLower("CV.DOCX"), ToLower("cv.txt");
    assert a == "cv.docx";
    assert a[3..] != ".pdf" by { assert a[6] == 'x'; }
    assert b == "cv.txt";
    assert b[2..] != ".pdf" by { assert b[5] == 't'; }
    assert b[1..] != ".docx" by { assert b[5] == 't'; }
  }

  /**
   * `getResumeText`: the dispatch, then the chosen extractor. `extracted` is
   * what that extractor returns for this file, or the error it throws.
   */
  function GetResumeText(f: FileInfo, extracted: Result<string>): (r: Result<string>)
    ensures ResumeKindOf(f).Err? ==> r == Err(UnsupportedMessage)
    ensures ResumeKindOf(f).Ok? ==> r == extracted
  {
    match ResumeKindOf(f)
    case Err(msg) => Err(msg)
    case Ok(_) => extracted
  }

  // ---------------------------------------------------------------------------
  // Capitalisation
  // ---------------------------------------------------------------------------

  /** `w.charAt(0).toUpperCase() + w.slice(1)`. */
  function Capitalize(w: string): (r: string)
    ensures |r| == |w|
    ensures w != [] ==> r[0] == UpperChar(w[0]) && r[1..] == w[1..]
  {
    if w == [] then [] else [UpperChar(w[0])] + w[1..]
  }

  lemma CapitalizeIdempotent(w: string)
    ensures Capitalize(Capitalize(w)) == Capitalize(w)
  {
  }

  /** No lower-case letter: the word equals its own upper-casing. */
  predicate NoLowerCase(w: string) {
    forall i :: 0 <= i < |w| ==> !IsLower(w[i])
  }

  lemma UpperFixpoint(w: string)
    ensures ToUpper(w) == w <==> NoLowerCase(w)
  {
    if NoLowerCase(w) {
      assert forall i :: 0 <= i < |w| ==> ToUpper(w)[i] == w[i];
    } else {
      var i :| 0 <= i < |w| && IsLower(w[i]);
      assert ToUpper(w)[i] != w[i];
    }
  }

  /**
   * One word of `toTitleCase`: an all-upper-case word becomes upper-case
   * first, lower-case rest; any other word only gets its first character
   * upper-cased.
   */
  function TitleWord(w: string): (r: string)
    ensures |r| == |w|
    ensures w != [] ==> r[0] == UpperChar(w[0])
    ensures forall i :: 1 <= i < |w| ==> r[i] == (if NoLowerCase(w) then LowerChar(w[i]) else w[i])
    ensures forall i :: 0 <= i < |w| ==> (IsSpace(r[i]) <==> IsSpace(w[i]))
  {
    UpperFixpoint(w);
    if ToUpper(w) == w then Capitalize(ToLower(w)) else Capitalize(w)
  }

  lemma TitleWordsAreWords(ws: seq<string>)
    requires AllWords(ws)
    ensures AllWords(Map(ws, TitleWord))
  {
    var ts := Map(ws, TitleWord);
    forall k | 0 <= k < |ts|
      ensures IsWord(ts[k])
    {
      assert ts[k] == TitleWord(ws[k]);
    }
  }

  /**
   * `toTitleCase`: split at whitespace, title-case each piece, join with ' ',
   * collapse whitespace runs and trim. The result is always single-spaced.
   */
  function TitleCase(s: string): (r: string)
    ensures SingleSpaced(r)
  {
    CollapseThenTrim(Join(Map(SplitWs(s), TitleWord), " "));
    Trim(ReplaceRuns(Join(Map(SplitWs(s), TitleWord), " "), Spaces))
  }

  /** On a space-joined list of words, title-casing acts word by word and keeps every word. */
  lemma {:induction false} TitleCaseOfWords(ws: seq<string>)
    requires |ws| >= 1 && AllWords(ws)
    ensures TitleCase(Join(ws, " ")) == Join(Map(ws, TitleWord), " ")
    ensures SplitWs(TitleCase(Join(ws, " "))) == Map(ws, TitleWord)
  {
    SplitJoin(ws);
    var ts := Map(ws, TitleWord);
    TitleWordsAreWords(ws);
    var j := Join(ts, " ");
    JoinAllWordsCharacters(ts);
    ReplaceSpacesOfSingleSpaced(j);
    JoinEnds(ts);
    TrimOfTrimmed(j);
    SplitJoin(ts);
  }

  /**
   * On any trimmed string, title-casing acts word by word: the words of the
   * result are the input's words, each title-cased.
   */
  lemma TitleCaseWordwise(s: string)
    requires s == [] || (!IsSpace(s[0]) && !IsSpace(s[|s| - 1]))
    ensures SplitWs(TitleCase(s)) == Map(SplitWs(s), TitleWord)
    ensures s != [] ==> TitleCase(s) == Join(Map(SplitWs(s), TitleWord), " ")
  {
    if s == [] {
      assert SplitWs(s) == [""];
      assert Map(SplitWs(s), TitleWord) == [""];
      assert TitleCase(s) == "";
    } else {
      var ws := SplitWs(s);
      SplitTrimmedIsWords(s);
      SplitJoin(ws);
      TitleCaseOfWords(ws);
      assert TitleCase(Join(ws, " ")) == TitleCase(s);
    }
  }

  // ---------------------------------------------------------------------------
  // A name from the file name
  // ---------------------------------------------------------------------------

  /** A final extension: a '.' followed by at least one character and no further '.'. */
  predicate IsExtension(e: string) {
    |e| >= 2 && e[0] == '.' && '.' !in e[1..]
  }

  /** Index of the last '.', or -1. */
  function LastDot(s: string): (i: int)
    ensures -1 <= i < |s|
    ensures i >= 0 ==> s[i] == '.'
    ensures forall k :: i < k < |s| ==> s[k] != '.'
  {
    if s == [] then -1
    else if s[|s| - 1] == '.' then |s| - 1
    else LastDot(s[..|s| - 1])
  }

  /** `name.replace(/\.[^.]+$/, '')`: drops a final extension, if there is one. */
  function StripExtension(name: string): (r: string)
    ensures |r| <= |name| && r == name[..|r|]
    ensures r != name ==> IsExtension(name[|r|..])
    ensures r == name ==> forall k :: 0 <= k < |name| ==> !IsExtension(name[k..])
  {
    var i := LastDot(name);
    if i >= 0 && i < |name| - 1 then
      assert '.' !in name[i..][1..] by {
        assert forall k :: 0 <= k < |name[i..][1..]| ==> name[i..][1..][k] == name[i + 1 + k];
      }
      name[..i]
    else
      assert forall k :: 0 <= k < |name| && IsExtension(name[k..]) ==> name[k..][|name[k..]| - 1] == name[|name| - 1];
      assert forall k :: 0 <= k < |name| && IsExtension(name[k..]) ==> name[k] == '.' && k >= i;
      name
  }

  /** The words the file-name heuristic removes, in the order the alternation tries them. */
  const ResumeWords: seq<string> := ["resume", "cv", "curriculum", "vitae", "profile", "final", "updated", "new"]

  /** `a` lowercased is `w`, compared one letter at a time. */
  predicate LowerEq(a: string, w: string)
    decreases |a|
  {
    |a| == |w| && (a == [] || (LowerChar(a[0]) == w[0] && LowerEq(a[1..], w[1..])))
  }

  /** The letter-by-letter comparison is `a.toLowerCase() === w`. */
  lemma {:induction false} LowerEqMeansToLower(a: string, w: string)
    ensures LowerEq(a, w) <==> ToLower(a) == w
    decreases |a|
  {
    if |a| == |w| && a != [] {
      LowerEqMeansToLower(a[1..], w[1..]);
      assert ToLower(a)[1..] == ToLower(a[1..]);
      if ToLower(a) == w {
        assert ToLower(a)[1..] == w[1..];
      }
      if LowerEq(a, w) {
        assert ToLower(a) == [ToLower(a)[0]] + ToLower(a)[1..];
        assert w == [w[0]] + w[1..];
      }
    }
  }

  /** `w` occurs at `i`, ignoring the case of ASCII letters. */
  predicate MatchesAt(s: string, w: string, i: nat) {
    i + |w| <= |s| && LowerEq(s[i..i + |w|], w)
  }

  /** Every word of `ws` is non-empty and free of spaces. */
  predicate PlainWords(ws: seq<string>) {
    forall w :: w in ws ==> w != [] && ' ' !in w
  }

  lemma ResumeWordsArePlain()
    ensures PlainWords(ResumeWords)
  {
  }

  /** The first of the words `ws` that matches at the start of `s`. */
  function FirstMatch(s: string, ws: seq<string>): (r: Option<string>)
    ensures r.Some? ==> r.value in ws && MatchesAt(s, r.value, 0)
    ensures r.None? ==> forall w :: w in ws ==> !MatchesAt(s, w, 0)
    decreases |ws|
  {
    if ws == [] then None
    else if MatchesAt(s, ws[0], 0) then Some(ws[0])
    else FirstMatch(s, ws[1..])
  }

  /**
   * A global, case-insensitive replace of the alternation of `ws` by one
   * space: at each position the first alternative that matches is removed,
   * otherwise one character is copied.
   */
  function RemoveWords(s: string, ws: seq<string>): (r: string)
    requires PlainWords(ws)
    decreases |s|
  {
    if s == [] then []
    else match FirstMatch(s, ws)
      case Some(w) => [' '] + RemoveWords(s[|w|..], ws)
      case None => [s[0]] + RemoveWords(s[1..], ws)
  }

  /** `s.replace(/resume|cv|curriculum|vitae|profile|final|updated|new/gi, ' ')`. */
  function RemoveResumeWords(s: string): string
  {
    ResumeWordsArePlain();
    RemoveWords(s, ResumeWords)
  }

  /** One step of the replacement: a word at the start becomes a space, anything else is copied. */
  lemma RemoveStep(s: string, ws: seq<string>)
    requires PlainWords(ws) && s != []
    ensures FirstMatch(s, ws).Some? ==>
      (|FirstMatch(s, ws).value| <= |s| &&
       RemoveWords(s, ws) == [' '] + RemoveWords(s[|FirstMatch(s, ws).value|..], ws))
    ensures FirstMatch(s, ws).None? ==> RemoveWords(s, ws) == [s[0]] + RemoveWords(s[1..], ws)
  {
  }

  /** Up to the first inserted space, the result is a copy of the input. */
  lemma {:induction false} RemovedPrefix(s: string, ws: seq<string>)
    requires PlainWords(ws)
    ensures var r := RemoveWords(s, ws); var k := IndexOf(r, ' ');
      k <= |s| && r[..k] == s[..k]
    decreases |s|
  {
    var r := RemoveWords(s, ws);
    if s != [] && FirstMatch(s, ws).None? && s[0] != ' ' {
      RemoveStep(s, ws);
      var rest := RemoveWords(s[1..], ws);
      assert r[1..] == rest;
      RemovedPrefix(s[1..], ws);
      var k := IndexOf(rest, ' ');
      assert IndexOf(r, ' ') == 1 + k;
      assert rest[..k] == s[1..][..k];
      assert r[..k + 1] == [s[0]] + rest[..k];
      assert s[..k + 1] == [s[0]] + s[1..][..k];
    } else if s != [] {
      RemoveStep(s, ws);
    }
  }

  /** A word without spaces cannot match over a space. */
  lemma SpaceBlocksMatch(r: string, w: string, k: nat)
    requires k < |w| <= |r| && r[k] == ' ' && ' ' !in w
    ensures !MatchesAt(r, w, 0)
  {
    LowerEqMeansToLower(r[..|w|], w);
    assert ToLower(r[..|w|])[k] == ' ';
  }

  /** A word match at the very start of the result would have been a match in the input. */
  lemma NoWordAtStart(s: string, ws: seq<string>, w: string)
    requires PlainWords(ws) && w in ws && s != [] && FirstMatch(s, ws).None?
    ensures !MatchesAt(RemoveWords(s, ws), w, 0)
  {
    var r := RemoveWords(s, ws);
    if |w| <= |r| {
      RemovedPrefix(s, ws);
      var k := IndexOf(r, ' ');
      if k < |w| {
        SpaceBlocksMatch(r, w, k);
      } else {
        assert r[..|w|] == r[..k][..|w|];
        assert s[..|w|] == s[..k][..|w|];
        assert !MatchesAt(s, w, 0);
      }
    }
  }

  /** Past the first character, a match in `[c] + rest` is a match in `rest` one place earlier. */
  lemma MatchInTail(c: char, rest: string, w: string, i: nat)
    requires 1 <= i
    ensures MatchesAt([c] + rest, w, i) <==> MatchesAt(rest, w, i - 1)
  {
    if i + |w| <= 1 + |rest| {
      assert ([c] + rest)[i..i + |w|] == rest[i - 1..i - 1 + |w|];
    }
  }

  /** No word of `ws` is left anywhere in the result, in any letter case. */
  lemma {:induction false} NoWordLeft(s: string, ws: seq<string>, w: string, i: nat)
    requires PlainWords(ws) && w in ws
    ensures !MatchesAt(RemoveWords(s, ws), w, i)
    decreases |s|
  {
    var r := RemoveWords(s, ws);
    if s != [] && i + |w| <= |r| {
      RemoveStep(s, ws);
      if FirstMatch(s, ws).Some? {
        var tail := s[|FirstMatch(s, ws).value|..];
        if i == 0 {
          SpaceBlocksMatch(r, w, 0);
        } else {
          MatchInTail(' ', RemoveWords(tail, ws), w, i);
          NoWordLeft(tail, ws, w, i - 1);
        }
      } else if i == 0 {
        NoWordAtStart(s, ws, w);
      } else {
        MatchInTail(s[0], RemoveWords(s[1..], ws), w, i);
        NoWordLeft(s[1..], ws, w, i - 1);
      }
    }
  }

  /** No resume word is left anywhere in a cleaned file name, in any letter case. */
  lemma NoResumeWordLeft(s: string, w: string, i: nat)
    requires w in ResumeWords
    ensures !MatchesAt(RemoveResumeWords(s), w, i)
  {
    ResumeWordsArePlain();
    NoWordLeft(s, ResumeWords, w, i);
  }

  /** `/^[A-Za-z][A-Za-z'\-]*$/`: a letter, then letters, apostrophes and hyphens. */
  predicate NameToken(p: string) {
    && |p| >= 1 && IsLetter(p[0])
    && forall i :: 1 <= i < |p| ==> IsLetter(p[i]) || p[i] == '\'' || p[i] == '-'
  }

  /** The candidate name tokens left in a file name once the noise is removed. */
  function FileNameTokens(fileName: string): (parts: seq<string>)
    ensures AllWords(parts)
    ensures forall k :: 0 <= k < |parts| ==> NameToken(parts[k])
  {
    var cleaned := Trim(ReplaceRuns(ReplaceRuns(ReplaceRuns(
      RemoveResumeWords(StripExtension(fileName)), UnderscoresDashes), Digits), Spaces));
    var pieces := SplitWs(cleaned);
    var parts := Filter(pieces, NameToken);
    forall k | 0 <= k < |parts|
      ensures IsWord(parts[k]) && NameToken(parts[k])
    {
      assert parts[k] in parts;
      var j :| 0 <= j < |pieces| && pieces[j] == parts[k];
    }
    parts
  }

  /**
   * `deriveNameFromFilename`: defined exactly when two to four name tokens
   * remain, and then it is those tokens, title-cased, one space apart.
   */
  function DeriveNameFromFilename(fileName: string): (r: Option<string>)
    ensures r.Some? <==> 2 <= |FileNameTokens(fileName)| <= 4
    ensures r.Some? ==> SplitWs(r.value) == Map(FileNameTokens(fileName), TitleWord)
    ensures r.Some? ==> 2 <= |SplitWs(r.value)| <= 4 && SingleSpaced(r.value)
  {
    var parts := FileNameTokens(fileName);
    if 2 <= |parts| <= 4 then
      TitleCaseOfWords(parts);
      Some(TitleCase(Join(parts, " ")))
    else None
  }

  // ---------------------------------------------------------------------------
  // Reading a profile out of the résumé text
  // ---------------------------------------------------------------------------

  /**
   * The first element `f` maps to a value, and that value. The loops of the
   * name heuristics are searches of this shape: the first line that yields a
   * name ends the loop.
   */
  function FirstSome<T, U>(s: seq<T>, f: T -> Option<U>): (r: Option<U>)
    ensures r.None? <==> forall i :: 0 <= i < |s| ==> f(s[i]).None?
    ensures r.Some? ==> exists i :: 0 <= i < |s| && f(s[i]) == r && forall j :: 0 <= j < i ==> f(s[j]).None?
  {
    if s == [] then None
    else if f(s[0]).Some? then f(s[0])
    else
      var r := FirstSome(s[1..], f);
      assert forall i :: 1 <= i < |s| ==> s[i] == s[1..][i - 1];
      r
  }

  /** `s.slice(0, n)`. */
  function Take<T>(s: seq<T>, n: nat): (r: seq<T>)
    ensures |r| == if |s| < n then |s| else n
    ensures r == s[..|r|]
  {
    if |s| < n then s else s[..n]
  }

  /** `FirstSome` over the first `n` elements: the loops that stop after a fixed number of lines. */
  function FirstSomeWithin<T, U>(s: seq<T>, n: nat, f: T -> Option<U>): (r: Option<U>)
    ensures r.None? <==> forall i :: 0 <= i < |s| && i < n ==> f(s[i]).None?
    ensures r.Some? ==> exists i :: 0 <= i < |s| && i < n && f(s[i]) == r && forall j :: 0 <= j < i ==> f(s[j]).None?
  {
    var window := Take(s, n);
    assert forall i :: 0 <= i < |window| ==> window[i] == s[i];
    FirstSome(window, f)
  }

  /**
   * `text.split(/\r?\n/).map(l => l.trim()).filter(l => !!l)`. Splitting at
   * '\n' alone gives the same trimmed lines: the only difference is a '\r'
   * before the break, and trimming strips it.
   */
  function Lines(text: string): (ls: seq<string>)
    ensures forall k :: 0 <= k < |ls| ==> ls[k] != [] && Trim(ls[k]) == ls[k]
  {
    var trimmed := Map(SplitOn(text, '\n'), Trim);
    forall k | 0 <= k < |trimmed|
      ensures Trim(trimmed[k]) == trimmed[k]
    {
      TrimOfTrimmed(trimmed[k]);
    }
    FilterKeeps(trimmed, NonEmpty, (l: string) => Trim(l) == l);
    Filter(trimmed, NonEmpty)
  }

  predicate NonEmpty(l: string) { l != "" }

  /** Non-empty, trimmed lines without a line break come back from their '\n'-join. */
  lemma LinesOfJoin(ls: seq<string>)
    requires forall k :: 0 <= k < |ls| ==> ls[k] != [] && Trim(ls[k]) == ls[k] && '\n' !in ls[k]
    ensures Lines(Join(ls, "\n")) == ls
  {
    if ls == [] {
      TrimOfTrimmed("");
      assert SplitOn("", '\n') == [""];
      assert Map([""], Trim) == [""];
    } else {
      LinesOfJoinedLines(ls);
    }
  }

  lemma LinesOfJoinedLines(ls: seq<string>)
    requires |ls| >= 1
    requires forall k :: 0 <= k < |ls| ==> ls[k] != [] && Trim(ls[k]) == ls[k] && '\n' !in ls[k]
    ensures Lines(Join(ls, "\n")) == ls
  {
    SplitOnJoin(ls, '\n');
    assert Map(ls, Trim) == ls;
    FilterAll(ls, NonEmpty);
  }

  const Headings: set<string> := {
    "RESUME", "CURRICULUM VITAE", "CV", "PROFILE", "SUMMARY", "CONTACT",
    "EXPERIENCE", "WORK EXPERIENCE", "EDUCATION", "SKILLS", "PROJECTS", "CERTIFICATIONS"
  }

  /** A section heading in any letter case; such lines never name the candidate. */
  predicate IsHeading(line: string) {
    ToUpper(line) in Headings
  }

  predicate AllSpace(s: string) {
    forall i :: 0 <= i < |s| ==> IsSpace(s[i])
  }

  predicate NoLineTerminator(s: string) {
    forall i :: 0 <= i < |s| ==> !IsLineTerminator(s[i])
  }

  /** The end of the whitespace run starting at `i`. */
  function SkipSpaces(s: string, i: nat): (j: nat)
    requires i <= |s|
    ensures i <= j <= |s| && AllSpace(s[i..j])
    ensures j < |s| ==> !IsSpace(s[j])
    decreases |s| - i
  {
    if i < |s| && IsSpace(s[i]) then
      var j := SkipSpaces(s, i + 1);
      assert forall k :: 0 <= k < j - i ==> s[i..j][k] == s[i + k];
      j
    else i
  }

  lemma SkipSpacesIsMaximal(s: string, i: nat, k: nat)
    requires i <= k <= |s| && AllSpace(s[i..k])
    ensures k <= SkipSpaces(s, i)
    decreases |s| - i
  {
    if i < k {
      assert s[i] == s[i..k][0];
      assert s[i + 1..k] == s[i..k][1..];
      SkipSpacesIsMaximal(s, i + 1, k);
    }
  }

  /**
   * `/^(?:name)\s*[:\-]\s*(.+)$/i` read declaratively: the group starts at
   * `k`, the separator sits at `sep`, whitespace fills the gaps, and the group
   * is a non-empty run without line terminators up to the end of the line.
   */
  predicate LabelMatch(line: string, sep: nat, k: nat) {
    && 4 <= sep < k < |line|
    && ToLower(line[..4]) == "name"
    && AllSpace(line[4..sep]) && (line[sep] == ':' || line[sep] == '-')
    && AllSpace(line[sep + 1..k]) && NoLineTerminator(line[k..])
  }

  /**
   * The captured group of that pattern. The greedy `\s*` before the group
   * makes it start as late as a match allows.
   */
  function LabelValue(line: string): (m: Option<string>)
    ensures m.Some? ==> exists sep: nat, k: nat :: LabelMatch(line, sep, k) && m.value == line[k..]
    ensures m.None? ==> forall sep: nat, k: nat :: !LabelMatch(line, sep, k)
    ensures m.Some? ==> forall sep: nat, k: nat :: LabelMatch(line, sep, k) ==> |m.value| <= |line| - k
  {
    if |line| < 4 || ToLower(line[..4]) != "name" then None
    else
      var sep := SkipSpaces(line, 4);
      if sep == |line| || (line[sep] != ':' && line[sep] != '-') then
        LabelSeparator(line, sep);
        None
      else
        var j := SkipSpaces(line, sep + 1);
        LabelSeparator(line, sep);
        LabelGroupStart(line, sep, j);
        if j < |line| then
          if NoLineTerminator(line[j..]) then
            assert LabelMatch(line, sep, j);
            Some(line[j..])
          else None
        else if j > sep + 1 && !IsLineTerminator(line[j - 1]) then
          assert line[j - 1..] == [line[j - 1]];
          assert line[sep + 1..j - 1] == line[sep + 1..j][..j - sep - 2];
          assert LabelMatch(line, sep, j - 1);
          Some([line[j - 1]])
        else None
  }

  /** In any match, the separator is the first character after the leading whitespace. */
  lemma LabelSeparator(line: string, first: nat)
    requires 4 <= |line| && first == SkipSpaces(line, 4)
    ensures forall sep: nat, k: nat :: LabelMatch(line, sep, k) ==> sep == first
  {
    forall p | 4 <= p < first
      ensures IsSpace(line[p])
    {
      assert line[p] == line[4..first][p - 4];
    }
    forall sep: nat, k: nat | LabelMatch(line, sep, k)
      ensures sep == first
    {
      SkipSpacesIsMaximal(line, 4, sep);
      assert !IsSpace(line[sep]);
    }
  }

  /** In any match with separator `sep`, the group starts no later than `j` and covers `line[j..]`. */
  lemma LabelGroupStart(line: string, sep: nat, j: nat)
    requires sep < |line| && j == SkipSpaces(line, sep + 1)
    ensures forall k: nat :: LabelMatch(line, sep, k) ==> k <= j
    ensures forall k: nat :: LabelMatch(line, sep, k) && j < |line| ==> NoLineTerminator(line[j..])
    ensures forall k: nat :: LabelMatch(line, sep, k) && j == |line| ==>
      sep + 1 < j && k <= j - 1 && !IsLineTerminator(line[j - 1])
  {
    forall k: nat | LabelMatch(line, sep, k)
      ensures k <= j
    {
      SkipSpacesIsMaximal(line, sep + 1, k);
    }
    forall k: nat | LabelMatch(line, sep, k) && j < |line|
      ensures NoLineTerminator(line[j..])
    {
      assert forall i :: 0 <= i < |line| - j ==> line[j..][i] == line[k..][i + j - k];
    }
    forall k: nat | LabelMatch(line, sep, k) && j == |line|
      ensures sep + 1 < j && k <= j - 1 && !IsLineTerminator(line[j - 1])
    {
      assert line[j - 1] == line[k..][j - 1 - k];
    }
  }

  /** `[^A-Za-z'\-\s]`'s complement: the characters a name may keep. */
  predicate NameChar(c: char) {
    IsLetter(c) || c == '\'' || c == '-' || IsSpace(c)
  }

  /**
   * `toTitleCase(s.replace(/[^A-Za-z'\-\s]/g, '').trim())`: only letters,
   * apostrophes, hyphens and single spaces are left, and the words are the
   * kept words, each title-cased.
   */
  function CleanName(s: string): (r: string)
    ensures SingleSpaced(r)
    ensures forall k :: 0 <= k < |r| ==> IsLetter(r[k]) || r[k] == '\'' || r[k] == '-' || r[k] == ' '
    ensures SplitWs(r) == Map(SplitWs(Trim(KeepChars(s, NameChar))), TitleWord)
  {
    var kept := Trim(KeepChars(s, NameChar));
    TrimKeepsChars(KeepChars(s, NameChar), NameChar);
    TitleCaseWordwise(kept);
    TitleCaseKeepsNameChars(kept);
    TitleCase(kept)
  }

  /** Title-casing a word keeps it within the characters a name may hold. */
  lemma TitleWordKeepsNameChars(w: string)
    requires AllChars(w, NameChar)
    ensures AllChars(TitleWord(w), NameChar)
  {
    var r := TitleWord(w);
    forall i | 0 <= i < |r|
      ensures NameChar(r[i])
    {
      assert NameChar(w[i]);
    }
  }

  /** Title-casing a trimmed string of name characters gives name characters only. */
  lemma TitleCaseKeepsNameChars(t: string)
    requires t == [] || (!IsSpace(t[0]) && !IsSpace(t[|t| - 1]))
    requires AllChars(t, NameChar)
    ensures AllChars(TitleCase(t), NameChar)
  {
    TitleCaseWordwise(t);
    if t != [] {
      var ws := SplitWs(t);
      var ts := Map(ws, TitleWord);
      SplitWsChars(t, NameChar);
      forall k | 0 <= k < |ts|
        ensures AllChars(ts[k], NameChar)
      {
        TitleWordKeepsNameChars(ws[k]);
      }
      assert AllChars(" ", NameChar);
      JoinChars(ts, " ", NameChar);
    }
  }

  /** Step 1 on one line: a label line whose value has at most six words gives a name (possibly ''). */
  function LabelName(line: string): (r: Option<string>)
    ensures r.Some? ==> LabelValue(line).Some? && |SplitWs(Trim(LabelValue(line).value))| <= 6
    ensures r.Some? ==> SingleSpaced(r.value)
    ensures LabelValue(line).Some? && |SplitWs(Trim(LabelValue(line).value))| <= 6 ==> r.Some?
    ensures r.Some? ==> r.value == CleanName(Trim(LabelValue(line).value))
  {
    match LabelValue(line)
    case None => None
    case Some(v) =>
      var value := Trim(v);
      if |SplitWs(value)| <= 6 then Some(CleanName(value)) else None
  }

  /** Step 1 skips headings. */
  function LabelLine(line: string): (r: Option<string>)
    ensures IsHeading(line) ==> r.None?
    ensures !IsHeading(line) ==> r == LabelName(line)
  {
    if IsHeading(line) then None else LabelName(line)
  }

  /** Step 1: the first of the first fifteen lines that is not a heading and is a short label line. */
  function LabelStep(lines: seq<string>): (r: Option<string>)
    ensures r.Some? ==> exists i :: (0 <= i < |lines| && i < 15 && LabelLine(lines[i]) == r
      && forall j :: 0 <= j < i ==> LabelLine(lines[j]).None?)
    ensures r.None? ==> forall i :: 0 <= i < |lines| && i < 15 ==> LabelLine(lines[i]).None?
    ensures r.Some? ==> SingleSpaced(r.value)
  {
    var r := FirstSomeWithin(lines, 15, LabelLine);
    assert r.Some? ==> SingleSpaced(r.value) by {
      if r.Some? {
        var i :| 0 <= i < |lines| && i < 15 && LabelLine(lines[i]) == r;
      }
    }
    r
  }

  predicate HasLetter(p: string) {
    exists i :: 0 <= i < |p| && IsLetter(p[i])
  }

  /** `/^[A-Z][a-zA-Z'\-]+$/`. */
  predicate TitleToken(p: string) {
    && |p| >= 2 && IsUpper(p[0])
    && forall i :: 1 <= i < |p| ==> IsLetter(p[i]) || p[i] == '\'' || p[i] == '-'
  }

  /** `/^[A-Z][A-Z'\-]+$/`. */
  predicate CapsToken(p: string) {
    && |p| >= 2 && IsUpper(p[0])
    && forall i :: 1 <= i < |p| ==> IsUpper(p[i]) || p[i] == '\'' || p[i] == '-'
  }

  /** The whitespace-separated pieces of `line` that contain a letter. */
  function AlphaParts(line: string): (parts: seq<string>)
    ensures AllWords(parts)
    ensures forall k :: 0 <= k < |parts| ==> HasLetter(parts[k])
  {
    var pieces := SplitWs(line);
    var parts := Filter(pieces, HasLetter);
    forall k | 0 <= k < |parts|
      ensures IsWord(parts[k]) && HasLetter(parts[k])
    {
      assert parts[k] in parts;
      var j :| 0 <= j < |pieces| && pieces[j] == parts[k];
    }
    parts
  }

  /**
   * Step 2 on one line: not a heading, not the line holding the matched email
   * or phone, and two to four lettered pieces that are all Title-case or all
   * upper-case. The name is those pieces, title-cased.
   */
  function HeaderName(line: string, email: Option<string>, phone: Option<string>): (r: Option<string>)
    ensures r.Some? ==> !IsHeading(line)
    ensures r.Some? && email.Some? ==> !Contains(line, email.value)
    ensures r.Some? && phone.Some? ==> !Contains(line, phone.value)
    ensures r.Some? ==> (2 <= |AlphaParts(line)| <= 4
      && ((forall k :: 0 <= k < |AlphaParts(line)| ==> TitleToken(AlphaParts(line)[k]))
          || (forall k :: 0 <= k < |AlphaParts(line)| ==> CapsToken(AlphaParts(line)[k]))))
    ensures !IsHeading(line)
      && (email.None? || !Contains(line, email.value))
      && (phone.None? || !Contains(line, phone.value))
      && 2 <= |AlphaParts(line)| <= 4
      && ((forall k :: 0 <= k < |AlphaParts(line)| ==> TitleToken(AlphaParts(line)[k]))
          || (forall k :: 0 <= k < |AlphaParts(line)| ==> CapsToken(AlphaParts(line)[k])))
      ==> r.Some?
    ensures r.Some? ==> SplitWs(r.value) == Map(AlphaParts(line), TitleWord) && SingleSpaced(r.value)
  {
    if IsHeading(line) then None
    else if email.Some? && Contains(line, email.value) then None
    else if phone.Some? && Contains(line, phone.value) then None
    else
      var alpha := AlphaParts(line);
      if 2 <= |alpha| <= 4
        && ((forall k :: 0 <= k < |alpha| ==> TitleToken(alpha[k]))
            || (forall k :: 0 <= k < |alpha| ==> CapsToken(alpha[k])))
      then
        TitleCaseOfWords(alpha);
        Some(TitleCase(Join(alpha, " ")))
      else None
  }

  /** Step 2: the first of the first ten lines that reads like a name header. */
  function HeaderStep(lines: seq<string>, email: Option<string>, phone: Option<string>): (r: Option<string>)
    ensures r.Some? ==> exists i :: (0 <= i < |lines| && i < 10 && HeaderName(lines[i], email, phone) == r
      && forall j :: 0 <= j < i ==> HeaderName(lines[j], email, phone).None?)
    ensures r.None? ==> forall i :: 0 <= i < |lines| && i < 10 ==> HeaderName(lines[i], email, phone).None?
    ensures r.Some? ==> SingleSpaced(r.value)
  {
    var r := FirstSomeWithin(lines, 10, (l: string) => HeaderName(l, email, phone));
    assert r.Some? ==> SingleSpaced(r.value) by {
      if r.Some? {
        var i :| 0 <= i < |lines| && i < 10 && HeaderName(lines[i], email, phone) == r;
      }
    }
    r
  }

  /** The pieces of an email's local part that are at least two characters long. */
  function EmailParts(email: string): (parts: seq<string>)
    ensures AllWords(parts)
    ensures forall k :: 0 <= k < |parts| ==> |parts[k]| >= 2
  {
    var local := SplitOn(email, '@')[0];
    var cleaned := Trim(ReplaceRuns(ReplaceRuns(local, UnderscoresDotsDashes), Digits));
    var pieces := SplitWs(cleaned);
    FilterKeeps(pieces, (p: string) => |p| >= 2, NoSpace);
    Filter(pieces, (p: string) => |p| >= 2)
  }

  /** Step 3: 'john.doe@…' names John Doe, when the local part splits into two to four pieces. */
  function EmailName(email: string): (r: Option<string>)
    ensures r.Some? <==> 2 <= |EmailParts(email)| <= 4
    ensures r.Some? ==> SplitWs(r.value) == Map(EmailParts(email), TitleWord) && SingleSpaced(r.value)
  {
    var parts := EmailParts(email);
    if 2 <= |parts| <= 4 then
      TitleCaseOfWords(parts);
      Some(TitleCase(Join(parts, " ")))
    else None
  }

  /** Step 4: the first line, cleaned, when it has at most five words (possibly ''). */
  function FallbackName(lines: seq<string>): (r: Option<string>)
    ensures r.Some? ==> lines != [] && r.value == CleanName(lines[0])
    ensures r.Some? <==> lines != [] && |SplitWs(Trim(KeepChars(lines[0], NameChar)))| <= 5
    ensures r.Some? ==> SingleSpaced(r.value)
  {
    if lines == [] then None
    else
      var first := Trim(KeepChars(lines[0], NameChar));
      if |SplitWs(first)| <= 5 then Some(TitleCase(first)) else None
  }

  /** `if (!name) { … name = next }`: a later step only replaces a falsy name, and only when it finds one. */
  function Settle(current: Option<string>, next: Option<string>): (r: Option<string>)
    ensures Truthy(current) ==> r == current
    ensures !Truthy(current) && next.Some? ==> r == next
    ensures next.None? ==> r == current
  {
    if !Truthy(current) && next.Some? then next else current
  }

  /** Step 3: a name from the email address, when one was found. */
  function EmailStep(email: Option<string>): (r: Option<string>)
    ensures email.None? ==> r.None?
    ensures r.Some? ==> SingleSpaced(r.value)
  {
    if email.Some? then EmailName(email.value) else None
  }

  /** The four name steps, in the order they are tried. */
  function NameSteps(lines: seq<string>, email: Option<string>, phone: Option<string>): (steps: seq<Option<string>>)
    ensures |steps| == 4
    ensures TidyName(steps[0]) && TidyName(steps[1]) && TidyName(steps[2]) && TidyName(steps[3])
  {
    var fromLabel := LabelStep(lines);
    var fromHeader := HeaderStep(lines, email, phone);
    var fromEmail := EmailStep(email);
    var fallback := FallbackName(lines);
    assert TidyName(fromLabel);
    assert TidyName(fromHeader);
    assert TidyName(fromEmail);
    assert TidyName(fallback);
    var steps := [fromLabel, fromHeader, fromEmail, fallback];
    steps
  }

  /** A step's outcome: no name, or a single-spaced one. */
  predicate TidyName(step: Option<string>) {
    step.Some? ==> SingleSpaced(step.value)
  }

  /**
   * The name the four steps settle on: the first non-empty one; failing
   * that, '' if some step produced '', and nothing otherwise.
   */
  function ChooseName(steps: seq<Option<string>>): (name: Option<string>)
    requires |steps| == 4
    ensures forall i :: 0 <= i < 4 && Truthy(steps[i]) && (forall j :: 0 <= j < i ==> !Truthy(steps[j])) ==>
      name == steps[i]
    ensures (forall i :: 0 <= i < 4 ==> !Truthy(steps[i])) ==>
      name == if exists i :: 0 <= i < 4 && steps[i].Some? then Some("") else None
    ensures name == steps[0] || name == steps[1] || name == steps[2] || name == steps[3]
  {
    Settle(Settle(Settle(steps[0], steps[1]), steps[2]), steps[3])
  }

  datatype ExtractedProfile = ExtractedProfile(name: Option<string>, email: Option<string>, phone: Option<string>)

  /** `phone.replace(/\s+/g, ' ').trim()`. */
  function TidyPhone(phone: string): (r: string)
    ensures SingleSpaced(r)
  {
    CollapseThenTrim(phone);
    Trim(ReplaceRuns(phone, Spaces))
  }

  /** A phone number that is already single-spaced comes back verbatim. */
  lemma TidyPhoneKeepsTidy(phone: string)
    requires SingleSpaced(phone)
    ensures TidyPhone(phone) == phone
  {
    ReplaceSpacesOfSingleSpaced(phone);
    TrimOfTrimmed(phone);
  }

  /**
   * `extractProfileFromText`. The email and phone searches are inputs: the
   * first match of each pattern in `text`, if any. The name is the first
   * step's result that is a non-empty string; when no step finds one, it is
   * '' if some step produced '' and absent otherwise.
   */
  function ExtractProfile(text: string, emailMatch: Option<string>, phoneMatch: Option<string>): (r: ExtractedProfile)
    ensures r.email == emailMatch
    ensures r.phone.Some? <==> phoneMatch.Some?
    ensures r.phone.Some? ==> r.phone.value == TidyPhone(phoneMatch.value) && SingleSpaced(r.phone.value)
    ensures r.name == ChooseName(NameSteps(Lines(text), emailMatch, phoneMatch))
    ensures var ls := Lines(text);
      var fromLabel := LabelStep(ls);
      var fromHeader := HeaderStep(ls, emailMatch, phoneMatch);
      var fromEmail := EmailStep(emailMatch);
      var fallback := FallbackName(ls);
      && (Truthy(fromLabel) ==> r.name == fromLabel)
      && (!Truthy(fromLabel) && Truthy(fromHeader) ==> r.name == fromHeader)
      && (!Truthy(fromLabel) && !Truthy(fromHeader) && Truthy(fromEmail) ==> r.name == fromEmail)
      && (!Truthy(fromLabel) && !Truthy(fromHeader) && !Truthy(fromEmail) && Truthy(fallback) ==> r.name == fallback)
    ensures r.name.Some? ==> SingleSpaced(r.name.value)
  {
    var lines := Lines(text);
    var steps := NameSteps(lines, emailMatch, phoneMatch);
    var name := ChooseName(steps);
    assert TidyName(name) by {
      if name == steps[0] {} else if name == steps[1] {} else if name == steps[2] {} else {}
    }
    ExtractedProfile(name, emailMatch, if phoneMatch.Some? then Some(TidyPhone(phoneMatch.value)) else None)
  }
}

=== FILE: scoring.dfy ===
/**
 * The heuristic answer scorer of the engine: keyword coverage, structural
 * cues, length bands, difficulty weight and an overtime penalty combine into
 * a score from 0 to 100. All arithmetic is on exact reals.
 */
module Scoring {
  import opened Optional
  import opened Text
  import opened JsMath
  import opened Store
  import opened Questions

  /** Everything `evaluateAnswer` reports. `keywords` is `None` for a keyword-pool row that does not exist. */
  datatype Evaluation = Evaluation(
    score: int,
    contentScore: int,
    structureScore: int,
    lengthScore: int,
    timePenalty: real,
    diffWeight: real,
    keywordHits: nat,
    keywords: Option<seq<string>>)

  function DiffWeight(d: Difficulty): (w: real)
    ensures 1.0 <= w <= 1.4
  {
    match d
    case Easy => 1.0
    case Medium => 1.2
    case Hard => 1.4
  }

  /** `!answer || !answer.trim()`. */
  predicate IsBlank(answer: Option<string>) {
    answer.None? || Trim(answer.value) == ""
  }

  // ---------------------------------------------------------------------------
  // Content: keyword coverage
  // ---------------------------------------------------------------------------

  predicate HasUpper(w: string) {
    exists i :: 0 <= i < |w| && IsUpper(w[i])
  }

  /** How many keywords occur in `lower` (the lowercased answer). */
  function KeywordHits(lower: string, kws: seq<string>): (n: nat)
    ensures n <= |kws|
  {
    if kws == [] then 0
    else (if Contains(lower, kws[0]) then 1 else 0) + KeywordHits(lower, kws[1..])
  }

  /** A keyword with an upper-case letter can never occur in a lowercased answer. */
  lemma UppercaseKeywordNeverHits(a: string, kw: string)
    requires HasUpper(kw)
    ensures !Contains(ToLower(a), kw)
  {
  }

  /**
   * The hits on a lowercased answer count only keywords without an upper-case
   * letter: 'useState', 'sameSite', 'useMemo' and the like never score.
   */
  lemma {:induction false} HitsIgnoreUppercaseKeywords(a: string, kws: seq<string>)
    ensures KeywordHits(ToLower(a), kws) <= |Filter(kws, (w: string) => !HasUpper(w))|
  {
    if kws != [] {
      HitsIgnoreUppercaseKeywords(a, kws[1..]);
      if HasUpper(kws[0]) {
        UppercaseKeywordNeverHits(a, kws[0]);
      }
    }
  }

  /** `Math.min(10, Math.round(hits / Math.max(3, count) * 12))`. */
  function ContentScore(hits: nat, count: nat): (c: int)
    ensures 0 <= c <= 10
    ensures hits == 0 ==> c == 0
  {
    Min(10, Round(hits as real / Max(3, count) as real * 12.0))
  }

  /** Coverage only ever helps: more hits never lower the content score. */
  lemma ContentScoreMonotone(h1: nat, h2: nat, count: nat)
    requires h1 <= h2
    ensures ContentScore(h1, count) <= ContentScore(h2, count)
  {
    var d := Max(3, count) as real;
    assert h1 as real / d <= h2 as real / d;
  }

  // ---------------------------------------------------------------------------
  // Structure: list, code and connector cues
  // ---------------------------------------------------------------------------

  predicate IsListMarker(c: char) { c == '-' || c == '*' || IsDigit(c) }

  /** After optional whitespace, the text continues with a list marker. */
  predicate MarkerFollows(t: string) {
    var u := TrimStart(t);
    u != [] && IsListMarker(u[0])
  }

  /** `/\n\s*[-*\d]/.test(a) || /\d+\)/.test(a)`. */
  predicate HasList(a: string) {
    || (exists i :: 0 <= i < |a| && a[i] == '\n' && MarkerFollows(a[i + 1..]))
    || (exists i :: 0 <= i < |a| - 1 && IsDigit(a[i]) && a[i + 1] == ')')
  }

  /** The next backtick exists and is not the very next character. */
  predicate ClosingBacktick(t: string) {
    var k := IndexOf(t, '`');
    0 < k < |t|
  }

  /** `w` occurs at `i` with a `\b` word boundary on both sides. */
  predicate WholeWordAt(a: string, w: string, i: int) {
    && OccursAt(a, w, i)
    && (i == 0 || !IsWordChar(a[i - 1]))
    && (i + |w| == |a| || !IsWordChar(a[i + |w|]))
  }

  predicate ContainsWholeWord(a: string, w: string) {
    exists i :: 0 <= i <= |a| - |w| && WholeWordAt(a, w, i)
  }

  /** `` /`[^`]+`/.test(a) || /\bconst\b|\bfunction\b|=>/.test(a) ``. */
  predicate HasCode(a: string) {
    || (exists i :: 0 <= i < |a| && a[i] == '`' && ClosingBacktick(a[i + 1..]))
    || ContainsWholeWord(a, "const")
    || ContainsWholeWord(a, "function")
    || Contains(a, "=>")
  }

  const Connectors: seq<string> :=
    ["because", "therefore", "however", "trade-off", "tradeoff", "in addition", "for example"]

  /** `/(because|therefore|however|trade-?off|in addition|for example)/i.test(a)`. */
  predicate HasConnector(a: string) {
    exists k :: 0 <= k < |Connectors| && Contains(ToLower(a), Connectors[k])
  }

  /** The `i` flag: the connector test reads the answer the same in any letter case. */
  lemma ConnectorIgnoresCase(a: string)
    ensures HasConnector(ToLower(a)) == HasConnector(a)
  {
    assert ToLower(ToLower(a)) == ToLower(a);
  }

  /**
   * 3 for a list cue, 3 for a code cue, 2 for a connector, capped at 10.
   * The cap never binds, and the score can be read back: the connector shows
   * in the remainder modulo 3, the number of list and code cues in the quotient.
   */
  function StructureScore(a: string): (s: int)
    ensures s in {0, 2, 3, 5, 6, 8}
    ensures (s % 3 == 2) == HasConnector(a)
    ensures s / 3 == (if HasList(a) then 1 else 0) + (if HasCode(a) then 1 else 0)
  {
    var sum := (if HasList(a) then 3 else 0) + (if HasCode(a) then 3 else 0) + (if HasConnector(a) then 2 else 0);
    Min(10, sum)
  }

  // ---------------------------------------------------------------------------
  // Length, weight and time
  // ---------------------------------------------------------------------------

  /** Word-count bands: 1 below 10 words, 4 below 30, 7 below 80, 9 below 150, else 8. */
  function LengthScore(words: nat): (l: int)
    ensures l in {1, 4, 7, 8, 9}
  {
    if words < 10 then 1
    else if words < 30 then 4
    else if words < 80 then 7
    else if words < 150 then 9
    else 8
  }

  /** Longer answers score higher up to 150 words; past that, rambling costs exactly one point. */
  lemma LengthScoreShape(m: nat, n: nat)
    ensures m <= n < 150 ==> LengthScore(m) <= LengthScore(n)
    ensures n >= 150 ==> LengthScore(n) == LengthScore(149) - 1
  {
  }

  /**
   * The values on either side of each band edge. With the monotone shape
   * above they pin every band: 1 below 10 words, 4 below 30, 7 below 80,
   * 9 below 150 and 8 from there on.
   */
  lemma LengthScoreBands()
    ensures LengthScore(0) == 1 && LengthScore(9) == 1
    ensures LengthScore(10) == 4 && LengthScore(29) == 4
    ensures LengthScore(30) == 7 && LengthScore(79) == 7
    ensures LengthScore(80) == 9 && LengthScore(149) == 9
    ensures LengthScore(150) == 8
  {
  }

  /** `min(3, over / (limit * 0.5))` for time over the difficulty's limit, 0 otherwise. */
  function TimePenalty(d: Difficulty, timeTakenSec: real): (p: real)
    ensures timeTakenSec <= QuestionTime(d) as real ==> p == 0.0
    ensures timeTakenSec > QuestionTime(d) as real ==> 0.0 < p <= 3.0
  {
    var limit := QuestionTime(d) as real;
    var over := MaxReal(0.0, timeTakenSec - limit);
    if over > 0.0 then MinReal(3.0, over / (limit * 0.5)) else 0.0
  }

  /** Taking longer never lowers the penalty. */
  lemma TimePenaltyMonotone(d: Difficulty, t1: real, t2: real)
    requires t1 <= t2
    ensures TimePenalty(d, t1) <= TimePenalty(d, t2)
  {
    var limit := QuestionTime(d) as real;
    if t1 > limit {
      assert (t1 - limit) / (limit * 0.5) <= (t2 - limit) / (limit * 0.5);
    }
  }

  /** `Number(p.toFixed(2))`: the penalty as reported, to two decimals. */
  function ReportedPenalty(p: real): (r: real)
    requires 0.0 <= p <= 3.0
    ensures 0.0 <= r <= 3.0
    ensures p == 0.0 ==> r == 0.0
  {
    Round(p * 100.0) as real / 100.0
  }

  // ---------------------------------------------------------------------------
  // Combination
  // ---------------------------------------------------------------------------

  function RawScore(content: int, structure: int, length: int, weight: real): real
  {
    (content as real * 0.5 + structure as real * 0.3 + length as real * 0.2) * weight
  }

  /**
   * Subtract the penalty, clamp to 0..10, scale to 0..90, add the coverage
   * bonus `min(10, hits * 2)`, clamp to 0..100 and round. The bonus is always
   * kept in full, and the outer clamp never binds.
   */
  function CombineScore(raw: real, penalty: real, hits: nat): (score: int)
    ensures 0 <= score <= 100
    ensures Min(10, hits * 2) <= score <= 90 + Min(10, hits * 2)
  {
    var clamped := Clamped(raw, penalty);
    var base := Round(clamped * 9.0);
    RoundWithin(clamped * 9.0, 0, 90);
    var total := base + Min(10, hits * 2);
    RoundOfInt(total);
    Max(0, Min(100, Round(total as real)))
  }

  /** The adjusted raw score held to 0..10, before it is scaled to 0..90. */
  function Clamped(raw: real, penalty: real): (c: real)
    ensures 0.0 <= c <= 10.0
  {
    MaxReal(0.0, MinReal(10.0, if penalty > 0.0 then raw - penalty else raw))
  }

  /**
   * The score is the bonus plus the nearest integer to nine times the raw
   * score less the penalty, held to 0..10.
   */
  lemma CombineScoreNear(raw: real, penalty: real, hits: nat)
    requires penalty >= 0.0
    ensures var c := if raw - penalty < 0.0 then 0.0 else if raw - penalty > 10.0 then 10.0 else raw - penalty;
      c * 9.0 - 0.5 < (CombineScore(raw, penalty, hits) - Min(10, hits * 2)) as real <= c * 9.0 + 0.5
  {
    var c := Clamped(raw, penalty);
    RoundWithin(c * 9.0, 0, 90);
    RoundOfInt(Round(c * 9.0) + Min(10, hits * 2));
  }

  /** A higher raw score or a smaller penalty never lowers the score. */
  lemma CombineScoreMonotone(r1: real, r2: real, p1: real, p2: real, hits: nat)
    requires r1 <= r2 && 0.0 <= p2 <= p1
    ensures CombineScore(r1, p1, hits) <= CombineScore(r2, p2, hits)
  {
    var c1 := Clamped(r1, p1);
    var c2 := Clamped(r2, p2);
    assert c1 <= c2;
    RoundMonotone(c1 * 9.0, c2 * 9.0);
    RoundWithin(c1 * 9.0, 0, 90);
    RoundWithin(c2 * 9.0, 0, 90);
    RoundOfInt(Round(c1 * 9.0) + Min(10, hits * 2));
    RoundOfInt(Round(c2 * 9.0) + Min(10, hits * 2));
  }

  /** A raw score of 10 or more earns the full 90 points; one of 0 or less earns only the bonus. */
  lemma CombineScoreSaturates(raw: real, hits: nat)
    ensures raw >= 10.0 ==> CombineScore(raw, 0.0, hits) == 90 + Min(10, hits * 2)
    ensures raw <= 0.0 ==> CombineScore(raw, 0.0, hits) == Min(10, hits * 2)
  {
    RoundOfInt(90);
    RoundOfInt(0);
    RoundOfInt(90 + Min(10, hits * 2));
    RoundOfInt(Min(10, hits * 2));
  }

  /** The penalty is taken off the raw score before anything else. */
  lemma PenaltyComesOffRaw(raw: real, penalty: real, hits: nat)
    requires penalty >= 0.0
    ensures CombineScore(raw, penalty, hits) == CombineScore(raw - penalty, 0.0, hits)
  {
  }

  /**
   * `evaluateAnswer`. `None` stands for the TypeError the app raises when
   * a non-blank answer meets a question whose keyword row is `undefined`.
   */
  function Evaluate(q: QAItem, answer: Option<string>, timeTakenSec: real): (r: Option<Evaluation>)
    ensures IsBlank(answer) ==>
      r == Some(Evaluation(0, 0, 0, 0, 0.0, DiffWeight(q.difficulty), 0, KeywordsFor(q)))
    ensures r.None? <==> !IsBlank(answer) && KeywordsFor(q).None?
    ensures r.Some? ==> r.value.diffWeight == DiffWeight(q.difficulty) && r.value.keywords == KeywordsFor(q)
    ensures r.Some? ==> 0 <= r.value.score <= 100 && 0 <= r.value.contentScore <= 10
    ensures r.Some? ==> r.value.structureScore in {0, 2, 3, 5, 6, 8}
    ensures r.Some? ==> r.value.lengthScore in {0, 1, 4, 7, 8, 9}
    ensures r.Some? && r.value.keywords.Some? ==> r.value.keywordHits <= |r.value.keywords.value|
    ensures r.Some? ==> 0.0 <= r.value.timePenalty <= 3.0
    ensures r.Some? && timeTakenSec <= QuestionTime(q.difficulty) as real ==> r.value.timePenalty == 0.0
    ensures r.Some? ==> r.value.score >= Min(10, 2 * r.value.keywordHits)
  {
    if IsBlank(answer) then
      Some(Evaluation(0, 0, 0, 0, 0.0, DiffWeight(q.difficulty), 0, KeywordsFor(q)))
    else match KeywordsFor(q)
      case None => None
      case Some(kws) =>
        var a := Trim(answer.value);
        var words := |SplitWs(a)|;
        var hits := KeywordHits(ToLower(a), kws);
        var content := ContentScore(hits, |kws|);
        var structure := StructureScore(a);
        var length := LengthScore(words);
        var weight := DiffWeight(q.difficulty);
        var penalty := TimePenalty(q.difficulty, timeTakenSec);
        var score := CombineScore(RawScore(content, structure, length, weight), penalty, hits);
        Some(Evaluation(score, content, structure, length, ReportedPenalty(penalty), weight, hits, Some(kws)))
  }

  /**
   * On a non-blank answer every part is read from the trimmed answer: the
   * length band from its word count, the hits from its lower-cased text, the
   * structure cues from the text itself, the content score from the hits, and
   * the penalty from the time taken.
   */
  lemma EvaluateReadsAnswer(q: QAItem, answer: Option<string>, timeTakenSec: real)
    requires !IsBlank(answer) && KeywordsFor(q).Some?
    ensures var r := Evaluate(q, answer, timeTakenSec);
      var a := Trim(answer.value);
      && r.Some?
      && r.value.lengthScore == LengthScore(|SplitWs(a)|)
      && r.value.keywordHits == KeywordHits(ToLower(a), KeywordsFor(q).value)
      && r.value.structureScore == StructureScore(a)
      && r.value.contentScore == ContentScore(r.value.keywordHits, |KeywordsFor(q).value|)
      && r.value.timePenalty == ReportedPenalty(TimePenalty(q.difficulty, timeTakenSec))
      && r.value.score == CombineScore(
           RawScore(r.value.contentScore, r.value.structureScore, r.value.lengthScore, r.value.diffWeight),
           TimePenalty(q.difficulty, timeTakenSec), r.value.keywordHits)
  {
  }

  /** `scoreAnswer`: the score alone. */
  function ScoreAnswer(q: QAItem, answer: Option<string>, timeTakenSec: real): (r: Option<int>)
    ensures IsBlank(answer) ==> r == Some(0)
    ensures r.Some? ==> 0 <= r.value <= 100
    ensures r.None? <==> !IsBlank(answer) && KeywordsFor(q).None?
  {
    match Evaluate(q, answer, timeTakenSec)
    case None => None
    case Some(e) => Some(e.score)
  }

  /** A blank answer scores 0 on every difficulty, however long it took. */
  lemma BlankAnswerScoresZero(q: QAItem, answer: Option<string>, t1: real, t2: real)
    requires IsBlank(answer)
    ensures Evaluate(q, answer, t1) == Evaluate(q, answer, t2)
    ensures Evaluate(q, answer, t1).value.score == 0
  {
  }

  /** A question from the pools is always scorable. */
  lemma PoolQuestionsScorable(d: Difficulty, idx: nat, answer: Option<string>, t: real)
    requires idx < 5
    ensures Evaluate(MakeQuestion(d, idx), answer, t).Some?
  {
    KeywordsForGenerated(d, idx);
  }

  /** Three of six keywords give content score 6; an easy answer at 20 s has no penalty, at 30 s a penalty of 1. */
  lemma ScoringExamples()
    ensures ContentScore(3, 6) == 6
    ensures TimePenalty(Easy, 20.0) == 0.0
    ensures TimePenalty(Easy, 30.0) == 1.0
  {
    assert 3.0 / 6.0 * 12.0 == 6.0;
    RoundOfInt(6);
  }
}

=== FILE: store.dfy ===
/**
 * The application's single state tree and its reducers: candidate records
 * keyed by id plus their insertion order, UI preferences, and the one
 * interview session. Every reducer is a pure function from state to state.
 */
module Store {
  import opened Optional

  // ---------------------------------------------------------------------------
  // Entities
  // ---------------------------------------------------------------------------

  datatype Difficulty = Easy | Medium | Hard

  /** One interview question; answer, time taken and score are filled in on submit. */
  datatype QAItem = QAItem(
    id: string,
    difficulty: Difficulty,
    question: string,
    answer: Option<string>,
    timeTakenSec: Option<int>,
    score: Option<int>)

  datatype ResumeMeta = ResumeMeta(fileName: string, fileType: string)

  datatype CandidateProfile = CandidateProfile(
    name: string,
    email: string,
    phone: string,
    resumeMeta: Option<ResumeMeta>)

  datatype Role = System | Assistant | User

  /** One transcript line; `ts` is an epoch time in milliseconds. */
  datatype ChatEntry = ChatEntry(role: Role, content: string, ts: int)

  datatype CandidateRecord = CandidateRecord(
    id: string,
    profile: CandidateProfile,
    qas: seq<QAItem>,
    startedAt: int,
    completedAt: Option<int>,
    finalScore: Option<int>,
    summary: Option<string>,
    chatHistory: seq<ChatEntry>)

  datatype Stage = Idle | CollectingProfile | InProgress | Completed

  datatype SessionState = SessionState(
    currentCandidateId: Option<string>,
    interviewStage: Stage,
    currentQuestionIndex: int,
    currentQuestionExpiresAt: Option<int>,
    paused: bool)

  datatype Tab = IntervieweeTab | InterviewerTab

  datatype Ui = Ui(activeTab: Tab, darkMode: bool)

  datatype AppState = AppState(
    candidates: map<string, CandidateRecord>,
    candidateOrder: seq<string>,
    ui: Ui,
    session: SessionState)

  const InitialSession: SessionState := SessionState(None, Idle, 0, None, false)

  const InitialState: AppState := AppState(map[], [], Ui(IntervieweeTab, false), InitialSession)

  // ---------------------------------------------------------------------------
  // Patches: `Partial<T>` objects spread over an existing value
  // ---------------------------------------------------------------------------

  /**
   * A partial candidate record. A `None` field is absent from the patch; for
   * the record's optional fields, `Some(None)` is a field explicitly set to
   * `undefined`, which clears it.
   */
  datatype RecordPatch = RecordPatch(
    id: Option<string>,
    profile: Option<CandidateProfile>,
    qas: Option<seq<QAItem>>,
    startedAt: Option<int>,
    completedAt: Option<Option<int>>,
    finalScore: Option<Option<int>>,
    summary: Option<Option<string>>,
    chatHistory: Option<seq<ChatEntry>>)

  const EmptyRecordPatch: RecordPatch := RecordPatch(None, None, None, None, None, None, None, None)

  /** A partial session, with the same reading of `None` and `Some(None)`. */
  datatype SessionPatch = SessionPatch(
    currentCandidateId: Option<Option<string>>,
    interviewStage: Option<Stage>,
    currentQuestionIndex: Option<int>,
    currentQuestionExpiresAt: Option<Option<int>>,
    paused: Option<bool>)

  const EmptySessionPatch: SessionPatch := SessionPatch(None, None, None, None, None)

  /** `{ ...c, ...p }`: every field the patch carries wins, every other field is kept. */
  function MergeRecord(c: CandidateRecord, p: RecordPatch): (r: CandidateRecord)
    ensures r.id == p.id.GetOr(c.id)
    ensures r.profile == p.profile.GetOr(c.profile)
    ensures r.qas == p.qas.GetOr(c.qas)
    ensures r.startedAt == p.startedAt.GetOr(c.startedAt)
    ensures r.completedAt == p.completedAt.GetOr(c.completedAt)
    ensures r.finalScore == p.finalScore.GetOr(c.finalScore)
    ensures r.summary == p.summary.GetOr(c.summary)
    ensures r.chatHistory == p.chatHistory.GetOr(c.chatHistory)
  {
    CandidateRecord(
      p.id.GetOr(c.id), p.profile.GetOr(c.profile), p.qas.GetOr(c.qas),
      p.startedAt.GetOr(c.startedAt), p.completedAt.GetOr(c.completedAt),
      p.finalScore.GetOr(c.finalScore), p.summary.GetOr(c.summary),
      p.chatHistory.GetOr(c.chatHistory))
  }

  /** `{ ...s, ...p }` on the session. */
  function MergeSession(s: SessionState, p: SessionPatch): (r: SessionState)
    ensures r.currentCandidateId == p.currentCandidateId.GetOr(s.currentCandidateId)
    ensures r.interviewStage == p.interviewStage.GetOr(s.interviewStage)
    ensures r.currentQuestionIndex == p.currentQuestionIndex.GetOr(s.currentQuestionIndex)
    ensures r.currentQuestionExpiresAt == p.currentQuestionExpiresAt.GetOr(s.currentQuestionExpiresAt)
    ensures r.paused == p.paused.GetOr(s.paused)
  {
    SessionState(
      p.currentCandidateId.GetOr(s.currentCandidateId),
      p.interviewStage.GetOr(s.interviewStage),
      p.currentQuestionIndex.GetOr(s.currentQuestionIndex),
      p.currentQuestionExpiresAt.GetOr(s.currentQuestionExpiresAt),
      p.paused.GetOr(s.paused))
  }

  /** The empty patch changes nothing, and applying a patch twice is applying it once. */
  lemma MergeLaws(c: CandidateRecord, p: RecordPatch, s: SessionState, q: SessionPatch)
    ensures MergeRecord(c, EmptyRecordPatch) == c
    ensures MergeRecord(MergeRecord(c, p), p) == MergeRecord(c, p)
    ensures MergeSession(s, EmptySessionPatch) == s
    ensures MergeSession(MergeSession(s, q), q) == MergeSession(s, q)
  {
  }

  // ---------------------------------------------------------------------------
  // The collection invariant
  // ---------------------------------------------------------------------------

  predicate NoDuplicates<T(==)>(s: seq<T>) {
    forall i, j :: 0 <= i < j < |s| ==> s[i] != s[j]
  }

  /**
   * The order list has no duplicates and lists exactly the keys of the
   * record map.
   */
  predicate Valid(st: AppState) {
    && NoDuplicates(st.candidateOrder)
    && (forall id :: id in st.candidateOrder ==> id in st.candidates)
    && (forall id :: id in st.candidates ==> id in st.candidateOrder)
  }

  lemma InitialStateValid()
    ensures Valid(InitialState)
  {
  }

  // ---------------------------------------------------------------------------
  // Reducers
  // ---------------------------------------------------------------------------

  function SetActiveTab(st: AppState, tab: Tab): (r: AppState)
    ensures r.ui.activeTab == tab && r.ui.darkMode == st.ui.darkMode
    ensures r.(ui := st.ui) == st
  {
    st.(ui := st.ui.(activeTab := tab))
  }

  function SetDarkMode(st: AppState, on: bool): (r: AppState)
    ensures r.ui.darkMode == on && r.ui.activeTab == st.ui.activeTab
    ensures r.(ui := st.ui) == st
  {
    st.(ui := st.ui.(darkMode := on))
  }

  /**
   * Stores `c` under its id, replacing any earlier record, and appends the
   * id to the order list only when it is not there yet.
   */
  function UpsertCandidate(st: AppState, c: CandidateRecord): (r: AppState)
    ensures c.id in r.candidates && r.candidates[c.id] == c
    ensures forall k :: k in st.candidates && k != c.id ==> k in r.candidates && r.candidates[k] == st.candidates[k]
    ensures r.candidates.Keys == st.candidates.Keys + {c.id}
    ensures st.candidateOrder <= r.candidateOrder
    ensures c.id in r.candidateOrder
    ensures |r.candidateOrder| == |st.candidateOrder| + (if c.id in st.candidateOrder then 0 else 1)
    ensures NoDuplicates(st.candidateOrder) ==> NoDuplicates(r.candidateOrder)
    ensures r.ui == st.ui && r.session == st.session
  {
    var order := if c.id in st.candidateOrder then st.candidateOrder else st.candidateOrder + [c.id];
    st.(candidates := st.candidates[c.id := c], candidateOrder := order)
  }

  /**
   * Shallow-merges `patch` into the record stored under `id`; an unknown id
   * leaves the state untouched. The order list never changes.
   */
  function UpdateCandidate(st: AppState, id: string, patch: RecordPatch): (r: AppState)
    ensures id !in st.candidates ==> r == st
    ensures id in st.candidates ==>
      r.candidates == st.candidates[id := MergeRecord(st.candidates[id], patch)]
    ensures r.candidates.Keys == st.candidates.Keys
    ensures r.(candidates := st.candidates) == st
  {
    if id in st.candidates then
      st.(candidates := st.candidates[id := MergeRecord(st.candidates[id], patch)])
    else st
  }

  /** Shallow-merges `patch` into the session; nothing outside the session changes. */
  function SetSession(st: AppState, patch: SessionPatch): (r: AppState)
    ensures r.session == MergeSession(st.session, patch)
    ensures r.(session := st.session) == st
  {
    st.(session := MergeSession(st.session, patch))
  }

  /** Puts the session back to its initial value; nothing outside the session changes. */
  function ResetSession(st: AppState): (r: AppState)
    ensures r.session.interviewStage == Idle && r.session.currentQuestionIndex == 0
    ensures !r.session.paused && r.session.currentCandidateId.None?
    ensures r.session.currentQuestionExpiresAt.None?
    ensures r.(session := st.session) == st
  {
    st.(session := InitialSession)
  }

  /** The selector every screen uses: `session.currentCandidateId ? s.candidates[id] : undefined`. */
  function CurrentCandidate(st: AppState): (c: Option<CandidateRecord>)
    ensures c.Some? <==> Truthy(st.session.currentCandidateId) && st.session.currentCandidateId.value in st.candidates
    ensures c.Some? ==> c.value == st.candidates[st.session.currentCandidateId.value]
  {
    var id := st.session.currentCandidateId;
    if Truthy(id) && id.value in st.candidates then Some(st.candidates[id.value]) else None
  }

  /** The actions the slice exports, for stating facts about all reducers at once. */
  datatype Action =
    | SetActiveTabAction(tab: Tab)
    | SetDarkModeAction(on: bool)
    | UpsertCandidateAction(record: CandidateRecord)
    | UpdateCandidateAction(id: string, patch: RecordPatch)
    | SetSessionAction(sessionPatch: SessionPatch)
    | ResetSessionAction

  function Reduce(st: AppState, a: Action): AppState
  {
    match a
    case SetActiveTabAction(tab) => SetActiveTab(st, tab)
    case SetDarkModeAction(on) => SetDarkMode(st, on)
    case UpsertCandidateAction(c) => UpsertCandidate(st, c)
    case UpdateCandidateAction(id, p) => UpdateCandidate(st, id, p)
    case SetSessionAction(p) => SetSession(st, p)
    case ResetSessionAction => ResetSession(st)
  }

  /** Every reducer keeps the order list duplicate-free and in step with the record map. */
  lemma ReducePreservesValid(st: AppState, a: Action)
    requires Valid(st)
    ensures Valid(Reduce(st, a))
  {
    match a
    case UpsertCandidateAction(c) =>
      var r := UpsertCandidate(st, c);
      forall id | id in r.candidates
        ensures id in r.candidateOrder
      {
        if id != c.id {
          assert id in st.candidates;
          assert id in st.candidateOrder;
        }
      }
    case _ =>
  }

  /** Every record is stored under its own id. */
  predicate KeyedById(st: AppState) {
    forall k :: k in st.candidates ==> st.candidates[k].id == k
  }

  /** Storing a record under a new id appends that id to the order list and keeps both invariants. */
  lemma UpsertFreshCandidate(st: AppState, c: CandidateRecord)
    requires Valid(st) && KeyedById(st) && c.id !in st.candidates
    ensures UpsertCandidate(st, c).candidateOrder == st.candidateOrder + [c.id]
    ensures Valid(UpsertCandidate(st, c)) && KeyedById(UpsertCandidate(st, c))
  {
    ReducePreservesValid(st, UpsertCandidateAction(c));
  }

  /** Only a patch that rewrites a record's id can break the keying; the application never sends one. */
  lemma ReducePreservesKeyedById(st: AppState, a: Action)
    requires KeyedById(st)
    requires a.UpdateCandidateAction? ==> a.patch.id.None? || a.patch.id.value == a.id
    ensures KeyedById(Reduce(st, a))
  {
  }

  /** A whole run of dispatched actions keeps the invariant. */
  function ReduceAll(st: AppState, actions: seq<Action>): AppState
    decreases |actions|
  {
    if actions == [] then st else ReduceAll(Reduce(st, actions[0]), actions[1..])
  }

  lemma {:induction false} ReduceAllPreservesValid(st: AppState, actions: seq<Action>)
    requires Valid(st)
    ensures Valid(ReduceAll(st, actions))
    decreases |actions|
  {
    if actions != [] {
      ReducePreservesValid(st, actions[0]);
      ReduceAllPreservesValid(Reduce(st, actions[0]), actions[1..]);
    }
  }
}

=== FILE: summary.dfy ===
/**
 * The summary generator of the engine: per-difficulty averages of the
 * question scores, strength and improvement tags, and the one-sentence
 * summary built from them.
 */
module Summary {
  import opened Optional
  import opened Text
  import opened JsMath
  import opened Store

  /** `q.score || 0`: an unscored question counts as 0. */
  function ScoreOrZero(q: QAItem): int
  {
    q.score.GetOr(0)
  }

  function Sum(s: seq<int>): int
  {
    if s == [] then 0 else s[0] + Sum(s[1..])
  }

  predicate AllWithin(s: seq<int>, lo: int, hi: int) {
    forall i :: 0 <= i < |s| ==> lo <= s[i] <= hi
  }

  lemma {:induction false} SumBounds(s: seq<int>, lo: int, hi: int)
    requires AllWithin(s, lo, hi)
    ensures lo * |s| <= Sum(s) <= hi * |s|
  {
    if s != [] {
      SumBounds(s[1..], lo, hi);
    }
  }

  /** The scores (or 0) of the questions of one difficulty, in question order. */
  function BucketScores(qas: seq<QAItem>, d: Difficulty): seq<int>
  {
    Map(Filter(qas, (q: QAItem) => q.difficulty == d), ScoreOrZero)
  }

  /**
   * `average`: 0 for no numbers, otherwise the mean rounded to one decimal.
   * The mean of scores in 0..100 stays in 0..100.
   */
  function Average(nums: seq<int>): (r: real)
    ensures |nums| == 0 ==> r == 0.0
    ensures |nums| > 0 ==> var m := Sum(nums) as real / |nums| as real;
      m - 0.05 < r <= m + 0.05
    ensures (r * 10.0).Floor as real == r * 10.0
    ensures AllWithin(nums, 0, 100) ==> 0.0 <= r <= 100.0
  {
    if |nums| == 0 then 0.0
    else
      var mean := Sum(nums) as real / |nums| as real;
      MeanWithin(nums);
      var tenths := Round(mean * 10.0);
      TenthsNear(mean, tenths);
      tenths as real / 10.0
  }

  /** Rounding `10x` to the nearest integer and dividing by ten lands within 0.05 of `x`. */
  lemma TenthsNear(x: real, tenths: int)
    requires x * 10.0 - 0.5 < tenths as real <= x * 10.0 + 0.5
    ensures x - 0.05 < tenths as real / 10.0 <= x + 0.05
    ensures (tenths as real / 10.0 * 10.0).Floor as real == tenths as real / 10.0 * 10.0
  {
    assert tenths as real / 10.0 * 10.0 == tenths as real;
  }

  /** The mean of numbers in 0..100 is in 0..100. */
  lemma MeanBounds(nums: seq<int>)
    requires |nums| > 0
    ensures AllWithin(nums, 0, 100) ==> 0.0 <= Sum(nums) as real / |nums| as real <= 100.0
  {
    if AllWithin(nums, 0, 100) {
      SumBounds(nums, 0, 100);
      QuotientWithin(Sum(nums) as real, |nums| as real, 100.0);
    }
  }

  /** A total between 0 and `hi` times a positive count has its quotient between 0 and `hi`. */
  lemma QuotientWithin(total: real, n: real, hi: real)
    requires n > 0.0 && 0.0 <= total <= hi * n
    ensures 0.0 <= total / n <= hi
  {
    assert (total / n) * n == total;
  }

  lemma MeanWithin(nums: seq<int>)
    requires |nums| > 0
    ensures AllWithin(nums, 0, 100) ==>
      0 <= Round(Sum(nums) as real / |nums| as real * 10.0) <= 1000
  {
    MeanBounds(nums);
    if AllWithin(nums, 0, 100) {
      RoundWithin(Sum(nums) as real / |nums| as real * 10.0, 0, 1000);
    }
  }

  /**
   * A tag for every bucket whose average is (tied-)highest, so there is
   * always at least one.
   */
  function Strengths(easy: real, medium: real, hard: real): (tags: seq<string>)
    ensures 1 <= |tags| <= 3
    ensures ("fundamentals" in tags) <==> easy >= medium && easy >= hard
    ensures ("application design" in tags) <==> medium >= easy && medium >= hard
    ensures ("scalability and depth" in tags) <==> hard >= easy && hard >= medium
  {
    (if easy >= medium && easy >= hard then ["fundamentals"] else [])
    + (if medium >= easy && medium >= hard then ["application design"] else [])
    + (if hard >= easy && hard >= medium then ["scalability and depth"] else [])
  }

  function Areas(medium: real, hard: real): (tags: seq<string>)
    ensures ("deep system understanding" in tags) <==> hard < 50.0
    ensures ("architecture and API design" in tags) <==> medium < 50.0
  {
    (if hard < 50.0 then ["deep system understanding"] else [])
    + (if medium < 50.0 then ["architecture and API design"] else [])
  }

  /** `areas.join(', ') || 'n/a'`. */
  function ImprovementText(medium: real, hard: real): (text: string)
    ensures text == "n/a" <==> hard >= 50.0 && medium >= 50.0
  {
    var areas := Areas(medium, hard);
    if areas == [] then "n/a" else Join(areas, ", ")
  }

  /** The closing sentence, 'Improvement areas: <areas or n/a>.'. */
  function ImprovementLine(medium: real, hard: real): string {
    "Improvement areas: " + ImprovementText(medium, hard) + "."
  }

  /** `summarizeCandidate`: "<name> scored <n>. Strengths: ... Improvement areas: ...". */
  function SummarizeCandidate(name: string, qas: seq<QAItem>, finalScore: int): (text: string)
    ensures StartsWith(text, name + " scored " + IntToString(finalScore) + ". ")
    ensures var tags := Strengths(Average(BucketScores(qas, Easy)), Average(BucketScores(qas, Medium)),
                                  Average(BucketScores(qas, Hard)));
      && StartsWith(text, name + " scored " + IntToString(finalScore) + ". " + ("Strengths: " + Join(tags, ", ") + ". "))
      && OccursAt(text, "Strengths: " + tags[0], |name + " scored " + IntToString(finalScore) + ". "|)
    ensures EndsWith(text, "Improvement areas: n/a.") <==>
      Average(BucketScores(qas, Hard)) >= 50.0 && Average(BucketScores(qas, Medium)) >= 50.0
  {
    var easy := Average(BucketScores(qas, Easy));
    var medium := Average(BucketScores(qas, Medium));
    var hard := Average(BucketScores(qas, Hard));
    var lead := name + " scored " + IntToString(finalScore) + ". ";
    var strengths := "Strengths: " + Join(Strengths(easy, medium, hard), ", ") + ". ";
    var tail := ImprovementLine(medium, hard);
    var text := lead + strengths + tail;
    SuffixOfSummary(lead + strengths, medium, hard);
    LeadStaysInFront(lead, strengths, tail);
    StrengthsFollowLead(lead, Strengths(easy, medium, hard), tail);
    text
  }

  /** The sentence after the lead lists the strengths, and so names at least the first of them. */
  lemma StrengthsFollowLead(lead: string, tags: seq<string>, tail: string)
    requires |tags| >= 1
    ensures var sentence := "Strengths: " + Join(tags, ", ") + ". ";
      && StartsWith(lead + sentence + tail, lead + sentence)
      && OccursAt(lead + sentence + tail, "Strengths: " + tags[0], |lead|)
  {
    JoinStartsWithFirst(tags, ", ");
    OpenerInFront(lead, "Strengths: ", Join(tags, ", "), ". ", tail, tags[0]);
  }

  /** After a lead, an opener followed by a body that starts with `first` shows `opener + first`. */
  lemma OpenerInFront(lead: string, opener: string, body: string, closer: string, tail: string, first: string)
    requires StartsWith(body, first)
    ensures StartsWith(lead + (opener + body + closer) + tail, lead + (opener + body + closer))
    ensures OccursAt(lead + (opener + body + closer) + tail, opener + first, |lead|)
  {
    var sentence := opener + body + closer;
    var text := lead + sentence + tail;
    assert text[..|lead + sentence|] == lead + sentence;
    assert text[|lead|..|lead| + |opener + first|] == opener + first by {
      forall j | 0 <= j < |opener + first|
        ensures text[|lead| + j] == (opener + first)[j]
      {
        if j >= |opener| {
          assert body[j - |opener|] == first[j - |opener|];
        }
      }
    }
  }

  /** Whatever follows, the text still opens with its lead. */
  lemma LeadStaysInFront(lead: string, middle: string, tail: string)
    ensures StartsWith(lead + middle + tail, lead)
  {
    assert (lead + middle + tail)[..|lead|] == lead;
  }

  /** The closing words name 'n/a' exactly when no improvement area was found. */
  lemma SuffixOfSummary(head: string, medium: real, hard: real)
    ensures EndsWith(head + ImprovementLine(medium, hard), "Improvement areas: n/a.") <==>
      hard >= 50.0 && medium >= 50.0
  {
    var improvements := ImprovementText(medium, hard);
    var text := head + ImprovementLine(medium, hard);
    if hard >= 50.0 && medium >= 50.0 {
      assert text[|text| - 23..] == "Improvement areas: n/a.";
    } else {
      if hard < 50.0 && medium < 50.0 {
        var areas := Areas(medium, hard);
        assert areas == ["deep system understanding", "architecture and API design"];
        assert areas[1..] == ["architecture and API design"];
        assert improvements == Join(areas, ", ");
        assert Join(areas[1..], ", ") == areas[1];
        assert improvements == areas[0] + ", " + areas[1];
        assert improvements[|improvements| - 2] == areas[1][|areas[1]| - 2] == 'g';
      } else if hard < 50.0 {
        assert improvements == "deep system understanding";
      } else {
        assert improvements == "architecture and API design";
      }
      assert text[|text| - 3] == improvements[|improvements| - 2] != '/';
    }
  }

  /** Easy answers averaging 90, medium 40 and hard 30: one strength, two improvement areas. */
  lemma SummaryExample()
    ensures Strengths(90.0, 40.0, 30.0) == ["fundamentals"]
    ensures Areas(40.0, 30.0) == ["deep system understanding", "architecture and API design"]
  {
  }
}

=== FILE: text.dfy ===
/**
 * The JavaScript string and array built-ins the application leans on, as pure
 * functions over `string` (= `seq<char>`): the `\s` character class, `trim`,
 * `split(/\s+/)`, `join`, `includes`, ASCII case mapping, run replacement with
 * `replace(/[...]+/g, ' ')`, and decimal numerals.
 */
module Text {

  // ---------------------------------------------------------------------------
  // Character classes
  // ---------------------------------------------------------------------------

  /** JavaScript's WhiteSpace and LineTerminator code points: what `\s` matches and `trim` strips. */
  predicate IsSpace(c: char) {
    || c == ' ' || c == '\t' || c == '\n' || c == '\r' || c == '\U{000B}' || c == '\U{000C}'
    || c == '\U{00A0}' || c == '\U{1680}' || ('\U{2000}' <= c <= '\U{200A}')
    || c == '\U{2028}' || c == '\U{2029}' || c == '\U{202F}' || c == '\U{205F}'
    || c == '\U{3000}' || c == '\U{FEFF}'
  }

  /** The characters a regular-expression `.` does not match. */
  predicate IsLineTerminator(c: char) {
    c == '\n' || c == '\r' || c == '\U{2028}' || c == '\U{2029}'
  }

  predicate IsUpper(c: char) { 'A' <= c <= 'Z' }

  predicate IsLower(c: char) { 'a' <= c <= 'z' }

  predicate IsLetter(c: char) { IsUpper(c) || IsLower(c) }

  predicate IsDigit(c: char) { '0' <= c <= '9' }

  /** The `\w` class, which decides where `\b` word boundaries are. */
  predicate IsWordChar(c: char) { IsLetter(c) || IsDigit(c) || c == '_' }

  predicate NoSpace(s: string) {
    forall i :: 0 <= i < |s| ==> !IsSpace(s[i])
  }

  /** A non-empty token of a whitespace split. */
  predicate IsWord(w: string) {
    w != [] && NoSpace(w)
  }

  predicate AllWords(ws: seq<string>) {
    forall k :: 0 <= k < |ws| ==> IsWord(ws[k])
  }

  // ---------------------------------------------------------------------------
  // Case mapping (ASCII letters only)
  // ---------------------------------------------------------------------------

  function LowerChar(c: char): (r: char)
    ensures !IsUpper(r)
    ensures IsUpper(c) ==> IsLower(r)
    ensures !IsUpper(c) ==> r == c
    ensures IsSpace(r) <==> IsSpace(c)
  {
    if IsUpper(c) then (c as int + 32) as char else c
  }

  function UpperChar(c: char): (r: char)
    ensures !IsLower(r)
    ensures IsLower(c) ==> IsUpper(r)
    ensures !IsLower(c) ==> r == c
    ensures IsSpace(r) <==> IsSpace(c)
  {
    if IsLower(c) then (c as int - 32) as char else c
  }

  function ToLower(s: string): (r: string)
    ensures |r| == |s|
    ensures forall i :: 0 <= i < |s| ==> r[i] == LowerChar(s[i])
  {
    seq(|s|, i requires 0 <= i < |s| => LowerChar(s[i]))
  }

  function ToUpper(s: string): (r: string)
    ensures |r| == |s|
    ensures forall i :: 0 <= i < |s| ==> r[i] == UpperChar(s[i])
  {
    seq(|s|, i requires 0 <= i < |s| => UpperChar(s[i]))
  }

  // ---------------------------------------------------------------------------
  // Searching
  // ---------------------------------------------------------------------------

  predicate OccursAt(s: string, sub: string, i: int) {
    0 <= i && i + |sub| <= |s| && s[i..i + |sub|] == sub
  }

  /** `s.includes(sub)`. */
  predicate Contains(s: string, sub: string) {
    exists i :: 0 <= i <= |s| - |sub| && OccursAt(s, sub, i)
  }

  predicate StartsWith(s: string, prefix: string) {
    |prefix| <= |s| && s[..|prefix|] == prefix
  }

  predicate EndsWith(s: string, suffix: string) {
    |suffix| <= |s| && s[|s| - |suffix|..] == suffix
  }

  lemma ContainsEmpty(s: string)
    ensures Contains(s, "")
  {
    assert OccursAt(s, "", 0);
  }

  /** Index of the first whitespace character, or `|s|` when there is none. */
  function FirstSpace(s: string): (i: nat)
    ensures i <= |s|
    ensures forall k :: 0 <= k < i ==> !IsSpace(s[k])
    ensures i < |s| ==> IsSpace(s[i])
  {
    if s == [] then 0
    else if IsSpace(s[0]) then 0
    else 1 + FirstSpace(s[1..])
  }

  /** Index of the first occurrence of `c`, or `|s|` when there is none. */
  function IndexOf(s: string, c: char): (i: nat)
    ensures i <= |s|
    ensures forall k :: 0 <= k < i ==> s[k] != c
    ensures i < |s| ==> s[i] == c
  {
    if s == [] then 0
    else if s[0] == c then 0
    else 1 + IndexOf(s[1..], c)
  }

  // ---------------------------------------------------------------------------
  // Trimming
  // ---------------------------------------------------------------------------

  function TrimStart(s: string): (r: string)
    ensures |r| <= |s| && r == s[|s| - |r|..]
    ensures r == [] || !IsSpace(r[0])
    ensures forall i :: 0 <= i < |s| - |r| ==> IsSpace(s[i])
    ensures s != [] && IsSpace(s[0]) ==> |r| < |s|
  {
    if s != [] && IsSpace(s[0]) then TrimStart(s[1..]) else s
  }

  function TrimEnd(s: string): (r: string)
    ensures |r| <= |s| && r == s[..|r|]
    ensures r == [] || !IsSpace(r[|r| - 1])
    ensures forall i :: |r| <= i < |s| ==> IsSpace(s[i])
  {
    if s != [] && IsSpace(s[|s| - 1]) then TrimEnd(s[..|s| - 1]) else s
  }

  /** `s.trim()`. */
  function Trim(s: string): (r: string)
    ensures r == [] || (!IsSpace(r[0]) && !IsSpace(r[|r| - 1]))
    ensures exists k :: 0 <= k <= |s| - |r| && OccursAt(s, r, k)
  {
    var a := TrimStart(s);
    var r := TrimEnd(a);
    assert OccursAt(s, r, |s| - |a|);
    r
  }

  /** A string that already has non-space ends is its own trim. */
  lemma TrimOfTrimmed(s: string)
    requires s == [] || (!IsSpace(s[0]) && !IsSpace(s[|s| - 1]))
    ensures Trim(s) == s
  {
  }

  // ---------------------------------------------------------------------------
  // Splitting and joining
  // ---------------------------------------------------------------------------

  /**
   * `s.split(/\s+/)`: the pieces between maximal whitespace runs. A leading
   * or trailing run yields an empty first or last piece, and '' splits to [''].
   */
  function SplitWs(s: string): (parts: seq<string>)
    ensures |parts| >= 1
    ensures forall k :: 0 <= k < |parts| ==> NoSpace(parts[k])
    decreases |s|
  {
    var i := FirstSpace(s);
    if i == |s| then [s]
    else
      var rest := SplitWs(TrimStart(s[i..]));
      ConsNoSpacePieces(s[..i], rest);
      [s[..i]] + rest
  }

  /** A space-free piece in front of space-free pieces leaves every piece space-free. */
  lemma ConsNoSpacePieces(head: string, tail: seq<string>)
    requires NoSpace(head)
    requires forall k :: 0 <= k < |tail| ==> NoSpace(tail[k])
    ensures forall k :: 0 <= k < |[head] + tail| ==> NoSpace(([head] + tail)[k])
  {
    var parts := [head] + tail;
    forall k | 0 < k < |parts|
      ensures parts[k] == tail[k - 1]
    {
    }
  }

  /** `s.split(c)` for a single-character separator. */
  function SplitOn(s: string, c: char): (parts: seq<string>)
    ensures |parts| >= 1
    ensures forall k :: 0 <= k < |parts| ==> c !in parts[k]
    decreases |s|
  {
    var i := IndexOf(s, c);
    if i == |s| then [s]
    else [s[..i]] + SplitOn(s[i + 1..], c)
  }

  lemma {:induction false} IndexOfAfterPiece(w: string, c: char, t: string)
    requires c !in w
    ensures IndexOf(w + [c] + t, c) == |w|
    decreases |w|
  {
    if w != [] {
      assert (w + [c] + t)[1..] == w[1..] + [c] + t;
      IndexOfAfterPiece(w[1..], c, t);
    }
  }

  /** Splitting at the first separator peels off the piece before it. */
  lemma SplitOnAfterPiece(w: string, c: char, t: string)
    requires c !in w
    ensures SplitOn(w + [c] + t, c) == [w] + SplitOn(t, c)
  {
    var s := w + [c] + t;
    IndexOfAfterPiece(w, c, t);
    assert s[..|w|] == w;
    assert s[|w| + 1..] == t;
  }

  /** A string without the separator splits into itself. */
  lemma SplitOnWithout(t: string, c: char)
    requires c !in t
    ensures SplitOn(t, c) == [t]
  {
    assert IndexOf(t, c) == |t|;
  }

  /** `parts.join(sep)`. */
  function Join(parts: seq<string>, sep: string): string
  {
    if |parts| == 0 then ""
    else if |parts| == 1 then parts[0]
    else parts[0] + sep + Join(parts[1..], sep)
  }

  /** A join opens with its first part. */
  lemma JoinStartsWithFirst(parts: seq<string>, sep: string)
    requires |parts| >= 1
    ensures StartsWith(Join(parts, sep), parts[0])
  {
    if |parts| > 1 {
      assert Join(parts, sep)[..|parts[0]|] == parts[0];
    }
  }

  lemma {:induction false} FirstSpaceAfterWord(w: string, t: string)
    requires NoSpace(w)
    requires t != [] && IsSpace(t[0])
    ensures FirstSpace(w + t) == |w|
    decreases |w|
  {
    if w != [] {
      assert (w + t)[1..] == w[1..] + t;
      FirstSpaceAfterWord(w[1..], t);
    }
  }

  /** A space-joined list of words starts and ends with a character of a word. */
  lemma {:induction false} JoinEnds(ws: seq<string>)
    requires |ws| >= 1 && AllWords(ws)
    ensures var j := Join(ws, " ");
      j != [] && j[0] == ws[0][0] && j[|j| - 1] == ws[|ws| - 1][|ws[|ws| - 1]| - 1]
  {
    assert IsWord(ws[0]);
    if |ws| > 1 {
      var tail := ws[1..];
      AllWordsTail(ws);
      JoinEnds(tail);
      var rest := Join(tail, " ");
      var j := ws[0] + " " + rest;
      assert Join(ws, " ") == j;
      assert j[0] == ws[0][0];
      assert j[|j| - 1] == rest[|rest| - 1];
      assert tail[|tail| - 1] == ws[|ws| - 1];
    }
  }

  /** Dropping the first word leaves words. */
  lemma AllWordsTail(ws: seq<string>)
    requires |ws| >= 1 && AllWords(ws)
    ensures AllWords(ws[1..])
  {
    var tail := ws[1..];
    forall k | 0 <= k < |tail|
      ensures IsWord(tail[k])
    {
      assert tail[k] == ws[k + 1];
    }
  }

  /** One space before a string that starts with a non-space is trimmed away exactly. */
  lemma TrimStartOneSpace(rest: string)
    requires rest != [] && !IsSpace(rest[0])
    ensures TrimStart(" " + rest) == rest
  {
    assert (" " + rest)[1..] == rest;
  }

  /** A non-empty sequence is its head followed by its tail. */
  lemma HeadThenTail<T>(s: seq<T>)
    requires |s| >= 1
    ensures [s[0]] + s[1..] == s
  {
  }

  /** Splitting a space-joined list of words gives the words back. */
  lemma {:induction false} SplitJoin(ws: seq<string>)
    requires |ws| >= 1 && AllWords(ws)
    ensures SplitWs(Join(ws, " ")) == ws
  {
    if |ws| == 1 {
      assert FirstSpace(ws[0]) == |ws[0]|;
    } else {
      var tail := ws[1..];
      AllWordsTail(ws);
      var rest := Join(tail, " ");
      JoinEnds(tail);
      var i := |ws[0]|;
      var s := ws[0] + (" " + rest);
      assert Join(ws, " ") == s;
      FirstSpaceAfterWord(ws[0], " " + rest);
      assert s[..i] == ws[0];
      assert s[i..] == " " + rest;
      TrimStartOneSpace(rest);
      SplitWsStep(s, i);
      SplitJoin(tail);
      HeadThenTail(ws);
    }
  }

  /** Splitting a list joined at a character none of its elements holds gives the list back. */
  lemma {:induction false} SplitOnJoin(ls: seq<string>, c: char)
    requires |ls| >= 1
    requires forall k :: 0 <= k < |ls| ==> c !in ls[k]
    ensures SplitOn(Join(ls, [c]), c) == ls
  {
    if |ls| == 1 {
      SplitOnWithout(ls[0], c);
    } else {
      var tail := ls[1..];
      assert forall k :: 0 <= k < |tail| ==> tail[k] == ls[k + 1];
      SplitOnJoin(tail, c);
      assert Join(ls, [c]) == ls[0] + [c] + Join(tail, [c]);
      SplitOnAfterPiece(ls[0], c, Join(tail, [c]));
      assert ls == [ls[0]] + tail;
    }
  }

  /** One step of the whitespace split: the piece before the first whitespace run, then the rest. */
  lemma SplitWsStep(s: string, i: nat)
    requires i == FirstSpace(s) && i < |s|
    ensures SplitWs(s) == [s[..i]] + SplitWs(TrimStart(s[i..]))
  {
  }

  /** Trimming the front of a string that ends in a non-space keeps that last character. */
  lemma TrimStartKeepsLast(t: string)
    requires t != [] && !IsSpace(t[|t| - 1])
    ensures TrimStart(t) != [] && TrimStart(t)[|TrimStart(t)| - 1] == t[|t| - 1]
  {
  }

  /** A trimmed, non-empty string splits into words: no empty piece at either end or between. */
  lemma SplitTrimmedIsWords(s: string)
    requires s != [] && !IsSpace(s[0]) && !IsSpace(s[|s| - 1])
    ensures AllWords(SplitWs(s))
  {
    SplitTrimmedNonEmpty(s);
    var parts := SplitWs(s);
    forall k | 0 <= k < |parts|
      ensures IsWord(parts[k])
    {
      assert parts[k] != [];
    }
  }

  /** No piece of the list is the empty string. */
  predicate NoEmptyPiece(parts: seq<string>) {
    forall k :: 0 <= k < |parts| ==> parts[k] != []
  }

  lemma ConsNoEmptyPiece(head: string, tail: seq<string>)
    requires head != [] && NoEmptyPiece(tail)
    ensures NoEmptyPiece([head] + tail)
  {
    var parts := [head] + tail;
    forall k | 0 <= k < |parts|
      ensures parts[k] != []
    {
      if k > 0 {
        assert parts[k] == tail[k - 1];
      }
    }
  }

  lemma {:induction false} SplitTrimmedNonEmpty(s: string)
    requires s != [] && !IsSpace(s[0]) && !IsSpace(s[|s| - 1])
    ensures NoEmptyPiece(SplitWs(s))
    decreases |s|
  {
    var i := FirstSpace(s);
    if i < |s| {
      var t := s[i..];
      var rest := TrimStart(t);
      assert t[|t| - 1] == s[|s| - 1];
      TrimStartKeepsLast(t);
      SplitTrimmedNonEmpty(rest);
      SplitWsStep(s, i);
      assert s[..i] != [] by {
        assert i > 0;
      }
      ConsNoEmptyPiece(s[..i], SplitWs(rest));
    } else {
      assert SplitWs(s) == [s];
    }
  }

  /** Every character of `s` satisfies `p`. */
  predicate AllChars(s: string, p: char -> bool) {
    forall i :: 0 <= i < |s| ==> p(s[i])
  }

  /** Trimming only drops characters, so it keeps any property every character had. */
  lemma TrimKeepsChars(s: string, p: char -> bool)
    requires AllChars(s, p)
    ensures AllChars(Trim(s), p)
  {
    var r := Trim(s);
    var k :| 0 <= k <= |s| - |r| && OccursAt(s, r, k);
    OccurrenceChars(s, r, k, p);
  }

  /** A piece found inside a string is made of that string's characters. */
  lemma OccurrenceChars(s: string, r: string, k: int, p: char -> bool)
    requires OccursAt(s, r, k) && AllChars(s, p)
    ensures AllChars(r, p)
  {
    SliceChars(s, k, k + |r|, p);
  }

  /** A slice keeps any property every character had. */
  lemma SliceChars(s: string, a: nat, b: nat, p: char -> bool)
    requires AllChars(s, p) && a <= b <= |s|
    ensures AllChars(s[a..b], p)
  {
    forall j | 0 <= j < b - a
      ensures p(s[a..b][j])
    {
      assert s[a..b][j] == s[a + j];
    }
  }

  /** What is left after a whitespace run is a suffix, so it keeps the property too. */
  lemma TrimStartChars(s: string, i: nat, p: char -> bool)
    requires AllChars(s, p) && i <= |s|
    ensures AllChars(TrimStart(s[i..]), p)
  {
    var t := s[i..];
    SuffixChars(s, i, p);
    SuffixChars(t, |t| - |TrimStart(t)|, p);
  }

  /** A suffix keeps any property every character had. */
  lemma SuffixChars(s: string, i: nat, p: char -> bool)
    requires AllChars(s, p) && i <= |s|
    ensures AllChars(s[i..], p)
  {
    forall j | 0 <= j < |s| - i
      ensures p(s[i..][j])
    {
      assert s[i..][j] == s[i + j];
    }
  }

  /** The pieces of a whitespace split are made of the string's own characters. */
  lemma {:induction false} SplitWsChars(s: string, p: char -> bool)
    requires AllChars(s, p)
    ensures forall k :: 0 <= k < |SplitWs(s)| ==> AllChars(SplitWs(s)[k], p)
    decreases |s|
  {
    var i := FirstSpace(s);
    if i == |s| {
      assert SplitWs(s) == [s];
    } else {
      var rest := TrimStart(s[i..]);
      TrimStartChars(s, i, p);
      SplitWsChars(rest, p);
      assert s[..i] == s[0..i];
      SliceChars(s, 0, i, p);
      SplitWsStep(s, i);
      ConsChars(s[..i], SplitWs(rest), p);
    }
  }

  lemma ConsChars(head: string, tail: seq<string>, p: char -> bool)
    requires AllChars(head, p)
    requires forall k :: 0 <= k < |tail| ==> AllChars(tail[k], p)
    ensures forall k :: 0 <= k < |[head] + tail| ==> AllChars(([head] + tail)[k], p)
  {
    var all := [head] + tail;
    forall k | 0 <= k < |all|
      ensures AllChars(all[k], p)
    {
      if k > 0 {
        assert all[k] == tail[k - 1];
      }
    }
  }

  /** A join of strings and a separator made of `p`-characters is made of them too. */
  lemma {:induction false} JoinChars(ws: seq<string>, sep: string, p: char -> bool)
    requires forall k :: 0 <= k < |ws| ==> AllChars(ws[k], p)
    requires AllChars(sep, p)
    ensures AllChars(Join(ws, sep), p)
  {
    if |ws| == 1 {
      assert AllChars(ws[0], p);
    } else if |ws| > 1 {
      var tail := ws[1..];
      assert forall k :: 0 <= k < |tail| ==> tail[k] == ws[k + 1];
      JoinChars(tail, sep, p);
      var rest := Join(tail, sep);
      var j := ws[0] + sep + rest;
      assert Join(ws, sep) == j;
      assert AllChars(ws[0], p);
      forall i | 0 <= i < |j|
        ensures p(j[i])
      {
        if i < |ws[0]| {
          assert j[i] == ws[0][i];
        } else if i < |ws[0]| + |sep| {
          assert j[i] == sep[i - |ws[0]|];
        } else {
          assert j[i] == rest[i - |ws[0]| - |sep|];
        }
      }
    }
  }

  lemma {:induction false} JoinAllWordsCharacters(ws: seq<string>)
    requires AllWords(ws)
    ensures PlainSpaces(Join(ws, " ")) && NoDoubleSpace(Join(ws, " "))
  {
    if |ws| > 1 {
      JoinAllWordsCharacters(ws[1..]);
      JoinEnds(ws[1..]);
      var rest := Join(ws[1..], " ");
      var j := ws[0] + " " + rest;
      assert Join(ws, " ") == j;
      forall i | 0 <= i < |j| && IsSpace(j[i])
        ensures j[i] == ' '
      {
        if i > |ws[0]| {
          assert j[i] == rest[i - |ws[0]| - 1];
        }
      }
      forall i | 0 <= i < |j| - 1
        ensures !(IsSpace(j[i]) && IsSpace(j[i + 1]))
      {
        if i > |ws[0]| {
          assert j[i] == rest[i - |ws[0]| - 1];
          assert j[i + 1] == rest[i - |ws[0]|];
        }
      }
    }
  }

  // ---------------------------------------------------------------------------
  // Filtering and mapping
  // ---------------------------------------------------------------------------

  /** `s.filter(p)`: the elements satisfying `p`, in their original order. */
  function Filter<T(!new)>(s: seq<T>, p: T -> bool): (r: seq<T>)
    ensures |r| <= |s|
    ensures forall x :: x in r <==> x in s && p(x)
  {
    if s == [] then []
    else if p(s[0]) then [s[0]] + Filter(s[1..], p)
    else Filter(s[1..], p)
  }

  /** Everything a filter keeps passes the filter and keeps any property every input element had. */
  lemma FilterKeeps<T(!new)>(s: seq<T>, p: T -> bool, q: T -> bool)
    requires forall k :: 0 <= k < |s| ==> q(s[k])
    ensures forall k :: 0 <= k < |Filter(s, p)| ==> p(Filter(s, p)[k]) && q(Filter(s, p)[k])
  {
    var r := Filter(s, p);
    forall k | 0 <= k < |r|
      ensures p(r[k]) && q(r[k])
    {
      assert r[k] in r;
      var j :| 0 <= j < |s| && s[j] == r[k];
    }
  }

  /** Filtering by a predicate every element satisfies returns the sequence itself. */
  lemma {:induction false} FilterAll<T(!new)>(s: seq<T>, p: T -> bool)
    requires forall x :: x in s ==> p(x)
    ensures Filter(s, p) == s
  {
    if s != [] {
      FilterAll(s[1..], p);
      assert s == [s[0]] + s[1..];
    }
  }

  /** `s.map(f)`. */
  function Map<T, U>(s: seq<T>, f: T -> U): (r: seq<U>)
    ensures |r| == |s|
    ensures forall i :: 0 <= i < |s| ==> r[i] == f(s[i])
  {
    seq(|s|, i requires 0 <= i < |s| => f(s[i]))
  }

  /** `s.replace(/[^...]/g, '')`: only the characters `keep` admits. */
  function KeepChars(s: string, keep: char -> bool): (r: string)
    ensures |r| <= |s|
    ensures forall i :: 0 <= i < |r| ==> keep(r[i]) && r[i] in s
  {
    if s == [] then []
    else if keep(s[0]) then [s[0]] + KeepChars(s[1..], keep)
    else KeepChars(s[1..], keep)
  }

  // ---------------------------------------------------------------------------
  // Replacing runs of a character class by one space
  // ---------------------------------------------------------------------------

  /** The character classes the app collapses with `replace(/[...]+/g, ' ')`. */
  datatype CharClass =
    | Spaces                 // \s+
    | Digits                 // \d+
    | UnderscoresDashes      // [_\-]+
    | UnderscoresDotsDashes  // [_.-]+

  predicate InClass(c: char, cls: CharClass) {
    match cls
    case Spaces => IsSpace(c)
    case Digits => IsDigit(c)
    case UnderscoresDashes => c == '_' || c == '-'
    case UnderscoresDotsDashes => c == '_' || c == '.' || c == '-'
  }

  function DropRun(s: string, cls: CharClass): (r: string)
    ensures |r| <= |s| && r == s[|s| - |r|..]
    ensures r == [] || !InClass(r[0], cls)
    ensures s != [] && InClass(s[0], cls) ==> |r| < |s|
  {
    if s != [] && InClass(s[0], cls) then DropRun(s[1..], cls) else s
  }

  /** No character of the class is left except possibly ' '. */
  predicate ClassOnlyAsSpace(r: string, cls: CharClass) {
    forall i :: 0 <= i < |r| && InClass(r[i], cls) ==> r[i] == ' '
  }

  /** No two characters of the class are adjacent. */
  predicate NoClassPair(r: string, cls: CharClass) {
    forall i :: 0 <= i < |r| - 1 ==> !(InClass(r[i], cls) && InClass(r[i + 1], cls))
  }

  /** `s.replace(/[cls]+/g, ' ')`: every maximal run of class characters becomes one space. */
  function ReplaceRuns(s: string, cls: CharClass): (r: string)
    ensures s == [] <==> r == []
    ensures s != [] ==> r[0] == (if InClass(s[0], cls) then ' ' else s[0])
    ensures ClassOnlyAsSpace(r, cls) && NoClassPair(r, cls)
    decreases |s|
  {
    if s == [] then []
    else if InClass(s[0], cls) then
      var rest := ReplaceRuns(DropRun(s, cls), cls);
      ConsKeepsClassSpacing(' ', rest, cls);
      [' '] + rest
    else
      var rest := ReplaceRuns(s[1..], cls);
      ConsKeepsClassSpacing(s[0], rest, cls);
      [s[0]] + rest
  }

  /** A head that is not in the class, or a ' ' before a tail that does not start in it, keeps both properties. */
  lemma ConsKeepsClassSpacing(head: char, tail: string, cls: CharClass)
    requires ClassOnlyAsSpace(tail, cls) && NoClassPair(tail, cls)
    requires InClass(head, cls) ==> head == ' ' && (tail == [] || !InClass(tail[0], cls))
    ensures ClassOnlyAsSpace([head] + tail, cls) && NoClassPair([head] + tail, cls)
  {
    var r := [head] + tail;
    forall i | 0 < i < |r|
      ensures r[i] == tail[i - 1]
    {
    }
  }

  /** Every whitespace character is a plain ' '. */
  predicate PlainSpaces(s: string) {
    forall i :: 0 <= i < |s| && IsSpace(s[i]) ==> s[i] == ' '
  }

  /** No two whitespace characters are adjacent. */
  predicate NoDoubleSpace(s: string) {
    forall i :: 0 <= i < |s| - 1 ==> !(IsSpace(s[i]) && IsSpace(s[i + 1]))
  }

  /** Both properties are local, so every contiguous piece keeps them. */
  lemma SliceKeepsSpacing(s: string, k: int, n: int)
    requires 0 <= k <= k + n <= |s|
    requires PlainSpaces(s) && NoDoubleSpace(s)
    ensures PlainSpaces(s[k..k + n]) && NoDoubleSpace(s[k..k + n])
  {
    var t := s[k..k + n];
    forall i | 0 <= i < |t| && IsSpace(t[i])
      ensures t[i] == ' '
    {
      assert t[i] == s[k + i];
    }
    forall i | 0 <= i < |t| - 1
      ensures !(IsSpace(t[i]) && IsSpace(t[i + 1]))
    {
      assert t[i] == s[k + i] && t[i + 1] == s[k + i + 1];
    }
  }

  /** Replacing whitespace runs is the identity on a string whose runs are single ' '. */
  lemma {:induction false} ReplaceSpacesOfSingleSpaced(s: string)
    requires PlainSpaces(s) && NoDoubleSpace(s)
    ensures ReplaceRuns(s, Spaces) == s
    decreases |s|
  {
    if s != [] {
      var t := s[1..];
      SliceKeepsSpacing(s, 1, |s| - 1);
      assert s[1..|s|] == t;
      ReplaceSpacesOfSingleSpaced(t);
      assert s == [s[0]] + t;
      if IsSpace(s[0]) {
        assert s[0] == ' ';
        if t != [] {
          assert !IsSpace(t[0]) by { assert t[0] == s[1]; }
        }
        assert DropRun(t, Spaces) == t;
        assert DropRun(s, Spaces) == t;
        assert ReplaceRuns(s, Spaces) == [' '] + ReplaceRuns(t, Spaces);
      } else {
        assert ReplaceRuns(s, Spaces) == [s[0]] + ReplaceRuns(t, Spaces);
      }
    }
  }

  /** The run replacement on whitespace yields plain, never-doubled spaces. */
  lemma ReplaceSpacesSpacing(s: string)
    ensures PlainSpaces(ReplaceRuns(s, Spaces)) && NoDoubleSpace(ReplaceRuns(s, Spaces))
  {
  }

  /**
   * Trimmed and single-spaced: no whitespace at either end, every whitespace
   * character a plain ' ', and never two in a row.
   */
  predicate SingleSpaced(s: string) {
    && (s == [] || (!IsSpace(s[0]) && !IsSpace(s[|s| - 1])))
    && PlainSpaces(s)
    && NoDoubleSpace(s)
  }

  /** `s.replace(/\s+/g, ' ').trim()` is always single-spaced. */
  lemma CollapseThenTrim(s: string)
    ensures SingleSpaced(Trim(ReplaceRuns(s, Spaces)))
  {
    ReplaceSpacesSpacing(s);
    TrimKeepsSpacing(ReplaceRuns(s, Spaces));
  }

  /** Trimming a string whose whitespace is plain and never doubled leaves it single-spaced. */
  lemma TrimKeepsSpacing(c: string)
    requires PlainSpaces(c) && NoDoubleSpace(c)
    ensures SingleSpaced(Trim(c))
  {
    var r := Trim(c);
    var k :| 0 <= k <= |c| - |r| && OccursAt(c, r, k);
    OccurrenceKeepsSpacing(c, r, k);
  }

  /** A piece found inside a string keeps its plain, never-doubled whitespace. */
  lemma OccurrenceKeepsSpacing(c: string, r: string, k: int)
    requires OccursAt(c, r, k)
    requires PlainSpaces(c) && NoDoubleSpace(c)
    ensures PlainSpaces(r) && NoDoubleSpace(r)
  {
    SliceKeepsSpacing(c, k, |r|);
  }

  // ---------------------------------------------------------------------------
  // Decimal numerals
  // ---------------------------------------------------------------------------

  predicate AllDigits(s: string) {
    forall i :: 0 <= i < |s| ==> IsDigit(s[i])
  }

  function DigitChar(d: nat): (c: char)
    requires d < 10
    ensures IsDigit(c)
  {
    ('0' as int + d) as char
  }

  function DigitValue(c: char): (d: nat)
    requires IsDigit(c)
    ensures d < 10
  {
    c as int - '0' as int
  }

  /** The decimal numeral of `n`, as `String(n)` prints it. */
  function NatToString(n: nat): (s: string)
    ensures s != [] && AllDigits(s)
  {
    if n < 10 then [DigitChar(n)]
    else NatToString(n / 10) + [DigitChar(n % 10)]
  }

  /** `String(i)` for an integer. */
  function IntToString(i: int): string
  {
    if i < 0 then "-" + NatToString(-i) else NatToString(i)
  }

  /** The value of a string of decimal digits (leading zeros allowed, '' is 0). */
  function ParseDigits(s: string): nat
    requires AllDigits(s)
  {
    if s == [] then 0
    else 10 * ParseDigits(s[..|s| - 1]) + DigitValue(s[|s| - 1])
  }

  /** Reading a printed numeral back gives the number. */
  lemma {:induction false} ParsePrinted(n: nat)
    ensures ParseDigits(NatToString(n)) == n
  {
    if n >= 10 {
      var s := NatToString(n);
      assert s[..|s| - 1] == NatToString(n / 10);
      ParsePrinted(n / 10);
    }
  }
}

=== FILE: upload.dfy ===
/**
 * The résumé upload handler: read the file's text, pull a profile out of it
 * (falling back to a name taken from the file name), store a fresh candidate
 * record and move the session to the profile step. A file of the wrong kind,
 * or one whose extractor fails, leaves the state untouched.
 */
module Upload {
  import opened Optional
  import opened Text
  import opened Store
  import opened Resume

  /** The transcript line every new record starts with. */
  const UploadedNote: string := "Resume uploaded and parsed."

  /**
   * The stored name: the name read from the text when it is non-empty,
   * otherwise the name derived from the file name, otherwise ''.
   */
  function ResolvedName(extracted: Option<string>, fileName: string): (name: string)
    ensures Truthy(extracted) ==> name == extracted.value
    ensures !Truthy(extracted) && DeriveNameFromFilename(fileName).Some? ==>
      name == DeriveNameFromFilename(fileName).value
    ensures !Truthy(extracted) && DeriveNameFromFilename(fileName).None? ==> name == ""
  {
    var derived := DeriveNameFromFilename(fileName);
    var chosen := if !Truthy(extracted) && Truthy(derived) then derived else extracted;
    chosen.GetOr("")
  }

  /** The file type kept with the record: the browser's MIME type, or a guess from the name. */
  function FileType(f: FileInfo): (t: string)
    ensures f.mimeType != "" ==> t == f.mimeType
    ensures f.mimeType == "" ==> (t == "docx" <==> EndsWith(f.name, ".docx"))
    ensures f.mimeType == "" ==> (t == "pdf" <==> !EndsWith(f.name, ".docx"))
  {
    OrElse(f.mimeType, if EndsWith(f.name, ".docx") then "docx" else "pdf")
  }

  /** The record stored for a parsed résumé. */
  function NewRecord(id: string, f: FileInfo, p: ExtractedProfile, now: int): CandidateRecord
  {
    CandidateRecord(
      id,
      CandidateProfile(ResolvedName(p.name, f.name), p.email.GetOr(""), p.phone.GetOr(""),
                       Some(ResumeMeta(f.name, FileType(f)))),
      [], now, None, None, None,
      [ChatEntry(System, UploadedNote, now)])
  }

  /** Point the session at the new candidate, on the profile step, unpaused. */
  function CollectPatch(id: string): SessionPatch {
    SessionPatch(Some(Some(id)), Some(CollectingProfile), Some(0), None, Some(false))
  }

  /**
   * `beforeUpload`. `extracted` is what the PDF or DOCX extractor returns
   * for the file (or the error it throws), `emailMatch` and `phoneMatch` the
   * first matches of the two patterns in that text, `id` the fresh
   * identifier and `now` the clock.
   */
  function BeforeUpload(st: AppState, now: int, f: FileInfo, extracted: Result<string>,
                        emailMatch: Option<string>, phoneMatch: Option<string>, id: string): (r: AppState)
    ensures GetResumeText(f, extracted).Err? ==> r == st
    ensures GetResumeText(f, extracted).Ok? ==>
      var text := GetResumeText(f, extracted).value;
      var p := ExtractProfile(text, emailMatch, phoneMatch);
      && id in r.candidates
      && r.candidates[id].id == id
      && r.candidates[id].profile.name == ResolvedName(p.name, f.name)
      && r.candidates[id].profile.email == emailMatch.GetOr("")
      && (phoneMatch.Some? ==> r.candidates[id].profile.phone == TidyPhone(phoneMatch.value))
      && (phoneMatch.None? ==> r.candidates[id].profile.phone == "")
      && r.candidates[id].profile.resumeMeta == Some(ResumeMeta(f.name, FileType(f)))
      && r.candidates[id].qas == [] && r.candidates[id].startedAt == now
      && r.candidates[id].completedAt.None? && r.candidates[id].finalScore.None?
      && r.candidates[id].summary.None?
      && r.candidates[id].chatHistory == [ChatEntry(System, UploadedNote, now)]
      && (forall k :: k in st.candidates && k != id ==> k in r.candidates && r.candidates[k] == st.candidates[k])
      && r.candidates.Keys == st.candidates.Keys + {id}
      && r.ui == st.ui
      && r.session == st.session.(currentCandidateId := Some(id), interviewStage := CollectingProfile,
                                  currentQuestionIndex := 0, paused := false)
  {
    match GetResumeText(f, extracted)
    case Err(_) => st
    case Ok(text) =>
      var p := ExtractProfile(text, emailMatch, phoneMatch);
      SetSession(UpsertCandidate(st, NewRecord(id, f, p, now)), CollectPatch(id))
  }

  /** The stored name is always one-space separated, whichever of its origins it came from. */
  lemma UploadedNameSingleSpaced(st: AppState, now: int, f: FileInfo, extracted: Result<string>,
                                 emailMatch: Option<string>, phoneMatch: Option<string>, id: string)
    requires GetResumeText(f, extracted).Ok?
    ensures SingleSpaced(BeforeUpload(st, now, f, extracted, emailMatch, phoneMatch, id).candidates[id].profile.name)
  {
    var p := ExtractProfile(GetResumeText(f, extracted).value, emailMatch, phoneMatch);
    assert SingleSpaced("");
  }

  /**
   * A fresh id is appended to the end of the order list, exactly once; the
   * record map and the order list stay in step and every record stays under
   * its own id.
   */
  lemma UploadAppendsFreshId(st: AppState, now: int, f: FileInfo, extracted: Result<string>,
                             emailMatch: Option<string>, phoneMatch: Option<string>, id: string)
    requires Valid(st) && KeyedById(st)
    requires id !in st.candidates
    requires GetResumeText(f, extracted).Ok?
    ensures var r := BeforeUpload(st, now, f, extracted, emailMatch, phoneMatch, id);
      && r.candidateOrder == st.candidateOrder + [id]
      && Valid(r) && KeyedById(r)
  {
    var p := ExtractProfile(GetResumeText(f, extracted).value, emailMatch, phoneMatch);
    UpsertFreshCandidate(st, NewRecord(id, f, p, now));
  }

  /** Every upload, successful or not, keeps the order list and the record map in step. */
  lemma UploadKeepsValid(st: AppState, now: int, f: FileInfo, extracted: Result<string>,
                         emailMatch: Option<string>, phoneMatch: Option<string>, id: string)
    requires Valid(st)
    ensures Valid(BeforeUpload(st, now, f, extracted, emailMatch, phoneMatch, id))
  {
    if GetResumeText(f, extracted).Ok? {
      var p := ExtractProfile(GetResumeText(f, extracted).value, emailMatch, phoneMatch);
      StoreAndSelectKeepsValid(st, NewRecord(id, f, p, now), id);
    }
  }

  /** Storing any record and then selecting it keeps the store invariant. */
  lemma StoreAndSelectKeepsValid(st: AppState, rec: CandidateRecord, id: string)
    requires Valid(st)
    ensures Valid(SetSession(UpsertCandidate(st, rec), CollectPatch(id)))
  {
    var a1 := UpsertCandidateAction(rec);
    ReducePreservesValid(st, a1);
    ReducePreservesValid(Reduce(st, a1), SetSessionAction(CollectPatch(id)));
  }

  /**
   * After a successful upload with a non-empty id, the new record is the
   * current candidate, so the profile form opens prefilled with what was
   * extracted.
   */
  lemma UploadSelectsNewCandidate(st: AppState, now: int, f: FileInfo, extracted: Result<string>,
                                  emailMatch: Option<string>, phoneMatch: Option<string>, id: string)
    requires GetResumeText(f, extracted).Ok? && id != ""
    ensures var r := BeforeUpload(st, now, f, extracted, emailMatch, phoneMatch, id);
      && CurrentCandidate(r) == Some(r.candidates[id])
      && r.session.interviewStage == CollectingProfile && !r.session.paused
  {
  }

  /** A file that is neither PDF nor DOCX is refused before any text is read. */
  lemma UnsupportedFileIgnored(st: AppState, now: int, f: FileInfo, extracted: Result<string>,
                               emailMatch: Option<string>, phoneMatch: Option<string>, id: string)
    requires !NamedPdf(f) && !NamedDocx(f)
    ensures BeforeUpload(st, now, f, extracted, emailMatch, phoneMatch, id) == st
  {
  }
}

=== FILE: welcome_back.dfy ===
/**
 * The "Welcome Back" modal: when it shows, when it is open, and the resume
 * button that unpauses the session.
 */
module WelcomeBack {
  import opened Optional
  import opened Store
  import opened Interviewee
  import opened Interview

  /** `show`: a current candidate on the profile step or in the questions. */
  predicate Show(st: AppState) {
    CurrentCandidate(st).Some? && ActiveStage(st.session.interviewStage)
  }

  /** The modal is open while it shows and the session is paused. */
  predicate ModalOpen(st: AppState) {
    Show(st) && st.session.paused
  }

  /** Both the OK and the Cancel handler: unpause, and nothing else. */
  function Resume(st: AppState): (r: AppState)
    ensures !r.session.paused && !ModalOpen(r)
    ensures r.(session := st.session) == st
    ensures r.session.(paused := st.session.paused) == st.session
  {
    SetSession(st, EmptySessionPatch.(paused := Some(false)))
  }

  /** Pausing on mount and then resuming gives back the session that was there before. */
  lemma PauseResumeRoundTrip(st: AppState)
    requires !st.session.paused
    ensures Resume(MountPause(st)) == st
  {
  }

  /** Returning to an unfinished interview always greets the candidate with the modal. */
  lemma MountOpensModal(st: AppState)
    ensures ModalOpen(MountPause(st)) <==> Show(st)
  {
    assert CurrentCandidate(MountPause(st)) == CurrentCandidate(st);
  }

  /** While the modal is open the clock cannot submit an answer on the candidate's behalf. */
  lemma OpenModalBlocksAutoSubmit(st: AppState, tick: int, now: int, answer: string)
    requires ModalOpen(st)
    ensures AutoSubmit(st, tick, now, answer) == st
  {
  }
}
